=== FILE: README.md ===
# A study-assistant chatbot, modelled in Dafny

This project models the logic of a student study-assistant web application:
an Express backend that keeps chat sessions in memory and answers them through
OpenAI or Gemini, a frontend AI service that answers through a RAG server or a
lazily built Gemini chat and never rejects, two keyword-retrieval scripts, and
the pure logic inside the React pages for progress prediction, notes, quizzes,
sign-up, profile and settings.

Everything is immutable data and pure functions. The exceptions are the quiz
shuffle, a method with a loop, and the quiz restart, a method that calls it.

- **Collections.** A session store is a `map<SessionId, seq<Turn>>`. Notes, quiz
  questions and hits are sequences of records.
- **Untyped JavaScript values.** Parsed settings, profile records and RAG answers
  are a `Json` datatype with JavaScript truthiness, property lookup, `??` and `||`.
  A property holding `undefined` is an absent key.
- **Strings.** Strings are `seq<char>`. JavaScript `trim` and Python `strip`
  differ in their white-space sets, so both are modelled, as two `Runtime`s of one
  `Text.Trim`.
- **Outside effects are parameters.** The value `localStorage.getItem` returns,
  what `JSON.parse` makes of it, a `Math.random()` draw, `uuidv4()`,
  `Date.now()`, environment variables and the outcome of each network or SDK
  call are all handed in. The frontend AI service also returns the list of
  upstream calls it made, so "no model is built on the no-key path" can be
  stated.
- **Modules.** There is one module per source component. `Common`, `Text`,
  `JsValue` and `Http` hold the shared vocabulary: `Option`/`Result`, string
  operations, JSON values, and response bodies and status codes.

| module | source |
|---|---|
| `ChatHistoryStore` | backend/services/chatHistoryService.js |
| `AiService` | backend/services/aiService.js |
| `ChatController` | backend/controllers/chat.Controller.js |
| `GeminiController` | backend/controllers/chatController.js |
| `HistoryNormalizer` | `cleanHistory` in frontend/src/components/ChatBubble.jsx |
| `BulletFormatter` | `formatBulletPoints` in frontend/src/components/ChatBubble.jsx |
| `GeminiGateway` | `getAIResponse` in frontend/src/components/ChatBubble.jsx |
| `KeywordSearch` | `simple_search` in rag-api/simple_working_rag.py and rag-api/simple_rag.py (identical) |
| `RagResponses` | `generate_simple_response` in both scripts |
| `ProgressTracker` | src/pages/StudentProgressTracker.jsx |
| `NotesPage` | src/pages/NotesPage.jsx |
| `QuizzesPage` | src/pages/QuizzesPage.jsx |
| `SignupPage` | src/pages/SignupPage.jsx |
| `StudentProfile` | src/pages/StudentProfile.jsx |
| `SettingsPage` | src/pages/SettingsPage.jsx |

Three properties carry most of the proof work:

- **`cleanHistory` against an independent grouping.** `cleanHistory` scans left
  to right with a `lastRole` variable. It is proved equal to a right-to-left
  grouping of maximal same-speaker runs.
- **The e-mail check in both directions.** The model's character scan of
  `/^[^\s@]+@[^\s@]+\.[^\s@]+$/` accepts exactly the strings in the expression's
  language.
- **The keyword search.** The hits are complete and exact. The sort is a
  permutation, descending, and stable. The result is mark-free and stripped.

Some behaviours are proved as the code has them:

- the bullet formatter leaves an already clean bullet list unchanged;
- it splits run-together bullets but not hyphenated words;
- the sample-content RAG script drops a hit of exactly ten characters;
- a password of eight spaces passes sign-up;
- a name with a leading space loses a letter from its initials.

## Model

| member | source | states |
|---|---|---|
| ChatHistoryStore.EmptyStore | backend/services/chatHistoryService.js:2-4 | a fresh service has no history for any session id |
| ChatHistoryStore.GetHistory | backend/services/chatHistoryService.js:6-8 | an unknown id reads as an empty history; a known id reads as its stored turns |
| ChatHistoryStore.AddMessage | backend/services/chatHistoryService.js:10-14 | the session's history gains exactly `{role, content}` at its end, whatever the role and content; every other session is unchanged; the id becomes known |
| ChatHistoryStore.ClearHistory | backend/services/chatHistoryService.js:16-18 | the session reads empty afterwards and is no longer known; other sessions are unchanged; clearing an unknown id is a no-op |
| ChatHistoryStore.GetDoesNotCreate | backend/services/chatHistoryService.js:6-8 | reading an unknown id creates no entry (clearing it afterwards is a no-op) |
| ChatHistoryStore.AddThenClear | backend/services/chatHistoryService.js:10-18 | appending and then clearing a session leaves the same store as clearing alone |
| AiService.BuildMessages | backend/services/aiService.js:8-12 | the message list is the system prompt, then the history in order, then the user message; its length is the history's plus two |
| AiService.PickIndex | backend/services/aiService.js:31 | the draw selects the quarter of [0, 1) it falls in, always a valid phrase index |
| AiService.CannedReply | backend/services/aiService.js:25-32 | the fallback is one of the four phrases followed by ` (You said: "`, the message and `")` |
| AiService.GetAIResponse | backend/services/aiService.js:1-38 | OpenAI is called (with the built message list) exactly when `OPENAI_API_KEY` is set; the first choice is returned; a failed call or an empty choice list becomes the one error "Failed to get AI response"; without a key the canned reply is returned |
| AiService.CannedQuotesMessage | backend/services/aiService.js:32 | whatever the draw, the canned reply ends with the message and `")` |
| AiService.EveryPhraseReachable | backend/services/aiService.js:31 | every one of the four phrases is picked by some draw |
| ChatController.SessionFor | backend/controllers/chat.Controller.js:12 | a supplied non-empty session id is reused, otherwise the fresh id is used |
| ChatController.HandleChat | backend/controllers/chat.Controller.js:5-28 | a missing or empty message is a 400 "Message is required" with the store untouched; otherwise the AI sees the history as it was before the exchange; on success the session gains the user turn then the assistant turn, other sessions are untouched, and the reply, id and old length + 2 are reported; on failure the store is untouched and the error goes to `next` |
| ChatController.GetChatHistory | backend/controllers/chat.Controller.js:30-42 | no session id is a 400; otherwise 200 with the session's history and a `messageCount` equal to its length |
| ChatController.ClearChatHistory | backend/controllers/chat.Controller.js:44-56 | no session id is a 400 with the store untouched; otherwise the session is emptied, the others are untouched, and the confirmation echoes the id |
| ChatController.ChatThenRead | backend/controllers/chat.Controller.js:17-38 | the `conversationLength` a successful chat reports equals the `messageCount` a following read of that session reports |
| ChatController.FailedChatKeepsStore | backend/controllers/chat.Controller.js:15-27 | a failed AI call appends nothing |
| ChatController.ChatThenClear | backend/controllers/chat.Controller.js:12-52 | chatting and then clearing the session leaves the store as clearing alone would |
| GeminiController.Lines | backend/controllers/chatController.js:28-29 | one history line per turn, `role: content`, in order |
| GeminiController.ErrorText | backend/controllers/chatController.js:38-42 | the 500 body is "Gemini API Error: " followed by the error's message, or "Unknown error" when it has none |
| GeminiController.ChatWithGemini | backend/controllers/chatController.js:11-44 | a missing message is a 400 before the key is looked at; a missing key is a 500 naming both variables; the model is prompted exactly when both are present, with the history lines and the message; a reply without text is `""`; a thrown error is a 500 with its text |
| GeminiController.MessageCheckedFirst | backend/controllers/chatController.js:15-21 | a missing message is reported as a 400 even when no key is configured (a corollary of `ChatWithGemini` that names the order of the two checks) |
| GeminiController.PromptWithoutHistory | backend/controllers/chatController.js:27-32 | with no history the prompt is exactly `\nUser: ` and the message, and a non-array history behaves like an empty one |
| GeminiController.PromptEndsWithMessage | backend/controllers/chatController.js:28-32 | the prompt is the newline-joined history lines followed by `\nUser: ` and the message |
| HistoryNormalizer.FirstUser | frontend/src/components/ChatBubble.jsx:120 | -1 exactly when no turn has role `user`; otherwise the index of the first such turn |
| HistoryNormalizer.Absorb | frontend/src/components/ChatBubble.jsx:127-140 | one loop step keeps one text part per entry and strict alternation, adds at most one entry, ends with the turn's speaker, and joined with newlines the texts gain exactly the turn's content |
| HistoryNormalizer.MergeFrom | frontend/src/components/ChatBubble.jsx:126-141 | the loop keeps alternation and one part per entry, produces at most one entry per turn, and its newline-joined texts are the accumulated ones followed by the contents of the turns |
| HistoryNormalizer.CleanHistory | frontend/src/components/ChatBubble.jsx:113-143 | the result is empty exactly when no turn is a user turn; otherwise it starts with a user entry, alternates between `user` and `model`, has one part per entry, is no longer than the history from the first user turn, and its newline-joined texts equal that suffix's newline-joined contents |
| HistoryNormalizer.AbsorbIsPrepend | frontend/src/components/ChatBubble.jsx:129-140 | one left-to-right merge step corresponds to one step of the right-to-left run grouping |
| HistoryNormalizer.MergeFromIsAttach | frontend/src/components/ChatBubble.jsx:126-141 | the loop from any accumulated state equals that state glued onto the run grouping of the remaining turns |
| HistoryNormalizer.CleanHistoryIsRuns | frontend/src/components/ChatBubble.jsx:113-143 | `cleanHistory` is the grouping of maximal same-speaker runs of the history from its first user turn, each run's contents joined with newlines |
| HistoryNormalizer.CleanHistoryExample | frontend/src/components/ChatBubble.jsx:119-141 | a leading assistant turn is dropped, two user turns merge into `"b\nc"`, and the last turn becomes a `model` entry |
| BulletFormatter.NormalizeMarks | frontend/src/components/ChatBubble.jsx:17-18 | every `•` and `*` becomes `-`, nothing else changes, and no mark remains |
| BulletFormatter.TightenBeforeDash | frontend/src/components/ChatBubble.jsx:19 | the pass keeps the first character; the deletions that fold white space before a dash into one newline are stated by `BulletContent.TightenKeeps` |
| BulletFormatter.TightenRemovesGaps | frontend/src/components/ChatBubble.jsx:19 | after the pass no white space, including blank lines, lies between a newline and a dash |
| BulletFormatter.SingleSpaceAfterDash | frontend/src/components/ChatBubble.jsx:20 | after the pass every dash followed by white space is followed by exactly one space, and only spaces were added |
| BulletFormatter.CollapseNewlines | frontend/src/components/ChatBubble.jsx:21 | no run of three or more newlines remains, a leading run of three or more becomes two, and only characters of the input appear |
| BulletFormatter.CollapseKeepsBullets | frontend/src/components/ChatBubble.jsx:60 | collapsing newline runs never leaves a line start that is not `- ` |
| BulletFormatter.SplitBullets | frontend/src/components/ChatBubble.jsx:39 | the split yields one piece exactly when the pattern `(?<=\S)-\s+` does not match; the first piece is a prefix of the line; no piece contains a match; every piece is drawn from the line; the pieces interleaved with the matched separators are the line (`BulletContent.SplitBulletsWeave`) |
| BulletFormatter.StripLeadDash | frontend/src/components/ChatBubble.jsx:43 | a leading dash and the white space after it are removed, and a line without a leading dash is unchanged |
| BulletFormatter.Bulleted | frontend/src/components/ChatBubble.jsx:46-48 | each later piece becomes `- ` and the trimmed piece |
| BulletFormatter.DashBullets | frontend/src/components/ChatBubble.jsx:41-48 | one bullet per piece: the first loses its leading dash, the rest are trimmed |
| BulletFormatter.FormatDashLine | frontend/src/components/ChatBubble.jsx:37-52 | a dash line becomes bullets, more than one exactly when the pattern matches |
| BulletFormatter.FormatLine | frontend/src/components/ChatBubble.jsx:27-56 | a blank line stays blank (exactly then); a line not starting with a dash after trimming becomes `- ` and the trimmed line; a dash line is split exactly when the pattern matches; every output line is blank or a bullet |
| BulletFormatter.FormatLines | frontend/src/components/ChatBubble.jsx:27-57 | every line pushed is blank or a bullet, and the loop introduces no marks and no newlines |
| BulletFormatter.Normalize | frontend/src/components/ChatBubble.jsx:16-21 | after the five regex passes (the first two are `NormalizeMarks`) no `•` or `*` remains |
| BulletFormatter.FormatBulletPoints | frontend/src/components/ChatBubble.jsx:12-61 | the empty response comes back as it is; the output has no `•` or `*`, no run of three newlines, and every non-empty line starts with `- `; its text apart from layout and marks is the response's (`BulletContent.FormatKeepsInk`) |
| BulletFormatter.JoinBulletLines | frontend/src/components/ChatBubble.jsx:59-60 | joining lines that are blank or bullets gives a text whose every non-empty line starts with `- ` |
| BulletFormatter.FormatKeepsBulletList | frontend/src/components/ChatBubble.jsx:12-61 | a list of `- x` lines, each x trimmed and free of `-`, `*` and `•`, comes back unchanged |
| BulletFormatter.TrimmedDashLine | frontend/src/components/ChatBubble.jsx:28-37 | a trimmed line starting with a dash goes to the dash-line handling unchanged |
| BulletFormatter.SingleDashLine | frontend/src/components/ChatBubble.jsx:49-52 | an unsplit dash line with one space after its dash and a trimmed rest comes out as it went in |
| BulletFormatter.SplitsRunTogetherBullets | frontend/src/components/ChatBubble.jsx:38-48 | `- a- b` becomes the two bullets `- a` and `- b` |
| BulletFormatter.KeepsHyphenatedWord | frontend/src/components/ChatBubble.jsx:39-51 | `- well-known` stays one bullet: a dash not followed by white space is no separator |
| BulletContent.NormalizeMarksKeeps | frontend/src/components/ChatBubble.jsx:17-18 | replacing marks changes only decoration: with spaces, dashes, `•` and `*` ignored the text is unchanged |
| BulletContent.TightenKeeps | frontend/src/components/ChatBubble.jsx:19 | the pass deletes characters and keeps the order of the rest; only white space is deleted |
| BulletContent.SingleSpaceKeeps | frontend/src/components/ChatBubble.jsx:20 | the pass changes only white space: with blanks ignored the text is unchanged |
| BulletContent.CollapseKeeps | frontend/src/components/ChatBubble.jsx:21 | the pass deletes characters and keeps the order of the rest; only newlines are deleted |
| BulletContent.NormalizeKeeps | frontend/src/components/ChatBubble.jsx:16-21 | the five regex passes together change only white space and decoration |
| BulletContent.SplitBulletsWeave | frontend/src/components/ChatBubble.jsx:39 | interleaving the pieces with the separators the pattern matched (a dash and its white space) gives back the line |
| BulletContent.FormatLinesOne | frontend/src/components/ChatBubble.jsx:27-56 | the lines a single line pushes are the ones `FormatLine` gives |
| BulletContent.FormatLinesAppend | frontend/src/components/ChatBubble.jsx:27-57 | the loop's output over two runs of lines is its output over the first followed by its output over the second, so the lines come out in order |
| BulletContent.FormatLineKeeps | frontend/src/components/ChatBubble.jsx:27-56 | one line's output lines, apart from white space and decoration, hold exactly the line's text |
| BulletContent.FormatLinesKeeps | frontend/src/components/ChatBubble.jsx:27-57 | the loop keeps every non-decoration character of the lines, in order, and adds none |
| BulletContent.FormatKeepsInk | frontend/src/components/ChatBubble.jsx:12-61 | apart from white space, `-`, `•` and `*`, the formatted answer has exactly the characters of the response, in order |
| GeminiGateway.Prompt | frontend/src/components/ChatBubble.jsx:156-161 | the message sent is the fixed bullet-point instruction followed by the user's message |
| GeminiGateway.Echo | frontend/src/components/ChatBubble.jsx:179-180 | the fallback is the formatted `You said: ` message, a string whose lines are bullets and which has no marks |
| GeminiGateway.GeminiKey | frontend/src/components/ChatBubble.jsx:73 | a key exists exactly when `GEMINI_API_KEY` or `GOOGLE_API_KEY` is set; `GEMINI_API_KEY` wins |
| GeminiGateway.RagAnswer | frontend/src/components/ChatBubble.jsx:81 | the answer is `data.response` when truthy, else `data.answer` when truthy, else `data` itself |
| GeminiGateway.FormatRagAnswer | frontend/src/components/ChatBubble.jsx:81-90 | a falsy answer comes back unchanged (the formatter's early return), a string is bullet-formatted, any other value throws inside the RAG `try` and gives the echo |
| GeminiGateway.AskRag | frontend/src/components/ChatBubble.jsx:75-92 | the RAG path makes exactly one POST and leaves the model cache alone; a refused or failed POST gives the echo; a reply gives its formatted answer |
| GeminiGateway.AskGemini | frontend/src/components/ChatBubble.jsx:100-165 | a cached model is reused; without one the SDK is loaded once with the key, and a failed load gives the echo with nothing else called; the chat is started with the cleaned history; a failed start sends nothing; a started chat is sent the wrapped message; a failed start or send gives the echo, an answer its formatted text; the value is always a bulleted string and no RAG call is made |
| GeminiGateway.ChatCalls | frontend/src/components/ChatBubble.jsx:145-163 | the exchange is exactly `startChat` with the cleaned history, then `sendMessage` with the wrapped message; when `startChat` throws, the trace is that start alone |
| GeminiGateway.ChatAnswer | frontend/src/components/ChatBubble.jsx:163-180 | the formatted answer; the echo when starting, sending or reading fails; always a bulleted string |
| GeminiGateway.GetAIResponse | frontend/src/components/ChatBubble.jsx:69-182 | the RAG path is taken exactly when `useRag` holds; without a key the echo is returned with no upstream call at all; no failure escapes; an existing model is never rebuilt or replaced, and a model appears only through a successful SDK load with the resolved key |
| GeminiGateway.ModelBuiltOnce | frontend/src/components/ChatBubble.jsx:100-111 | over any sequence of requests, a built model is never rebuilt or replaced |
| GeminiGateway.ModelComesFromALoad | frontend/src/components/ChatBubble.jsx:100-111 | over any sequence of requests, an empty cache gains a model only if an SDK load was made |
| KeywordSearch.SplitMarks | rag-api/simple_working_rag.py:28 | the pieces between runs of `.`, `!` and `?` contain no mark and concatenate to the text with its marks removed |
| KeywordSearch.SplitMarksNoMark | rag-api/simple_working_rag.py:64 | a text without marks splits into itself alone |
| KeywordSearch.MarkRuns | rag-api/simple_working_rag.py:28 | one non-empty run of marks between each two pieces; a text opening with a mark has an empty first piece |
| KeywordSearch.SplitMarksWeave | rag-api/simple_working_rag.py:28 | interleaving the pieces with the mark runs gives back the text, so pieces are cut exactly at the runs |
| KeywordSearch.Words | rag-api/simple_working_rag.py:38 | `split()` gives non-empty words without white space, and none exactly when the text is all white space |
| KeywordSearch.WordsJoin | rag-api/simple_working_rag.py:38 | splitting words that were joined with single spaces gives back the words |
| KeywordSearch.Gaps | rag-api/simple_working_rag.py:38 | one white-space gap around each word: the inner gaps are non-empty, and a text opening with white space has a non-empty first gap |
| KeywordSearch.WordsWeave | rag-api/simple_working_rag.py:38 | interleaving the gaps with the words gives back the text, so the words are its maximal non-space runs in order |
| KeywordSearch.MatchCount | rag-api/simple_working_rag.py:41 | the count never exceeds the number of query words |
| KeywordSearch.MatchCountPositive | rag-api/simple_working_rag.py:41-43 | the count is positive exactly when some query word occurs in the sentence |
| KeywordSearch.MatchCountAppend | rag-api/simple_working_rag.py:41 | the count is additive over the query words, so a repeated word counts twice |
| KeywordSearch.Relevant | rag-api/simple_working_rag.py:31-43 | every hit is a stripped piece of at least ten characters with at least one match and its true match count; hits follow the pieces, one per qualifying piece (`RelevantAppend`, `RelevantOne`) |
| KeywordSearch.RelevantComplete | rag-api/simple_working_rag.py:32-43 | every qualifying stripped piece appears among the hits |
| KeywordSearch.RelevantExact | rag-api/simple_working_rag.py:31-43 | there are no hits exactly when no stripped piece qualifies |
| KeywordSearch.RelevantAppend | rag-api/simple_working_rag.py:31-43 | the hits of two runs of pieces are the first run's followed by the second's |
| KeywordSearch.RelevantOne | rag-api/simple_working_rag.py:31-43 | a single piece gives its stripped text with its match count exactly when that text qualifies, and nothing otherwise |
| KeywordSearch.SortByMatches | rag-api/simple_working_rag.py:46 | the sorted hits are a permutation of the hits, in non-increasing match count |
| KeywordSearch.SortStable | rag-api/simple_working_rag.py:46 | hits with equal counts keep their document order |
| KeywordSearch.Ranked | rag-api/simple_working_rag.py:28-46 | the ranked hits are a descending permutation of the qualifying sentences, all mark-free, and empty exactly when nothing matches; for every match count, the hits with that count are in document order |
| KeywordSearch.TopThree | rag-api/simple_working_rag.py:50 | the first three hits' sentences, or all of them when fewer |
| KeywordSearch.SimpleSearch | rag-api/simple_working_rag.py:22-53 | the result is the not-found sentence exactly when nothing matches; otherwise the top three ranked sentences joined by newlines, without marks |
| KeywordSearch.BlankQueryFindsNothing | rag-api/simple_working_rag.py:38-53 | an empty or all-white-space query returns the not-found sentence |
| KeywordSearch.SearchIsTrimmed | rag-api/simple_working_rag.py:33-51 | a found result is non-empty and neither starts nor ends with white space |
| RagResponses.BulletPieces | rag-api/simple_working_rag.py:64-71 | the bullet loop produces at most one bullet per piece; which pieces and in what order is stated by `BulletPiecesOne` and `BulletPiecesAppend` |
| RagResponses.BulletPiecesOne | rag-api/simple_working_rag.py:66-70 | one piece becomes `- ` and the stripped piece exactly when the stripped piece is longer than ten characters, and nothing otherwise |
| RagResponses.BulletPiecesAppend | rag-api/simple_working_rag.py:66-70 | the loop handles the pieces one at a time, in order: the bullets of joined piece lists are the joined bullets |
| RagResponses.BulletPiecesOfHits | rag-api/simple_working_rag.py:66-70 | pieces that are already stripped and longer than ten characters each become `- ` and the piece, in order |
| RagResponses.WorkingResponse | rag-api/simple_working_rag.py:55-75 | not-found passes through; a found result becomes `- ` and the whole result when it is longer than ten characters, else the not-found sentence |
| RagResponses.WorkingResponseBulletsWholeResult | rag-api/simple_working_rag.py:63-73 | a found result longer than ten characters reaches the user as `- ` followed by the whole result, so a second or third hit stays on its own line without a dash |
| RagResponses.TwoHitsOneBullet | rag-api/simple_working_rag.py:53-73 | as written, a result of two joined hits comes back as `- `, the first hit, a newline and the second hit with no dash |
| RagResponses.SentenceBulletsResponse | rag-api/simple_working_rag.py:63-75 | corrected: nothing found gives the not-found sentence; otherwise every line of the reply starts with `- `, and the lines are the bullets of the search's lines |
| RagResponses.SentenceBulletsOneHit | rag-api/simple_working_rag.py:63-75 | on a single hit the corrected reply equals the written one |
| RagResponses.SentenceBulletsTwoHits | rag-api/simple_working_rag.py:53-75 | corrected, two trimmed hits longer than ten characters give two bullet lines |
| RagResponses.SentenceBulletsHits | rag-api/simple_working_rag.py:53-75 | corrected, for any number of hits (the three of a typical search included): trimmed hits longer than ten characters, joined by newlines, come back as one `- ` line per hit, in order |
| RagResponses.TenCharacterHitIsDropped | rag-api/simple_working_rag.py:67-75 | a single ten-character hit, kept by the search, is reported as not found |
| RagResponses.PdfResponse | rag-api/simple_rag.py:60-75 | text starting with "Error" or "PDF file not found" gives the access apology; otherwise the result is the not-found sentence exactly when nothing matches, else the heading followed by the search result |
| RagResponses.HeadedIsFound | rag-api/simple_rag.py:70-75 | a headed result can never be mistaken for the not-found sentence |
| ProgressTracker.Lookup | src/pages/StudentProgressTracker.jsx:45 | a listed key gives its table value, an unknown key 0.7 |
| ProgressTracker.DeptStatus | src/pages/StudentProgressTracker.jsx:51 | High Challenge from 16, Moderate from 14, otherwise Manageable |
| ProgressTracker.YearStatus | src/pages/StudentProgressTracker.jsx:67 | Foundation Year for the 1st year, Final Year Pressure for the 4th, otherwise Core Learning Phase |
| ProgressTracker.BranchStatus | src/pages/StudentProgressTracker.jsx:86 | Highly Specialized from 18, Specialized from 15, otherwise General Track |
| ProgressTracker.DeptStatusByDepartment | src/pages/StudentProgressTracker.jsx:37-51 | Computer Science, Information Technology and Electronics are a High Challenge, every other department Moderate, none Manageable |
| ProgressTracker.BranchStatusByBranch | src/pages/StudentProgressTracker.jsx:71-86 | AI and Data Science are Highly Specialized; Software Engineering, Cybersecurity, Web and Mobile Development Specialized; every other branch a General Track |
| ProgressTracker.Factors | src/pages/StudentProgressTracker.jsx:26-87 | the four factors in order, each with its name, weight, score and status, their scores summing to the raw score |
| ProgressTracker.MarksStatus | src/pages/StudentProgressTracker.jsx:33 | Excellent from 75, Good from 60, otherwise Needs Improvement |
| ProgressTracker.Clamp | src/pages/StudentProgressTracker.jsx:89 | the result lies in [0, 100], equals a score already there, and is the nearer bound otherwise |
| ProgressTracker.Round | src/pages/StudentProgressTracker.jsx:92 | the rounded score is within half a point, halves rounding up |
| ProgressTracker.GradeBands | src/pages/StudentProgressTracker.jsx:93 | each grade holds on exactly one band: A+ from 85, A from 75, B+ from 65, B from 55, else C |
| ProgressTracker.GradeMonotone | src/pages/StudentProgressTracker.jsx:93 | a higher score never gets a lower grade |
| ProgressTracker.Verdict | src/pages/StudentProgressTracker.jsx:94-96 | the prediction text changes at 80, 65 and 50 |
| ProgressTracker.Recommendations | src/pages/StudentProgressTracker.jsx:102-129 | the count is three, two, two and two for the blocks whose conditions hold, plus the two closing items, which always come last; a low score puts its three items first; an item appears exactly when its block's condition holds, and the items keep the catalogue order |
| ProgressTracker.RecommendationsMention | src/pages/StudentProgressTracker.jsx:105-124 | each block's first item is present exactly when its condition (score below 60, marks below 70, CS or IT, 4th year) holds |
| ProgressTracker.Predict | src/pages/StudentProgressTracker.jsx:22-100 | four factors in fixed order with names and weights; each factor's score is the marks share or 20 times its table value (0.7 when missing), with the status the source assigns to that score or year; the scores sum to the raw score; the grade, text and recommendations follow the clamped score; the overall score is it rounded and lies in [0, 100] |
| ProgressTracker.RawScoreBounds | src/pages/StudentProgressTracker.jsx:27-89 | with marks in [0, 100] the weighted sum already lies in [36, 97], so the clamp never acts |
| ProgressTracker.MarksMonotone | src/pages/StudentProgressTracker.jsx:27-92 | higher marks never lower the overall score |
| ProgressTracker.Save | src/pages/StudentProgressTracker.jsx:150-166 | an empty department, year or marks field leaves the state unchanged; otherwise the prediction is stored and editing ends |
| NotesPage.Keep | src/pages/NotesPage.jsx:32-37 | the kept notes are exactly the notes whose title, content or comma-joined tags contain the query, lower-cased |
| NotesPage.Filtered | src/pages/NotesPage.jsx:29-38 | a blank query shows every note; otherwise the search uses the lower-cased, untrimmed query |
| NotesPage.KeepIsSubseq | src/pages/NotesPage.jsx:32-37 | the search result is a subsequence of the notes, in their order |
| NotesPage.FilteredIdempotent | src/pages/NotesPage.jsx:29-38 | searching the results again with the same query changes nothing |
| NotesPage.AddNote | src/pages/NotesPage.jsx:40-55 | a blank title or content changes nothing; otherwise exactly one note is put in front with the trimmed title and content and the parsed tags, the draft is cleared and the form closes |
| NotesPage.DeleteNote | src/pages/NotesPage.jsx:57 | every note with the id goes, every other note stays, and an absent id changes nothing |
| NotesPage.DeleteNoteKeepsOrder | src/pages/NotesPage.jsx:57 | the remaining notes keep their order, and every note without the id keeps its number of copies |
| NotesPage.AddThenDelete | src/pages/NotesPage.jsx:40-57 | deleting a note just added under a fresh id restores the list |
| NotesPage.AddedNoteIsFound | src/pages/NotesPage.jsx:29-55 | a note just added is found by searching for its own title |
| NotesPage.StripPdf | src/pages/NotesPage.jsx:64 | a trailing `.pdf`, in any case, is removed and nothing else |
| NotesPage.StripPdfExamples | src/pages/NotesPage.jsx:64 | `.pdf`, `.PDF` and `.Pdf` all come off |
| NotesPage.AddPdf | src/pages/NotesPage.jsx:59-71 | no file changes nothing; a file becomes one note in front, titled by its name without the extension, with content `Attached PDF: ` and the name, tagged `PDF` |
| NotesPage.PdfNoteIsFound | src/pages/NotesPage.jsx:62-69 | an attached PDF is found by searching for "pdf" |
| QuizzesPage.Pick | src/pages/QuizzesPage.jsx:33 | the drawn index lies in [0, i] |
| QuizzesPage.Shuffle | src/pages/QuizzesPage.jsx:30-37 | the shuffle returns a permutation of its input, which is not changed |
| QuizzesPage.Score | src/pages/QuizzesPage.jsx:50-56 | zero before submitting, and never more than the number of questions |
| QuizzesPage.CountCorrect | src/pages/QuizzesPage.jsx:52-55 | the count is all questions exactly when every recorded answer is right, and zero exactly when none is |
| QuizzesPage.CountCorrectPermutation | src/pages/QuizzesPage.jsx:52-55 | the score does not depend on the order the questions were shuffled into |
| QuizzesPage.Select | src/pages/QuizzesPage.jsx:58-61 | the answer is recorded for the question on screen and no other |
| QuizzesPage.Next | src/pages/QuizzesPage.jsx:63 | moves one forward, stays on the last question, and never leaves the range |
| QuizzesPage.Prev | src/pages/QuizzesPage.jsx:64 | moves one back, stays on the first question, and never leaves the range |
| QuizzesPage.NextThenPrev | src/pages/QuizzesPage.jsx:63-64 | forward then back returns to the same question, except from the last |
| QuizzesPage.Submit | src/pages/QuizzesPage.jsx:65 | after submitting, the score is the number of correctly answered questions |
| QuizzesPage.Restart | src/pages/QuizzesPage.jsx:66-71 | a fresh permutation of the sample questions, the first question, no answers, not submitted, score zero |
| QuizzesPage.PerfectSampleScore | src/pages/QuizzesPage.jsx:50-55 | whatever the shuffle, the three right answers score 3 |
| SignupPage.EmailScanIsLanguage | src/pages/SignupPage.jsx:19-22 | the e-mail check accepts exactly the strings of the form L@D.T with L, D, T non-empty and free of white space and `@` |
| SignupPage.ScanIsInLanguage | src/pages/SignupPage.jsx:19-22 | every address the check accepts matches the expression |
| SignupPage.LanguageIsScanned | src/pages/SignupPage.jsx:19-22 | every string the expression matches is accepted |
| SignupPage.ValidEmailHasNoSpace | src/pages/SignupPage.jsx:19-22 | an accepted address contains no white space |
| SignupPage.StripSeparators | src/pages/SignupPage.jsx:27 | the stripped number keeps only characters of the input and has no white space, `-`, `(` or `)` |
| SignupPage.StripSeparatorsChar | src/pages/SignupPage.jsx:27 | a separator character is removed and any other kept |
| SignupPage.StripSeparatorsAppend | src/pages/SignupPage.jsx:27 | stripping distributes over concatenation, so exactly the separators go and the rest keeps its order |
| SignupPage.PhoneRule | src/pages/SignupPage.jsx:24-28 | a phone number is valid exactly when, stripped, it is an optional `+`, a digit 1-9 and at most fifteen more digits, or exactly ten digits |
| SignupPage.FilledIsTrimmedNonEmpty | src/pages/SignupPage.jsx:46 | a field counts as filled exactly when trimming leaves something |
| SignupPage.FirstFailure | src/pages/SignupPage.jsx:45-104 | no failure exactly when every check passes; otherwise the report of the first failing check, all earlier ones passing |
| SignupPage.Submit | src/pages/SignupPage.jsx:39-121 | success exactly when all ten checks pass, the password one counting UTF-16 code units as `length` does, with the profile built from the fields as typed; otherwise the message of the first failing check |
| SignupPage.BlankEmailIsMissing | src/pages/SignupPage.jsx:52-62 | a blank e-mail is reported as missing, never as malformed |
| SignupPage.BlankPasswordAccepted | src/pages/SignupPage.jsx:76-86 | the password is not trimmed: eight spaces pass |
| SignupPage.FourEmojiPasswordAccepted | src/pages/SignupPage.jsx:76-86 | four emoji make eight UTF-16 code units, so a four-character password passes |
| SignupPage.AllChecksPass | src/pages/SignupPage.jsx:45-121 | a form meeting every check is accepted |
| SignupPage.ValidEmailNotBlank | src/pages/SignupPage.jsx:52-62 | an address that passes the format check also passes the blank check |
| SignupPage.ValidPhoneNotBlank | src/pages/SignupPage.jsx:64-74 | a number that passes the format check also passes the blank check |
| StudentProfile.FromSignup | src/pages/StudentProfile.jsx:35-48 | the name is the stored full name or the default one; email, phone and registration date are carried over as stored; every other field is the default |
| StudentProfile.SignupNameIsTruthy | src/pages/StudentProfile.jsx:38 | the name shown for a sign-up record is never blank |
| StudentProfile.LegacyField | src/pages/StudentProfile.jsx:58-81 | name, year, department and picture are the stored truthy values or the defaults; statistics, focus areas and category are always the defaults |
| StudentProfile.FromLegacy | src/pages/StudentProfile.jsx:56-81 | the legacy record's own fields are adapted and of its other properties only the academic details are carried over, as stored |
| StudentProfile.LegacyFallbacks | src/pages/StudentProfile.jsx:59-61 | a legacy record shows its own name, year and department when it has them, the defaults otherwise |
| StudentProfile.Load | src/pages/StudentProfile.jsx:31-97 | `userProfile` is read first, then `studentProfile`, then `user_profile`; the first one present decides; a parse error keeps the defaults; nothing stored keeps the defaults |
| StudentProfile.SignupSlotWins | src/pages/StudentProfile.jsx:33-52 | a sign-up record shadows both older slots, even one that cannot be parsed |
| StudentProfile.LegacySlotWins | src/pages/StudentProfile.jsx:54-85 | without a sign-up record, the legacy record shadows the saved one |
| StudentProfile.SignupNameFallback | src/pages/StudentProfile.jsx:38 | a sign-up record without a truthy full name is shown under the default name |
| StudentProfile.Mounted | src/pages/StudentProfile.jsx:25-97 | after mount the draft equals the loaded profile and the form is shut |
| StudentProfile.Start | src/pages/StudentProfile.jsx:99-102 | starting an edit copies the profile into the draft |
| StudentProfile.Cancel | src/pages/StudentProfile.jsx:104-107 | cancelling resets the draft to the profile and leaves edit mode |
| StudentProfile.Save | src/pages/StudentProfile.jsx:109-117 | saving makes the draft the profile, writes the draft, and leaves edit mode |
| StudentProfile.CancelDiscardsEdits | src/pages/StudentProfile.jsx:99-107 | whatever was typed, start then cancel returns to the profile as it was |
| StudentProfile.SaveThenReload | src/pages/StudentProfile.jsx:88-117 | a saved profile is what a reload shows when no other record is stored |
| StudentProfile.Change | src/pages/StudentProfile.jsx:119-121 | only the named key of the draft changes |
| StudentProfile.ChangeTwice | src/pages/StudentProfile.jsx:119-121 | changing a field twice keeps only the second value |
| StudentProfile.ChangeToSame | src/pages/StudentProfile.jsx:119-121 | setting a field to its current value changes nothing |
| StudentProfile.FocusAreasChange | src/pages/StudentProfile.jsx:123-129 | the focus areas become the comma-separated items, trimmed, none empty or containing a comma |
| StudentProfile.FocusAreasShownThenRead | src/pages/StudentProfile.jsx:123-129 | reading back the `", "`-joined text the text area shows leaves the draft unchanged |
| StudentProfile.StatValue | src/pages/StudentProfile.jsx:289 | the typed number, or 0 when it is 0 or not a number |
| StudentProfile.StatChange | src/pages/StudentProfile.jsx:284-291 | only that statistic of the draft changes |
| StudentProfile.ImageSelected | src/pages/StudentProfile.jsx:131-135 | no file changes nothing; a file's object URL becomes the draft's picture |
| StudentProfile.Initials | src/pages/StudentProfile.jsx:194-198 | at most two characters, each a non-space character of the name |
| StudentProfile.InitialsOfTwoWords | src/pages/StudentProfile.jsx:194-198 | a first and last name give their two first letters |
| StudentProfile.InitialsOfOneWord | src/pages/StudentProfile.jsx:194-198 | a one-word name gives one letter |
| StudentProfile.InitialsAfterFirstSpace | src/pages/StudentProfile.jsx:194-198 | for a first word without spaces and any rest, the initials are the first word's first letter and the rest's first character unless that is a space or missing |
| StudentProfile.LeadingSpaceLosesALetter | src/pages/StudentProfile.jsx:194-198 | a leading space costs the first letter: the empty first piece takes one of the two places |
| SettingsPage.Read | src/pages/SettingsPage.jsx:17-18 | reading a property of `null` throws; any other value reads its property |
| SettingsPage.Load | src/pages/SettingsPage.jsx:14-27 | nothing stored keeps the current settings; unparsable or `null` text throws; otherwise each setting is the stored one unless null or missing, then the default; `compactSidebar` is the stored value's truthiness |
| SettingsPage.StoredFalseIsKept | src/pages/SettingsPage.jsx:19 | a stored `false` survives loading |
| SettingsPage.Import | src/pages/SettingsPage.jsx:208-225 | no file, unparsable text or `null` changes nothing; otherwise a setting is replaced only by a present non-null value, except `compactSidebar`, which becomes the imported value's truthiness and so false when absent |
| SettingsPage.Persisted | src/pages/SettingsPage.jsx:29-42 | the stored record holds exactly the eight settings under their own names |
| SettingsPage.ExportThenImport | src/pages/SettingsPage.jsx:187-224 | importing the exported record changes nothing |
| SettingsPage.PersistThenLoad | src/pages/SettingsPage.jsx:14-42 | reloading what was persisted gives back the same settings when none is `null` |
| SettingsPage.FontSizePx | src/pages/SettingsPage.jsx:44-45 | 14px exactly for "sm", 18px exactly for "lg", 16px otherwise |
| SettingsPage.Render | src/pages/SettingsPage.jsx:29-62 | an effect runs only when a value it watches changed; both write the same record; only the appearance effect applies the theme and font size |
| SettingsPage.FirstRender | src/pages/SettingsPage.jsx:29-62 | the first render leaves document and storage in step with the settings |
| SettingsPage.Open | src/pages/SettingsPage.jsx:14-46 | opening the page succeeds exactly when loading does, and shows the loaded settings |
| SettingsPage.FontSizeNotAppliedAsWritten | src/pages/SettingsPage.jsx:43-46 | as written, choosing "lg" persists it but leaves the root font at 16px |
| SettingsPage.StoredFontSizeNotAppliedAsWritten | src/pages/SettingsPage.jsx:14-46 | as written, a stored "lg" is loaded but the root font stays at 16px |
| SettingsPage.CorrectedRenderIsConsistent | src/pages/SettingsPage.jsx:29-62 | with `fontSize` watched, every render keeps document and storage in step with the settings |
| SettingsPage.CorrectedOpenIsConsistent | src/pages/SettingsPage.jsx:14-62 | with `fontSize` watched, an opened page shows what it loaded |
| SettingsPage.Reset | src/pages/SettingsPage.jsx:228-239 | all eight settings return to their defaults and storage holds nothing or the defaults |
| SettingsPage.ResetSurvivesReload | src/pages/SettingsPage.jsx:228-239 | after a reset, reopening the page gives the defaults |
| Text.Trim | src/pages/NotesPage.jsx:44-45 | the trimmed string is a slice of the input, empty exactly when the input is all white space, and itself trimmed |
| Text.TrimmedIsFixed | src/pages/NotesPage.jsx:44-45 | trimming a trimmed string changes nothing |
| Text.Lower | rag-api/simple_working_rag.py:24 | the same length, each character lower-cased |
| Text.Utf16Length | src/pages/SignupPage.jsx:76-86 | between one and two code units per character: one each when no character is astral, two each when all are |
| Text.Split | src/pages/NotesPage.jsx:47 | at least one piece, none containing the separator, and joining them with it gives back the string |
| Text.SplitJoin | src/pages/NotesPage.jsx:47 | splitting what was joined gives back the parts |
| Text.NonEmpty | src/pages/NotesPage.jsx:49 | exactly the non-empty strings are kept, in their order and with their multiplicities |
| Text.ParseCommaList | src/pages/NotesPage.jsx:46-49 | the items are non-empty, trimmed and free of commas; they are the non-empty trimmed comma-separated pieces, in order and with their multiplicities |
| Text.NonEmptyAppend | src/pages/NotesPage.jsx:49 | filtering distributes over concatenation |
| Text.ParseCommaListPiece | src/pages/NotesPage.jsx:46-49 | a piece without commas gives its trimmed text, or nothing when it is blank |
| Text.ParseCommaListAppend | src/pages/NotesPage.jsx:46-49 | the items of two comma-joined texts are the first's followed by the second's |
| Text.CommaListRoundTrip | src/pages/StudentProfile.jsx:123-129 | items shown `", "`-joined are read back unchanged |
| JsValue.Prop | src/pages/SettingsPage.jsx:18 | a property is present exactly on an object that has the key |
| JsValue.Coalesce | src/pages/SettingsPage.jsx:18-25 | `??` takes the fallback exactly for `null` or a missing value |
| JsValue.Or | src/pages/StudentProfile.jsx:38 | `\|\|` keeps a truthy value and otherwise takes the fallback |

## Left out

- Storage, files, clocks and ids are not modelled as effects. `localStorage`, file reads, `URL.createObjectURL`, `Date.now`, `new Date().toISOString()` and `uuidv4()` are parameters, and so is `JSON.parse`: the model takes an already parsed value or `Malformed`. Console logging is dropped.
- Network and SDK calls are outcome values: the OpenAI client, the Gemini SDK, the axios POST and `generateContent`. The request options (model name, token limit, temperature) and the RAG server URL are not modelled.
- The request plumbing, routing, Express and FastAPI wiring, the React rendering, and the PDF loading of the RAG script (`load_pdf_content`, file I/O) are not part of this model. backend/routes/chatRoutes.js imports a `chatHandler` that the controller does not export.
- frontend/src/components/ChatBubble.jsx does not parse as written: several template literals lack their backticks (lines 77, 85, 90, 97, 109, 132, 180). The model follows the evident intent: `"You said: " + message` and `"\n" + content`.
- GeminiGateway.ModelBuiltOnce: requests are served one at a time. Two overlapping first calls can both find no model before `await import` resolves (frontend/src/components/ChatBubble.jsx:101-106). Both then load the SDK, and the later assignment replaces the first model. The lemma says nothing about that interleaving.
- BulletFormatter.TightenBeforeDash: the pass and `BulletContent.TightenKeeps` state that only white space is deleted, in order, and `TightenRemovesGaps` that no gap before a dash remains. That white space elsewhere is kept is not stated.
- BulletFormatter.SingleSpaceAfterDash: the pass and `BulletContent.SingleSpaceKeeps` state that only white space changes. That white space away from dashes is kept is not stated.
- BulletFormatter.CollapseNewlines: the pass and `BulletContent.CollapseKeeps` state that only newlines are deleted, in order. That runs of one or two newlines are kept is not stated.
- BulletFormatter.SplitBullets: `BulletContent.SplitBulletsWeave` rebuilds the line from the pieces and separators of a dash and white space. That a separator follows a non-space character and takes all the white space after its dash is not part of that lemma.
- BulletFormatter.FormatLines: its own contract states the shapes of the pushed lines. The lines in order are stated by `BulletContent.FormatLinesOne` and `BulletContent.FormatLinesAppend`.
- BulletFormatter.Normalize: its own contract states only that no mark remains. `BulletContent.NormalizeKeeps` adds that only white space and decoration change; the exact layout is stated per pass.
- BulletFormatter.FormatBulletPoints: the text is kept up to white space and decoration (`BulletContent.FormatKeepsInk`). The exact layout is stated only for a clean list and the examples.
- KeywordSearch.SplitMarks: its own contract states the pieces. The cut positions are stated by `KeywordSearch.SplitMarksWeave` with `KeywordSearch.MarkRuns`.
- KeywordSearch.Words: its own contract states the words' shape. That they are the text's non-space runs in order is stated by `KeywordSearch.WordsWeave` with `KeywordSearch.Gaps`.
- KeywordSearch.Relevant: its own contract states what each hit is. Order and multiplicity are stated by `KeywordSearch.RelevantAppend` and `KeywordSearch.RelevantOne`.
- NotesPage.DeleteNote: its own contract states which notes remain. Their order and copies are stated by `NotesPage.DeleteNoteKeepsOrder`.
- SignupPage.Submit: a `localStorage.setItem` that throws after every check has passed (a full or disabled storage) shows "Registration failed. Please try again." (src/pages/SignupPage.jsx:130-131). The model has no storage failure: a form passing every check always succeeds.
- SignupPage.StripSeparators: its own contract states what remains. That exactly the separators go, in order, is stated by `SignupPage.StripSeparatorsChar` and `SignupPage.StripSeparatorsAppend`.
- ChatController.HandleChat: concurrent requests interleaving at the `await` are not modelled; the history read and the two appends are one step.
- ChatController.HandleChat: the request fields are strings or absent; a non-string `message` or `sessionId` is not modelled.
- GeminiController.ChatWithGemini: history entries are turns with string `role` and `content`, and `message` is a string or absent. So three cases are not modelled: a `null` entry in the history array, whose `.map` throws inside the `try` and gives a 500 "Gemini API Error: Cannot read properties of null …" (backend/controllers/chatController.js:27-29, 38-42); an entry without `role` or `content`, which is rendered with `undefined`; and a truthy non-string message, such as a number, which is interpolated into the prompt.
- AiService.GetAIResponse: a first choice whose content is `null` is not modelled.
- GeminiGateway.GetAIResponse: the history is always an array of turns. An explicit `null` history would make the log line before the `try` throw, and turns whose content is not a string are not modelled.
- GeminiGateway.ChatAnswer: a failure of `sendMessage` and a failure of `response.text()` are one outcome, because both reach the same `catch`.
- BulletFormatter.FormatBulletPoints: the absence of white space between a newline and a dash is proved for the third regex pass (`TightenRemovesGaps`), not for the final output. A line that only becomes a bullet in the line loop can follow a blank line: `a\n\nb` gives `- a\n\n- b`.
- Text.Lower: only ASCII letters are lower-cased, where Python's `lower()` and JavaScript's `toLowerCase()` follow Unicode.
- StudentProfile.Initials: a character is a Unicode scalar value, while JavaScript indexes UTF-16 code units, so a name starting with an astral character is not modelled.
- ProgressTracker.Predict: the arithmetic is exact `real` arithmetic, not IEEE doubles. The factor statuses still agree, because in doubles 0.7, 0.75, 0.8 and 0.9 times 20 round to exactly 14, 15, 16 and 18. Agreement of the marks share, the sum and the grade bands at their boundaries is not claimed. The marks are one number standing for both `parseFloat` (the score) and the implicit `Number` conversion (the comparisons with 75, 60 and 70). A marks text that does not parse (`NaN`) is not modelled.
- ProgressTracker.Lookup: keys inherited from `Object.prototype` (such as "constructor") are not modelled; every other unlisted key falls back to 0.7.
- ProgressTracker: only the required-field check and the prediction of `handleSave` are modelled. The mount effect, `handleEdit`, `handleCancel` and the input handler only copy state.
- StudentProfile.Initials: its own contract states only the bounds. Which characters are taken is stated by `StudentProfile.InitialsOfOneWord` for a non-empty name without spaces and by `StudentProfile.InitialsAfterFirstSpace` for a name containing a space.
- StudentProfile.StatValue: the conversion `Number(text)` is a parameter (a number, or none for `NaN`).
- StudentProfile.Change: spreading a draft that is not an object is modelled as spreading no properties. JavaScript would copy the indices of an array or string.
- SettingsPage.Load: the uncaught exception from an unparsable or `null` stored value is a `Failure`; what React does with it is not modelled.
- SettingsPage.Render: an effect's dependencies are compared structurally, not with `Object.is`. The settings are parsed JSON values, and an import may supply objects or arrays. For strings, booleans and numbers other than `-0` the two comparisons agree. A freshly parsed object or array is a new reference, so `Object.is` sees a change where the model sees none, and React may run an effect that the model skips.
- A JavaScript property holding `undefined` is an absent key throughout: `JSON.stringify` drops such properties, so the written records agree.
- QuizzesPage.Shuffle: each `Math.random()` draw is an input real in [0, 1). The mount effect's re-shuffle is the same shuffle `Restart` performs.
- The sign-up page's input handler, submit delay and redirect, and the quiz page's rendering of the selected option, are display state only.

## Findings

| source | as written | input that shows it | evidently intended | confidence | as-written member | corrected member |
|---|---|---|---|---|---|---|
| src/pages/SettingsPage.jsx:46 | the effect that applies the root font size watches `[theme, notifications, model]` only, so changing `fontSize` persists it but never applies it | theme, notifications and model unchanged; pick "lg" in the font-size select: the root font stays 16px | the new size is applied (18px) as soon as it is chosen | high; not executed | SettingsPage.FontSizeNotAppliedAsWritten | SettingsPage.CorrectedRenderIsConsistent |
| src/pages/SettingsPage.jsx:46 | on reopening the page, a stored size is loaded by the mount effect but the follow-up render does not run the appearance effect unless theme, notifications or model changed | stored settings `{"fontSize": "lg"}`: the page opens with `fontSize` "lg" and a 16px root font | the page opens showing the stored size | high; not executed | SettingsPage.StoredFontSizeNotAppliedAsWritten | SettingsPage.CorrectedOpenIsConsistent |
| rag-api/simple_working_rag.py:63-73 | the reply re-splits the search result at `[.!?]+` to make one bullet per sentence, but the search already removed every mark and joined its sentences with newlines, so nothing is split and only the first sentence gets a `- ` | query "heart" on the sample heart text: the search keeps three sentences on three lines, and the reply is `- The heart is a muscular organ that pumps blood throughout the body`, then `The heart has four chambers: …` and `The heart works through a series of coordinated contractions` without a dash | each kept sentence becomes its own bullet line | medium; not executed | RagResponses.TwoHitsOneBullet | RagResponses.SentenceBulletsResponse |

=== FILE: ai_service.dfy ===
/** The backend's `getAIResponse`: a chat completion from OpenAI when a key is
    configured, otherwise a canned reply picked at random. Unlike the frontend
    service it does not swallow errors: every failure becomes one rethrown
    error with a fixed message. */
module AiService {
  import opened Common
  import opened ChatHistoryStore

  /** What the OpenAI client produced: the contents of the returned choices,
      or a failure anywhere in importing, constructing or calling it. */
  datatype Completion = Completed(choices: seq<string>) | CompletionFailed

  /** The reply (or the rethrown error) and the message list sent, if any. */
  datatype Answer = Answer(result: Result<string, string>, sent: Option<seq<Turn>>)

  const SystemPrompt: string := "You are a helpful AI assistant."
  const FailureMessage: string := "Failed to get AI response"

  /** The fallback replies, in source order; `’` is the typographic apostrophe. */
  const Canned: seq<string> := [
    "That\U{2019}s interesting!",
    "Good point, let\U{2019}s explore that.",
    "Hmm, I see what you mean.",
    "Tell me more about that."
  ]

  /** The OpenAI message list: the system prompt, the history projected to
      role and content, then the new user message. */
  function BuildMessages(history: seq<Turn>, message: string): (ms: seq<Turn>)
    ensures |ms| == |history| + 2
    ensures ms[0] == Turn("system", SystemPrompt)
    ensures ms[|ms| - 1] == Turn("user", message)
    ensures ms[1..|ms| - 1] == history
  {
    [Turn("system", SystemPrompt)] + history + [Turn("user", message)]
  }

  /** `Math.floor(Math.random() * responses.length)` for a draw `rand` in [0, 1). */
  function PickIndex(rand: real): (i: nat)
    requires 0.0 <= rand < 1.0
    ensures i < |Canned|
    ensures i as real <= rand * 4.0 < i as real + 1.0
  {
    (rand * 4.0).Floor
  }

  /** The canned fallback: one of the four phrases with the message quoted. */
  function CannedReply(rand: real, message: string): (s: string)
    requires 0.0 <= rand < 1.0
    ensures exists i | 0 <= i < |Canned| :: s == Canned[i] + " (You said: \"" + message + "\")"
  {
    Canned[PickIndex(rand)] + " (You said: \"" + message + "\")"
  }

  function GetAIResponse(env: Env, message: string, history: seq<Turn>, completion: Completion, rand: real): (a: Answer)
    requires 0.0 <= rand < 1.0
    ensures EnvSet(env, "OPENAI_API_KEY") <==> a.sent.Some?
    ensures a.sent.Some? ==> a.sent.value == BuildMessages(history, message)
    ensures a.sent.Some? && completion.Completed? && |completion.choices| > 0 ==> a.result == Success(completion.choices[0])
    ensures a.sent.Some? && (completion.CompletionFailed? || completion.choices == []) ==> a.result == Failure(FailureMessage)
    ensures a.sent.None? ==> a.result == Success(CannedReply(rand, message))
    ensures a.result.Failure? ==> a.result.error == FailureMessage
  {
    if EnvSet(env, "OPENAI_API_KEY") then
      var sent := BuildMessages(history, message);
      match completion
      case Completed(choices) =>
        if |choices| > 0 then Answer(Success(choices[0]), Some(sent))
        else Answer(Failure(FailureMessage), Some(sent))
      case CompletionFailed => Answer(Failure(FailureMessage), Some(sent))
    else Answer(Success(CannedReply(rand, message)), None)
  }

  /** Without a key the reply always ends by quoting the message, whatever the draw. */
  lemma CannedQuotesMessage(rand: real, message: string)
    requires 0.0 <= rand < 1.0
    ensures var s := CannedReply(rand, message);
            |s| >= |message| + 2 && s[|s| - |message| - 2..] == message + "\")"
  {
    var i := PickIndex(rand);
    var s := CannedReply(rand, message);
    assert s == (Canned[i] + " (You said: \"") + (message + "\")");
  }

  /** Each phrase is reachable: the draw picks quarter-wide bands of [0, 1). */
  lemma EveryPhraseReachable(i: nat)
    requires i < |Canned|
    ensures PickIndex(i as real / 4.0) == i
  {
  }
}

=== FILE: bullet_content.dfy ===
/** What `formatBulletPoints` keeps. Every pass deletes or rewrites only white
    space, dashes and the two alternative bullet signs, so every other
    character of the response comes through, in order and as often as it
    occurred. */
module BulletContent {
  import opened Common
  import opened Text
  import opened BulletFormatter

  /** Which characters a comparison looks past. */
  datatype Ignore = Newlines | Blanks | Decoration

  /** `Newlines`: only `\n`; `Blanks`: JavaScript white space; `Decoration`:
      white space, dashes and both bullet signs. */
  predicate Ignored(c: char, d: Ignore)
  {
    match d
    case Newlines => c == '\n'
    case Blanks => IsJsSpace(c)
    case Decoration => IsJsSpace(c) || c == '-' || c == Dot || c == '*'
  }

  /** The characters of `s` that `d` does not ignore, in order. */
  function Sift(s: String, d: Ignore): String
    decreases |s|
  {
    if |s| == 0 then []
    else if Ignored(s[0], d) then Sift(s[1..], d)
    else [s[0]] + Sift(s[1..], d)
  }

  /** One character in front. */
  lemma SiftCons(c: char, x: String, d: Ignore)
    ensures Sift([c] + x, d) == (if Ignored(c, d) then [] else [c]) + Sift(x, d)
  {
    ConcatTail([c], x);
  }

  lemma {:induction false} SiftAppend(a: String, b: String, d: Ignore)
    ensures Sift(a + b, d) == Sift(a, d) + Sift(b, d)
    decreases |a|
  {
    if |a| > 0 {
      SiftAppend(a[1..], b, d);
      SiftAppendStep(a, b, d);
    } else {
      assert a + b == b;
    }
  }

  lemma SiftAppendStep(a: String, b: String, d: Ignore)
    requires |a| > 0 && Sift(a[1..] + b, d) == Sift(a[1..], d) + Sift(b, d)
    ensures Sift(a + b, d) == Sift(a, d) + Sift(b, d)
  {
    ConsConcat(a, b);
    SiftCons(a[0], a[1..] + b, d);
    ConsTail(a);
    SiftCons(a[0], a[1..], d);
  }

  /** Nothing is left of a string made of ignored characters. */
  lemma {:induction false} SiftIgnored(s: String, d: Ignore)
    requires forall k | 0 <= k < |s| :: Ignored(s[k], d)
    ensures Sift(s, d) == []
    decreases |s|
  {
    if |s| > 0 {
      assert Ignored(s[0], d);
      SiftIgnored(s[1..], d);
    }
  }

  /** White space is ignored by every comparison that looks past blanks. */
  lemma SiftBlank(s: String, d: Ignore)
    requires AllSpace(s, JS) && d != Newlines
    ensures Sift(s, d) == []
  {
    forall k | 0 <= k < |s|
      ensures Ignored(s[k], d)
    {
      assert IsSpace(s[k], JS);
    }
    SiftIgnored(s, d);
  }

  /** `d` ignores no more than `e`. */
  predicate Finer(d: Ignore, e: Ignore)
  {
    d == e || d == Newlines || (d == Blanks && e == Decoration)
  }

  /** Looking past `d` first and then past the coarser `e` is looking past `e`:
      texts that agree up to `d` agree up to `e`. */
  lemma {:induction false} SiftFiner(s: String, d: Ignore, e: Ignore)
    requires Finer(d, e)
    ensures Sift(Sift(s, d), e) == Sift(s, e)
    decreases |s|
  {
    if |s| > 0 {
      SiftFiner(s[1..], d, e);
      if Ignored(s[0], d) {
        assert Ignored(s[0], e);
      } else {
        SiftCons(s[0], Sift(s[1..], d), e);
      }
    }
  }

  // ---------------------------------------------------------------------------
  // The five regex passes (the first two are `NormalizeMarks`)
  // ---------------------------------------------------------------------------

  /** The first pass turns bullet signs into dashes, which are decoration too. */
  lemma {:induction false} NormalizeMarksKeeps(s: String)
    ensures Sift(NormalizeMarks(s), Decoration) == Sift(s, Decoration)
    decreases |s|
  {
    if |s| > 0 {
      NormalizeMarksKeeps(s[1..]);
      var c := if s[0] == Dot || s[0] == '*' then '-' else s[0];
      SiftCons(c, NormalizeMarks(s[1..]), Decoration);
      SiftCons(s[0], s[1..], Decoration);
      ConsTail(s);
    }
  }

  /** The second pass deletes white space and nothing else: its result is a
      subsequence of its input with the same characters once white space is
      ignored. */
  lemma {:induction false} TightenKeeps(s: String)
    ensures SubseqOf(TightenBeforeDash(s), s)
    ensures Sift(TightenBeforeDash(s), Blanks) == Sift(s, Blanks)
    decreases |s|
  {
    if |s| > 0 {
      if GapBeforeDash(s, 0) {
        var n := SpaceRun(s, 1, JS);
        TightenKeeps(s[2 + n..]);
        TightenGap(s, n, TightenBeforeDash(s[2 + n..]));
      } else {
        TightenKeeps(s[1..]);
        TightenChar(s, TightenBeforeDash(s[1..]));
      }
    }
  }

  lemma TightenGap(s: String, n: nat, tail: String)
    requires |s| > 0 && GapBeforeDash(s, 0) && n == SpaceRun(s, 1, JS)
    requires tail == TightenBeforeDash(s[2 + n..])
    requires SubseqOf(tail, s[2 + n..]) && Sift(tail, Blanks) == Sift(s[2 + n..], Blanks)
    ensures SubseqOf(TightenBeforeDash(s), s)
    ensures Sift(TightenBeforeDash(s), Blanks) == Sift(s, Blanks)
  {
    assert TightenBeforeDash(s) == "\n-" + tail;
    GapSplit(s, n);
    GapChars(s[..1 + n], s[2 + n..], tail);
    GapOrder(s[..1 + n], s[2 + n..], tail);
  }

  /** Dropping the white space of a gap keeps the characters. */
  lemma GapChars(gap: String, rest: String, tail: String)
    requires AllSpace(gap, JS) && Sift(tail, Blanks) == Sift(rest, Blanks)
    ensures Sift("\n-" + tail, Blanks) == Sift(gap + ("-" + rest), Blanks)
  {
    SiftAppend(gap, "-" + rest, Blanks);
    SiftBlank(gap, Blanks);
    SiftCons('-', rest, Blanks);
    assert "\n-" + tail == ['\n'] + ("-" + tail);
    SiftCons('\n', "-" + tail, Blanks);
    SiftCons('-', tail, Blanks);
  }

  /** Dropping the white space of a gap keeps the order. */
  lemma GapOrder(gap: String, rest: String, tail: String)
    requires |gap| > 0 && gap[0] == '\n' && SubseqOf(tail, rest)
    ensures SubseqOf("\n-" + tail, gap + ("-" + rest))
  {
    SubseqOfCons('-', tail, rest);
    SubseqOfSkipAll("-" + tail, gap[1..], "-" + rest);
    SubseqOfCons('\n', "-" + tail, gap[1..] + ("-" + rest));
    ConsConcat(gap, "-" + rest);
    assert "\n-" + tail == ['\n'] + ("-" + tail);
  }

  /** A gap before a dash: a newline and white space, then the dash. */
  lemma GapSplit(s: String, n: nat)
    requires |s| > 0 && GapBeforeDash(s, 0) && n == SpaceRun(s, 1, JS)
    ensures s == s[..1 + n] + ("-" + s[2 + n..])
    ensures AllSpace(s[..1 + n], JS) && s[0] == '\n'
  {
    var gap := s[..1 + n];
    assert s[1 + n] == '-';
    assert s[1 + n..] == "-" + s[2 + n..];
    SliceJoin(s, 1 + n);
    forall k | 0 <= k < |gap|
      ensures IsSpace(gap[k], JS)
    {
      if k > 0 { assert gap[k] == s[k]; }
    }
  }

  lemma TightenChar(s: String, tail: String)
    requires |s| > 0 && !GapBeforeDash(s, 0) && tail == TightenBeforeDash(s[1..])
    requires SubseqOf(tail, s[1..]) && Sift(tail, Blanks) == Sift(s[1..], Blanks)
    ensures SubseqOf(TightenBeforeDash(s), s)
    ensures Sift(TightenBeforeDash(s), Blanks) == Sift(s, Blanks)
  {
    assert TightenBeforeDash(s) == [s[0]] + tail;
    ConsTail(s);
    SubseqOfCons(s[0], tail, s[1..]);
    SiftCons(s[0], tail, Blanks);
    SiftCons(s[0], s[1..], Blanks);
  }

  /** The third pass rewrites the white space after a dash into one space:
      the characters other than white space stay as they were. */
  lemma {:induction false} SingleSpaceKeeps(s: String)
    ensures Sift(SingleSpaceAfterDash(s), Blanks) == Sift(s, Blanks)
    decreases |s|
  {
    if |s| > 0 {
      if s[0] == '-' && SpaceRun(s, 1, JS) >= 1 {
        var m := SpaceRun(s, 1, JS);
        SingleSpaceKeeps(s[1 + m..]);
        DashSpaces(s, m, SingleSpaceAfterDash(s[1 + m..]));
      } else {
        SingleSpaceKeeps(s[1..]);
        DashOther(s, SingleSpaceAfterDash(s[1..]));
      }
    }
  }

  lemma DashSpaces(s: String, m: nat, tail: String)
    requires |s| > 0 && s[0] == '-' && m == SpaceRun(s, 1, JS) && m >= 1
    requires tail == SingleSpaceAfterDash(s[1 + m..]) && Sift(tail, Blanks) == Sift(s[1 + m..], Blanks)
    ensures Sift(SingleSpaceAfterDash(s), Blanks) == Sift(s, Blanks)
  {
    assert SingleSpaceAfterDash(s) == "- " + tail;
    DashInput(s, m);
    DashOutput(tail);
  }

  /** Without blanks, a dash and its white space are the dash alone. */
  lemma DashInput(s: String, m: nat)
    requires |s| > 0 && s[0] == '-' && m == SpaceRun(s, 1, JS)
    ensures Sift(s, Blanks) == "-" + Sift(s[1 + m..], Blanks)
  {
    var sp, rest := s[1..1 + m], s[1 + m..];
    DashSplit(s, m);
    SiftCons('-', sp + rest, Blanks);
    SiftAppend(sp, rest, Blanks);
    SiftBlank(sp, Blanks);
  }

  lemma DashOutput(tail: String)
    ensures Sift("- " + tail, Blanks) == "-" + Sift(tail, Blanks)
  {
    assert "- " + tail == ['-'] + ([' '] + tail);
    SiftCons('-', [' '] + tail, Blanks);
    SiftCons(' ', tail, Blanks);
  }

  /** A dash, the white space after it, the rest. */
  lemma DashSplit(s: String, m: nat)
    requires |s| > 0 && m == SpaceRun(s, 1, JS)
    ensures s == [s[0]] + (s[1..1 + m] + s[1 + m..]) && AllSpace(s[1..1 + m], JS)
  {
    var sp := s[1..1 + m];
    forall k | 0 <= k < |sp|
      ensures IsSpace(sp[k], JS)
    {
      assert sp[k] == s[1 + k];
    }
    ConsTail(s);
    SliceJoin(s[1..], m);
    assert s[1..][..m] == sp && s[1..][m..] == s[1 + m..];
  }

  lemma DashOther(s: String, tail: String)
    requires |s| > 0 && !(s[0] == '-' && SpaceRun(s, 1, JS) >= 1)
    requires tail == SingleSpaceAfterDash(s[1..]) && Sift(tail, Blanks) == Sift(s[1..], Blanks)
    ensures Sift(SingleSpaceAfterDash(s), Blanks) == Sift(s, Blanks)
  {
    assert SingleSpaceAfterDash(s) == [s[0]] + tail;
    ConsTail(s);
    SiftCons(s[0], tail, Blanks);
    SiftCons(s[0], s[1..], Blanks);
  }

  /** The last pass deletes newlines and nothing else. */
  lemma {:induction false} CollapseKeeps(s: String)
    ensures SubseqOf(CollapseNewlines(s), s)
    ensures Sift(CollapseNewlines(s), Newlines) == Sift(s, Newlines)
    decreases |s|
  {
    if |s| > 0 {
      if NewlineRun(s, 0) >= 3 {
        var n := NewlineRun(s, 0);
        CollapseKeeps(s[n..]);
        CollapseRun(s, n, CollapseNewlines(s[n..]));
      } else {
        CollapseKeeps(s[1..]);
        CollapseChar(s, CollapseNewlines(s[1..]));
      }
    }
  }

  lemma CollapseRun(s: String, n: nat, tail: String)
    requires |s| > 0 && n == NewlineRun(s, 0) && n >= 3
    requires tail == CollapseNewlines(s[n..])
    requires SubseqOf(tail, s[n..]) && Sift(tail, Newlines) == Sift(s[n..], Newlines)
    ensures SubseqOf(CollapseNewlines(s), s)
    ensures Sift(CollapseNewlines(s), Newlines) == Sift(s, Newlines)
  {
    assert CollapseNewlines(s) == "\n\n" + tail;
    var run := s[..n];
    forall k | 0 <= k < |run|
      ensures Ignored(run[k], Newlines)
    {
      assert run[k] == s[k];
    }
    SliceJoin(s, n);
    RunChars(run, s[n..], tail);
    RunOrder(run, s[n..], tail);
  }

  lemma RunChars(run: String, rest: String, tail: String)
    requires forall k | 0 <= k < |run| :: Ignored(run[k], Newlines)
    requires Sift(tail, Newlines) == Sift(rest, Newlines)
    ensures Sift("\n\n" + tail, Newlines) == Sift(run + rest, Newlines)
  {
    SiftAppend(run, rest, Newlines);
    SiftIgnored(run, Newlines);
    SiftAppend("\n\n", tail, Newlines);
    SiftIgnored("\n\n", Newlines);
  }

  lemma RunOrder(run: String, rest: String, tail: String)
    requires |run| >= 2 && run[0] == '\n' && run[1] == '\n' && SubseqOf(tail, rest)
    ensures SubseqOf("\n\n" + tail, run + rest)
  {
    var r2 := run[1..];
    SubseqOfSkipAll(tail, r2[1..], rest);
    SubseqOfCons('\n', tail, r2[1..] + rest);
    ConsConcat(r2, rest);
    SubseqOfCons('\n', ['\n'] + tail, r2 + rest);
    ConsConcat(run, rest);
    assert "\n\n" + tail == ['\n'] + (['\n'] + tail);
  }

  lemma CollapseChar(s: String, tail: String)
    requires |s| > 0 && NewlineRun(s, 0) < 3
    requires tail == CollapseNewlines(s[1..])
    requires SubseqOf(tail, s[1..]) && Sift(tail, Newlines) == Sift(s[1..], Newlines)
    ensures SubseqOf(CollapseNewlines(s), s)
    ensures Sift(CollapseNewlines(s), Newlines) == Sift(s, Newlines)
  {
    assert CollapseNewlines(s) == [s[0]] + tail;
    ConsTail(s);
    SubseqOfCons(s[0], tail, s[1..]);
    SiftCons(s[0], tail, Newlines);
    SiftCons(s[0], s[1..], Newlines);
  }

  /** The five regex passes (the first two are `NormalizeMarks`) together
      keep every character that is not decoration, in order. */
  lemma NormalizeKeeps(s: String)
    ensures Sift(Normalize(s), Decoration) == Sift(s, Decoration)
  {
    var m := NormalizeMarks(s);
    var t := TightenBeforeDash(m);
    var u := SingleSpaceAfterDash(t);
    var r := CollapseNewlines(u);
    assert Normalize(s) == r;
    NormalizeMarksKeeps(s);
    TightenKeeps(m);
    SingleSpaceKeeps(t);
    CollapseKeeps(u);
    SiftFiner(r, Newlines, Decoration);
    SiftFiner(u, Newlines, Decoration);
    SiftFiner(u, Blanks, Decoration);
    SiftFiner(t, Blanks, Decoration);
    SiftFiner(m, Blanks, Decoration);
  }

  // ---------------------------------------------------------------------------
  // The line pass
  // ---------------------------------------------------------------------------

  /** The sifted lines, one after the other. */
  function SiftAll(ls: seq<String>, d: Ignore): String
    decreases |ls|
  {
    if |ls| == 0 then [] else Sift(ls[0], d) + SiftAll(ls[1..], d)
  }

  lemma {:induction false} SiftAllAppend(a: seq<String>, b: seq<String>, d: Ignore)
    ensures SiftAll(a + b, d) == SiftAll(a, d) + SiftAll(b, d)
    decreases |a|
  {
    if |a| > 0 {
      SiftAllAppend(a[1..], b, d);
      ConcatTail(a, b);
      assert SiftAll(a + b, d) == Sift(a[0], d) + SiftAll(a[1..] + b, d);
    } else {
      assert a + b == b;
    }
  }

  /** Lines that agree one by one agree as a whole. */
  lemma {:induction false} SiftAllPointwise(xs: seq<String>, ys: seq<String>, d: Ignore)
    requires |xs| == |ys| && forall k | 0 <= k < |xs| :: Sift(xs[k], d) == Sift(ys[k], d)
    ensures SiftAll(xs, d) == SiftAll(ys, d)
    decreases |xs|
  {
    if |xs| > 0 {
      assert Sift(xs[0], d) == Sift(ys[0], d);
      SiftAllPointwise(xs[1..], ys[1..], d);
    }
  }

  /** Every comparison looks past the newlines `join` puts between lines. */
  lemma {:induction false} SiftJoin(ls: seq<String>, d: Ignore)
    ensures Sift(Join(ls, "\n"), d) == SiftAll(ls, d)
    decreases |ls|
  {
    if |ls| == 1 {
      assert SiftAll(ls, d) == Sift(ls[0], d) + SiftAll(ls[1..], d);
    } else if |ls| > 1 {
      SiftJoin(ls[1..], d);
      SiftJoinStep(ls, d);
    }
  }

  lemma SiftJoinStep(ls: seq<String>, d: Ignore)
    requires |ls| > 1 && Sift(Join(ls[1..], "\n"), d) == SiftAll(ls[1..], d)
    ensures Sift(Join(ls, "\n"), d) == SiftAll(ls, d)
  {
    var rest := Join(ls[1..], "\n");
    assert Join(ls, "\n") == ls[0] + ("\n" + rest);
    SiftAppend(ls[0], "\n" + rest, d);
    SiftCons('\n', rest, d);
  }

  /** The line loop handles each line on its own: the lines of a longer input
      are the lines of its parts, in order. */
  lemma {:induction false} FormatLinesAppend(a: seq<String>, b: seq<String>)
    ensures FormatLines(a + b) == FormatLines(a) + FormatLines(b)
    decreases |a|
  {
    if |a| > 0 {
      FormatLinesAppend(a[1..], b);
      FormatLinesAppendStep(a, b, FormatLines(a[1..]), FormatLines(b));
    } else {
      assert a + b == b;
    }
  }

  lemma FormatLinesAppendStep(a: seq<String>, b: seq<String>, x: seq<String>, y: seq<String>)
    requires |a| > 0 && x == FormatLines(a[1..]) && y == FormatLines(b)
    requires FormatLines(a[1..] + b) == x + y
    ensures FormatLines(a + b) == FormatLines(a) + y
  {
    ConcatTail(a, b);
    var h := FormatLine(a[0]);
    assert FormatLines(a + b) == h + (x + y);
    assert FormatLines(a) == h + x;
    ConcatAssoc(h, x, y);
  }

  lemma FormatLinesOne(l: String)
    ensures FormatLines([l]) == FormatLine(l)
  {
    assert FormatLines([l]) == FormatLine(l) + FormatLines([]);
  }

  /** `trim()` drops white space only. */
  lemma TrimKeeps(s: String, d: Ignore)
    requires d != Newlines
    ensures Sift(Trim(s, JS), d) == Sift(s, d)
  {
    var a := SpaceRun(s, 0, JS);
    var rest := s[a..];
    var b := TrailingSpace(rest, JS);
    var r := Trim(s, JS);
    assert r == rest[..|rest| - b];
    var front, back := s[..a], rest[|rest| - b..];
    forall k | 0 <= k < |front|
      ensures IsSpace(front[k], JS)
    {
      assert front[k] == s[k];
    }
    forall k | 0 <= k < |back|
      ensures IsSpace(back[k], JS)
    {
      assert back[k] == rest[|rest| - b + k];
    }
    SliceJoin(s, a);
    SliceJoin(rest, |rest| - b);
    SiftAppend(front, rest, d);
    SiftAppend(r, back, d);
    SiftBlank(front, d);
    SiftBlank(back, d);
  }

  /** Dropping the leading dash and the white space after it. */
  lemma StripLeadKeeps(s: String)
    ensures Sift(StripLeadDash(s), Decoration) == Sift(s, Decoration)
  {
    var r := StripLeadDash(s);
    if |s| > 0 && s[0] == '-' {
      var lead := s[..|s| - |r|];
      forall k | 0 <= k < |lead|
        ensures Ignored(lead[k], Decoration)
      {
        if k > 0 {
          assert lead[k] == s[1..|s| - |r|][k - 1];
          assert IsSpace(lead[k], JS);
        }
      }
      SliceJoin(s, |s| - |r|);
      SiftAppend(lead, r, Decoration);
      SiftIgnored(lead, Decoration);
    }
  }

  /** The `- ` of a bullet is decoration. */
  lemma BulletKeeps(x: String)
    ensures Sift("- " + x, Decoration) == Sift(x, Decoration)
  {
    assert "- " + x == ['-'] + ([' '] + x);
    SiftCons('-', [' '] + x, Decoration);
    SiftCons(' ', x, Decoration);
  }

  // ---------------------------------------------------------------------------
  // What the bullet split cuts out
  // ---------------------------------------------------------------------------

  /** A matched separator: a dash and the whole white-space run after it. */
  predicate IsDashSep(x: String)
  {
    |x| >= 2 && x[0] == '-' && AllSpace(x[1..], JS)
  }

  /** The separators `SplitBulletsFrom` cuts out, in order. */
  function DashSepsFrom(t: String, p: nat, q: nat): (seps: seq<String>)
    requires p <= q <= |t|
    requires forall j | p <= j < q :: !SepAt(t, j)
    ensures forall k | 0 <= k < |seps| :: IsDashSep(seps[k])
    decreases |t| - q
  {
    if q == |t| then []
    else if SepAt(t, q) then
      var e := q + 1 + SpaceRun(t, q + 1, JS);
      [t[q..e]] + DashSepsFrom(t, e, e)
    else DashSepsFrom(t, p, q + 1)
  }

  function DashSeps(t: String): (seps: seq<String>)
    ensures |seps| + 1 == |SplitBullets(t)|
    ensures forall k | 0 <= k < |seps| :: IsDashSep(seps[k])
  {
    DashSepsCount(t, 0, 0);
    DashSepsFrom(t, 0, 0)
  }

  /** One separator between every two pieces. */
  lemma {:induction false} DashSepsCount(t: String, p: nat, q: nat)
    requires p <= q <= |t|
    requires forall j | p <= j < q :: !SepAt(t, j)
    ensures |DashSepsFrom(t, p, q)| + 1 == |SplitBulletsFrom(t, p, q)|
    decreases |t| - q
  {
    if q < |t| {
      if SepAt(t, q) {
        var e := q + 1 + SpaceRun(t, q + 1, JS);
        DashSepsCount(t, e, e);
        SepUnfold(t, p, q, e);
        SepsUnfold(t, p, q, e);
      } else {
        DashSepsCount(t, p, q + 1);
        NoSepUnfold(t, p, q);
      }
    }
  }

  lemma NoSepUnfold(t: String, p: nat, q: nat)
    requires p <= q < |t| && (forall j | p <= j < q :: !SepAt(t, j)) && !SepAt(t, q)
    ensures SplitBulletsFrom(t, p, q) == SplitBulletsFrom(t, p, q + 1)
    ensures DashSepsFrom(t, p, q) == DashSepsFrom(t, p, q + 1)
  {
  }

  /** The pieces with the separators put back between them give the line back:
      the split loses nothing but the separators. */
  lemma {:induction false} SplitBulletsWeaveFrom(t: String, p: nat, q: nat)
    requires p <= q <= |t|
    requires forall j | p <= j < q :: !SepAt(t, j)
    ensures |SplitBulletsFrom(t, p, q)| == |DashSepsFrom(t, p, q)| + 1
    ensures Weave(SplitBulletsFrom(t, p, q), DashSepsFrom(t, p, q)) == t[p..]
    decreases |t| - q
  {
    DashSepsCount(t, p, q);
    if q < |t| {
      if SepAt(t, q) {
        var e := q + 1 + SpaceRun(t, q + 1, JS);
        SplitBulletsWeaveFrom(t, e, e);
        SepUnfold(t, p, q, e);
        SepUnfoldHead(t, p, q, e);
        SepsUnfold(t, p, q, e);
        SepsUnfoldHead(t, p, q, e);
        SplitBulletsWeaveSep(t, p, q, e, SplitBulletsFrom(t, p, q), DashSepsFrom(t, p, q));
      } else {
        SplitBulletsWeaveFrom(t, p, q + 1);
        NoSepUnfold(t, p, q);
      }
    }
  }

  lemma SepUnfold(t: String, p: nat, q: nat, e: nat)
    requires p <= q < |t| && (forall j | p <= j < q :: !SepAt(t, j)) && SepAt(t, q)
    requires e == q + 1 + SpaceRun(t, q + 1, JS)
    ensures SplitBulletsFrom(t, p, q)[1..] == SplitBulletsFrom(t, e, e)
  {
  }

  lemma SepUnfoldHead(t: String, p: nat, q: nat, e: nat)
    requires p <= q < |t| && (forall j | p <= j < q :: !SepAt(t, j)) && SepAt(t, q)
    ensures SplitBulletsFrom(t, p, q)[0] == t[p..q]
  {
  }

  lemma SepsUnfold(t: String, p: nat, q: nat, e: nat)
    requires p <= q < |t| && (forall j | p <= j < q :: !SepAt(t, j)) && SepAt(t, q)
    requires e == q + 1 + SpaceRun(t, q + 1, JS)
    ensures DashSepsFrom(t, p, q)[1..] == DashSepsFrom(t, e, e)
  {
  }

  lemma SepsUnfoldHead(t: String, p: nat, q: nat, e: nat)
    requires p <= q < |t| && (forall j | p <= j < q :: !SepAt(t, j)) && SepAt(t, q)
    requires e == q + 1 + SpaceRun(t, q + 1, JS)
    ensures DashSepsFrom(t, p, q)[0] == t[q..e]
  {
  }

  lemma SplitBulletsWeaveSep(t: String, p: nat, q: nat, e: nat, pieces: seq<String>, seps: seq<String>)
    requires p <= q <= e <= |t| && |pieces| == |seps| + 1 && |seps| > 0
    requires pieces[0] == t[p..q] && seps[0] == t[q..e]
    requires Weave(pieces[1..], seps[1..]) == t[e..]
    ensures Weave(pieces, seps) == t[p..]
  {
    SliceThree(t, p, q, e);
  }

  lemma SplitBulletsWeave(t: String)
    ensures |SplitBullets(t)| == |DashSeps(t)| + 1
    ensures Weave(SplitBullets(t), DashSeps(t)) == t
  {
    SplitBulletsWeaveFrom(t, 0, 0);
  }

  /** With decoration-only separators woven in, the text sifts to its pieces. */
  lemma {:induction false} SiftWeave(ps: seq<String>, seps: seq<String>)
    requires |ps| == |seps| + 1
    requires forall k | 0 <= k < |seps| :: IsDashSep(seps[k])
    ensures Sift(Weave(ps, seps), Decoration) == SiftAll(ps, Decoration)
    decreases |seps|
  {
    if |seps| == 0 {
      assert SiftAll(ps, Decoration) == Sift(ps[0], Decoration) + SiftAll(ps[1..], Decoration);
    } else {
      SiftWeave(ps[1..], seps[1..]);
      SiftWeaveStep(ps, seps, Weave(ps[1..], seps[1..]));
    }
  }

  lemma SiftWeaveStep(ps: seq<String>, seps: seq<String>, w: String)
    requires |ps| == |seps| + 1 && |seps| > 0 && IsDashSep(seps[0])
    requires w == Weave(ps[1..], seps[1..]) && Sift(w, Decoration) == SiftAll(ps[1..], Decoration)
    ensures Sift(Weave(ps, seps), Decoration) == SiftAll(ps, Decoration)
  {
    var sep := seps[0];
    assert Weave(ps, seps) == ps[0] + (sep + w);
    SiftAppend(ps[0], sep + w, Decoration);
    SiftAppend(sep, w, Decoration);
    forall k | 0 <= k < |sep|
      ensures Ignored(sep[k], Decoration)
    {
      if k > 0 { assert sep[k] == sep[1..][k - 1]; }
    }
    SiftIgnored(sep, Decoration);
  }

  // ---------------------------------------------------------------------------
  // Every line, and the whole formatter
  // ---------------------------------------------------------------------------

  lemma BulletIsDashSpace(x: String)
    ensures Bullet(x) == "- " + x
  {
  }

  /** A dash line split into several bullets keeps its characters: the
      separators and the new dashes are decoration. */
  lemma DashLineManyKeeps(t: String)
    requires t != [] && t[0] == '-' && |SplitBullets(t)| > 1
    ensures SiftAll(FormatDashLine(t), Decoration) == Sift(t, Decoration)
  {
    var pieces := SplitBullets(t);
    DashLineMany(t);
    var out := DashBullets(t, pieces);
    forall k | 0 <= k < |out|
      ensures Sift(out[k], Decoration) == Sift(pieces[k], Decoration)
    {
      if k == 0 {
        BulletIsDashSpace(StripLeadDash(pieces[0]));
        BulletKeeps(StripLeadDash(pieces[0]));
        StripLeadKeeps(pieces[0]);
      } else {
        BulletKeeps(Trim(pieces[k], JS));
        TrimKeeps(pieces[k], Decoration);
      }
    }
    SiftAllPointwise(out, pieces, Decoration);
    SplitBulletsWeave(t);
    SiftWeave(pieces, DashSeps(t));
  }

  lemma DashLineOneKeeps(t: String)
    requires t != [] && t[0] == '-' && |SplitBullets(t)| == 1
    ensures SiftAll(FormatDashLine(t), Decoration) == Sift(t, Decoration)
  {
    DashLineOne(t);
    var body := StripLeadDash(t);
    var line := Bullet(Trim(body, JS));
    assert SiftAll([line], Decoration) == Sift(line, Decoration) + SiftAll([], Decoration);
    BulletIsDashSpace(Trim(body, JS));
    BulletKeeps(Trim(body, JS));
    TrimKeeps(body, Decoration);
    StripLeadKeeps(t);
  }

  lemma BlankLine(line: String)
    requires Trim(line, JS) == []
    ensures FormatLine(line) == [""]
  {
  }

  lemma DashLine(line: String)
    requires Trim(line, JS) != [] && Trim(line, JS)[0] == '-'
    ensures FormatLine(line) == FormatDashLine(Trim(line, JS))
  {
  }

  lemma PlainLine(line: String)
    requires Trim(line, JS) != [] && Trim(line, JS)[0] != '-'
    ensures FormatLine(line) == ["- " + Trim(line, JS)]
  {
  }

  /** One turn of the line loop keeps the line's characters, up to decoration. */
  lemma FormatLineKeeps(line: String)
    ensures SiftAll(FormatLine(line), Decoration) == Sift(line, Decoration)
  {
    var t := Trim(line, JS);
    if t == [] {
      BlankLineKeeps(line);
    } else if t[0] == '-' {
      DashLineKeeps(line, t);
    } else {
      PlainLineKeeps(line, t);
    }
  }

  lemma BlankLineKeeps(line: String)
    requires Trim(line, JS) == []
    ensures SiftAll(FormatLine(line), Decoration) == Sift(line, Decoration)
  {
    TrimKeeps(line, Decoration);
    BlankLine(line);
    assert SiftAll([""], Decoration) == Sift("", Decoration) + SiftAll([], Decoration);
  }

  lemma DashLineKeeps(line: String, t: String)
    requires t == Trim(line, JS) && t != [] && t[0] == '-'
    ensures SiftAll(FormatLine(line), Decoration) == Sift(line, Decoration)
  {
    TrimKeeps(line, Decoration);
    DashLine(line);
    if |SplitBullets(t)| > 1 {
      DashLineManyKeeps(t);
    } else {
      DashLineOneKeeps(t);
    }
  }

  lemma PlainLineKeeps(line: String, t: String)
    requires t == Trim(line, JS) && t != [] && t[0] != '-'
    ensures SiftAll(FormatLine(line), Decoration) == Sift(line, Decoration)
  {
    TrimKeeps(line, Decoration);
    PlainLine(line);
    BulletKeeps(t);
    assert SiftAll(["- " + t], Decoration) == Sift("- " + t, Decoration) + SiftAll([], Decoration);
  }

  lemma FormatLinesCons(ls: seq<String>)
    requires |ls| > 0
    ensures FormatLines(ls) == FormatLine(ls[0]) + FormatLines(ls[1..])
  {
  }

  /** The whole line loop keeps the lines' characters, in order. */
  lemma {:induction false} FormatLinesKeeps(ls: seq<String>)
    ensures SiftAll(FormatLines(ls), Decoration) == SiftAll(ls, Decoration)
    decreases |ls|
  {
    if |ls| > 0 {
      FormatLinesKeeps(ls[1..]);
      FormatLinesCons(ls);
      SiftAllAppend(FormatLine(ls[0]), FormatLines(ls[1..]), Decoration);
      FormatLineKeeps(ls[0]);
    }
  }

  /** `formatBulletPoints` rearranges only white space, dashes, bullet dots and
      asterisks: every other character of the response comes out, in order,
      and nothing else does. */
  lemma FormatKeepsInk(response: String)
    ensures Sift(FormatBulletPoints(response), Decoration) == Sift(response, Decoration)
  {
    if response != [] {
      var n := Normalize(response);
      var parts := Split(n, '\n');
      var lines := FormatLines(parts);
      var joined := Join(lines, "\n");
      FormatUnfold(response, parts, lines, joined);
      CollapseKeeps(joined);
      SiftFiner(CollapseNewlines(joined), Newlines, Decoration);
      SiftFiner(joined, Newlines, Decoration);
      SiftJoin(lines, Decoration);
      FormatLinesKeeps(parts);
      SiftJoin(parts, Decoration);
      NormalizeKeeps(response);
    }
  }

  lemma FormatUnfold(response: String, parts: seq<String>, lines: seq<String>, joined: String)
    requires response != [] && parts == Split(Normalize(response), '\n')
    requires lines == FormatLines(parts) && joined == Join(lines, "\n")
    ensures FormatBulletPoints(response) == CollapseNewlines(joined)
  {
  }
}

=== FILE: bullet_formatter.dfy ===
/** `formatBulletPoints` from the frontend AI service: a chain of global regular
    expression rewrites followed by a line-by-line pass that makes every
    non-empty line a `- ` bullet. Each regex pass is a function that scans its
    input left to right exactly as a global `replace` does; all white space is
    JavaScript's `\s`. */
module BulletFormatter {
  import opened Text

  /** The bullet sign `•` that the first pass replaces. */
  const Dot: char := '\U{2022}'

  /** Neither alternative bullet sign occurs. */
  predicate NoMarks(s: String)
  {
    Dot !in s && '*' !in s
  }

  // ---------------------------------------------------------------------------
  // Pass 1: `.replace(/•/g, '-').replace(/\*/g, '-')`
  // ---------------------------------------------------------------------------

  function NormalizeMarks(s: String): (r: String)
    ensures |r| == |s| && NoMarks(r)
    ensures forall k | 0 <= k < |s| :: r[k] == s[k] || (r[k] == '-' && (s[k] == Dot || s[k] == '*'))
    ensures NoMarks(s) ==> r == s
    decreases |s|
  {
    if |s| == 0 then []
    else [if s[0] == Dot || s[0] == '*' then '-' else s[0]] + NormalizeMarks(s[1..])
  }

  // ---------------------------------------------------------------------------
  // Pass 2: `.replace(/\n\s*-/g, '\n-')`
  // ---------------------------------------------------------------------------

  /** A newline at `i` whose following white space (possibly more newlines) ends
      in a dash: the text the pattern `\n\s*-` matches from `i`. */
  predicate GapBeforeDash(s: String, i: nat)
    requires i < |s|
  {
    s[i] == '\n' && i + 1 + SpaceRun(s, i + 1, JS) < |s| && s[i + 1 + SpaceRun(s, i + 1, JS)] == '-'
  }

  /** No white space at all lies between a newline and a dash that follows it. */
  predicate TightBeforeDash(s: String)
  {
    forall i | 0 <= i < |s| && GapBeforeDash(s, i) :: SpaceRun(s, i + 1, JS) == 0
  }

  function TightenBeforeDash(s: String): (r: String)
    ensures |r| <= |s|
    ensures forall c | c in r :: c in s
    ensures |s| > 0 ==> |r| > 0 && r[0] == s[0]
    decreases |s|
  {
    if |s| == 0 then []
    else if GapBeforeDash(s, 0) then
      var n := SpaceRun(s, 1, JS);
      assert s[1 + n] in s;
      "\n-" + TightenBeforeDash(s[2 + n..])
    else [s[0]] + TightenBeforeDash(s[1..])
  }

  /** After the second pass no white space separates a newline from a dash. */
  lemma {:induction false} TightenRemovesGaps(s: String)
    ensures TightBeforeDash(TightenBeforeDash(s))
    decreases |s|
  {
    if |s| == 0 {
    } else if GapBeforeDash(s, 0) {
      var n := SpaceRun(s, 1, JS);
      TightenRemovesGaps(s[2 + n..]);
      TightAfterGap(TightenBeforeDash(s[2 + n..]));
    } else {
      TightenRemovesGaps(s[1..]);
      TightAfterChar(s);
    }
  }

  /** The replacement `\n-` in front of a tight tail leaves it tight. */
  lemma TightAfterGap(tail: String)
    requires TightBeforeDash(tail)
    ensures TightBeforeDash("\n-" + tail)
  {
    var s := "\n-" + tail;
    assert s[1] == '-';
    assert SpaceRun(s, 1, JS) == 0;
    TightShift("\n-", tail);
  }

  /** A character that starts no gap, in front of the tightened rest, leaves it
      tight. */
  lemma TightAfterChar(s: String)
    requires |s| > 0 && !GapBeforeDash(s, 0)
    requires TightBeforeDash(TightenBeforeDash(s[1..]))
    ensures TightBeforeDash([s[0]] + TightenBeforeDash(s[1..]))
  {
    var u := s[1..];
    var tail := TightenBeforeDash(u);
    if s[0] == '\n' {
      assert s == [s[0]] + u;
      SpaceRunShift([s[0]], u, 0, JS);
      TightenKeepsRun(u);
      SpaceRunShift([s[0]], tail, 0, JS);
    }
    TightShift([s[0]], tail);
  }

  /** A leading white-space run that no dash ends passes through the second
      pass untouched, together with the character after it. */
  lemma {:induction false} TightenKeepsRun(u: String)
    requires SpaceRun(u, 0, JS) == |u| || u[SpaceRun(u, 0, JS)] != '-'
    ensures SpaceRun(TightenBeforeDash(u), 0, JS) == SpaceRun(u, 0, JS)
    ensures SpaceRun(u, 0, JS) < |u| ==>
      SpaceRun(u, 0, JS) < |TightenBeforeDash(u)| && TightenBeforeDash(u)[SpaceRun(u, 0, JS)] == u[SpaceRun(u, 0, JS)]
    decreases |u|
  {
    var m := SpaceRun(u, 0, JS);
    if m > 0 {
      var v := u[1..];
      assert u == [u[0]] + v;
      SpaceRunShift([u[0]], v, 0, JS);
      assert !GapBeforeDash(u, 0);
      TightenKeepsRun(v);
      SpaceRunShift([u[0]], TightenBeforeDash(v), 0, JS);
    }
  }

  /** Tightness of a tail survives putting a head in front, once the head's own
      newlines are known to be tight. */
  lemma TightShift(head: String, tail: String)
    requires TightBeforeDash(tail)
    requires forall i | 0 <= i < |head| && GapBeforeDash(head + tail, i) :: SpaceRun(head + tail, i + 1, JS) == 0
    ensures TightBeforeDash(head + tail)
  {
    var s := head + tail;
    forall i | |head| <= i < |s| && GapBeforeDash(s, i)
      ensures SpaceRun(s, i + 1, JS) == 0
    {
      var j := i - |head|;
      SpaceRunShift(head, tail, j + 1, JS);
      var m := SpaceRun(tail, j + 1, JS);
      assert s[i] == tail[j] && s[i + 1 + m] == tail[j + 1 + m];
      assert GapBeforeDash(tail, j);
    }
  }

  // ---------------------------------------------------------------------------
  // Pass 3: `.replace(/-\s+/g, '- ')`
  // ---------------------------------------------------------------------------

  /** Every dash that white space follows is followed by exactly one space. */
  predicate OneSpaceAfterDash(s: String)
  {
    forall i | 0 <= i < |s| - 1 && s[i] == '-' && IsJsSpace(s[i + 1]) :: s[i + 1] == ' ' && SpaceRun(s, i + 1, JS) == 1
  }

  function SingleSpaceAfterDash(s: String): (r: String)
    ensures forall c | c in r :: c in s || c == ' '
    ensures |s| > 0 ==> |r| > 0 && r[0] == s[0]
    ensures OneSpaceAfterDash(r)
    decreases |s|
  {
    if |s| == 0 then []
    else if s[0] == '-' && SpaceRun(s, 1, JS) >= 1 then
      var rest := s[1 + SpaceRun(s, 1, JS)..];
      var tail := SingleSpaceAfterDash(rest);
      assert SpaceRun("- " + tail, 1, JS) == 1 by {
        if |rest| > 0 { assert ("- " + tail)[2] == rest[0]; }
      }
      DashSpaceShift("- ", tail);
      "- " + tail
    else
      var tail := SingleSpaceAfterDash(s[1..]);
      assert s[0] == '-' && |s| > 1 ==> !IsJsSpace(tail[0]);
      DashSpaceShift([s[0]], tail);
      [s[0]] + tail
  }

  /** The one-space property of a tail carries over once a head is put in front,
      as long as the head's last dash, if it ends the head, is dealt with. */
  lemma DashSpaceShift(head: String, tail: String)
    requires |head| >= 1 && OneSpaceAfterDash(tail)
    requires forall i | 0 <= i < |head| - 1 && head[i] == '-' :: !IsJsSpace(head[i + 1]) || (head[i + 1] == ' ' && i + 2 == |head|)
    requires head[|head| - 1] == '-' && |tail| > 0 ==> !IsJsSpace(tail[0])
    requires |head| >= 2 && head[|head| - 2] == '-' && head[|head| - 1] == ' ' ==> |tail| == 0 || !IsJsSpace(tail[0])
    ensures OneSpaceAfterDash(head + tail)
  {
    var s := head + tail;
    forall i | 0 <= i < |s| - 1 && s[i] == '-' && IsJsSpace(s[i + 1])
      ensures s[i + 1] == ' ' && SpaceRun(s, i + 1, JS) == 1
    {
      if i >= |head| {
        SpaceRunShift(head, tail, i + 1 - |head|, JS);
      } else {
        assert i + 2 == |head| && s[i + 1] == ' ';
        SpaceRunShift(head, tail, 0, JS);
      }
    }
  }

  // ---------------------------------------------------------------------------
  // Pass 4 (and the final pass): `.replace(/\n{3,}/g, '\n\n')`
  // ---------------------------------------------------------------------------

  /** Length of the run of newlines that starts at index `i`. */
  function NewlineRun(s: String, i: nat): (n: nat)
    requires i <= |s|
    ensures i + n <= |s|
    ensures forall k | i <= k < i + n :: s[k] == '\n'
    ensures i + n == |s| || s[i + n] != '\n'
    decreases |s| - i
  {
    if i == |s| || s[i] != '\n' then 0 else 1 + NewlineRun(s, i + 1)
  }

  /** No three newlines in a row. */
  predicate NoTripleNewline(s: String)
  {
    forall i | 0 <= i < |s| - 2 :: !(s[i] == '\n' && s[i + 1] == '\n' && s[i + 2] == '\n')
  }

  function CollapseNewlines(s: String): (r: String)
    ensures |r| <= |s|
    ensures forall c | c in r :: c in s
    ensures |s| > 0 ==> |r| > 0 && r[0] == s[0]
    ensures NoTripleNewline(r)
    ensures NewlineRun(r, 0) == (if NewlineRun(s, 0) >= 3 then 2 else NewlineRun(s, 0))
    decreases |s|
  {
    if |s| == 0 then []
    else if NewlineRun(s, 0) >= 3 then
      var n := NewlineRun(s, 0);
      var tail := CollapseNewlines(s[n..]);
      assert NewlineRun(s[n..], 0) == 0;
      CollapsedRun(tail);
      "\n\n" + tail
    else
      var tail := CollapseNewlines(s[1..]);
      assert s[0] == '\n' ==> NewlineRun(s[1..], 0) == NewlineRun(s, 0) - 1 by {
        if s[0] == '\n' { NewlineRunShift(s, 1); }
      }
      CollapsedChar(s[0], tail);
      [s[0]] + tail
  }

  /** The two newlines a long run collapses to, in front of a collapsed rest
      that starts with no newline. */
  lemma CollapsedRun(tail: String)
    requires NoTripleNewline(tail) && NewlineRun(tail, 0) == 0
    ensures NoTripleNewline("\n\n" + tail) && NewlineRun("\n\n" + tail, 0) == 2
  {
    NoTripleAfter("\n\n", tail);
    assert NewlineRun("\n\n" + tail, 2) == 0;
    assert NewlineRun("\n\n" + tail, 1) == 1;
  }

  /** One character kept in front of a collapsed rest. */
  lemma CollapsedChar(c: char, tail: String)
    requires NoTripleNewline(tail)
    requires c == '\n' ==> NewlineRun(tail, 0) <= 1
    ensures NoTripleNewline([c] + tail)
    ensures NewlineRun([c] + tail, 0) == if c == '\n' then 1 + NewlineRun(tail, 0) else 0
  {
    NoTripleAfter([c], tail);
    if c == '\n' {
      NewlineRunShift([c] + tail, 1);
      assert ([c] + tail)[1..] == tail;
    }
  }

  lemma NewlineRunShift(s: String, j: nat)
    requires j <= |s|
    requires forall k | 0 <= k < j :: s[k] == '\n'
    ensures NewlineRun(s, 0) == j + NewlineRun(s[j..], 0)
  {
    NewlineRunSkip(s, 0, j);
    NewlineRunFrom(s, j, j);
  }

  lemma NewlineRunSkip(s: String, i: nat, j: nat)
    requires i <= j <= |s|
    requires forall k | i <= k < j :: s[k] == '\n'
    ensures NewlineRun(s, i) == (j - i) + NewlineRun(s, j)
    decreases j - i
  {
    if i < j {
      NewlineRunSkip(s, i + 1, j);
    }
  }

  lemma NewlineRunFrom(s: String, i: nat, j: nat)
    requires j <= i <= |s|
    ensures NewlineRun(s, i) == NewlineRun(s[j..], i - j)
    decreases |s| - i
  {
    if i < |s| {
      NewlineRunFrom(s, i + 1, j);
    }
  }

  /** Three newlines straddling the seam would need the whole head and the start
      of the tail to be newlines. */
  lemma NoTripleAfter(head: String, tail: String)
    requires (|head| == 1 || head == "\n\n") && NoTripleNewline(tail)
    requires head == "\n\n" ==> NewlineRun(tail, 0) == 0
    requires |head| == 1 && head[0] == '\n' ==> NewlineRun(tail, 0) <= 1
    ensures NoTripleNewline(head + tail)
  {
    var s := head + tail;
    forall i | 0 <= i < |s| - 2
      ensures !(s[i] == '\n' && s[i + 1] == '\n' && s[i + 2] == '\n')
    {
      if i >= |head| {
        assert s[i] == tail[i - |head|] && s[i + 1] == tail[i - |head| + 1] && s[i + 2] == tail[i - |head| + 2];
      }
    }
  }

  // ---------------------------------------------------------------------------
  // The line pass
  // ---------------------------------------------------------------------------

  /** Every character of the pieces comes from `t`. */
  predicate PiecesWithin(ps: seq<String>, t: String)
  {
    forall k, c | 0 <= k < |ps| && c in ps[k] :: c in t
  }

  /** Every character of the lines comes from `t`, or is the dash or space of
      a bullet. */
  predicate LinesWithin(ls: seq<String>, t: String)
  {
    forall k, c | 0 <= k < |ls| && c in ls[k] :: c in t || c == '-' || c == ' '
  }

  /** The pattern `(?<=\S)-\s+` matches at `j`: a dash right after a character
      that is not white space, followed by at least one white-space character. */
  predicate SepAt(t: String, j: nat)
    requires j < |t|
  {
    0 < j && !IsJsSpace(t[j - 1]) && t[j] == '-' && SpaceRun(t, j + 1, JS) >= 1
  }

  predicate HasSep(t: String)
  {
    exists j | 0 <= j < |t| :: SepAt(t, j)
  }

  /** `t.split(/(?<=\S)-\s+/)` as the `@@split` algorithm runs it: the current
      piece starts at `p`, the pattern is tried at `q`, and after a match both
      move past the dash and the whole white-space run. */
  function SplitBulletsFrom(t: String, p: nat, q: nat): (pieces: seq<String>)
    requires p <= q <= |t|
    requires forall j | p <= j < q :: !SepAt(t, j)
    ensures |pieces| >= 1
    ensures p + |pieces[0]| <= |t| && pieces[0] == t[p..p + |pieces[0]|]
    ensures forall k | 0 <= k < |pieces| :: !HasSep(pieces[k])
    ensures PiecesWithin(pieces, t)
    decreases |t| - q
  {
    if q == |t| then
      PieceHasNoSep(t, p, q);
      [t[p..]]
    else if SepAt(t, q) then
      var e := q + 1 + SpaceRun(t, q + 1, JS);
      PieceHasNoSep(t, p, q);
      [t[p..q]] + SplitBulletsFrom(t, e, e)
    else SplitBulletsFrom(t, p, q + 1)
  }

  /** The split gives one piece exactly when the pattern matches nowhere from
      `q` on. */
  lemma {:induction false} SplitOnePiece(t: String, p: nat, q: nat)
    requires p <= q <= |t|
    requires forall j | p <= j < q :: !SepAt(t, j)
    ensures |SplitBulletsFrom(t, p, q)| == 1 <==> forall j | q <= j < |t| :: !SepAt(t, j)
    decreases |t| - q
  {
    if q < |t| && !SepAt(t, q) {
      SplitOnePiece(t, p, q + 1);
    }
  }

  function SplitBullets(t: String): (pieces: seq<String>)
    ensures |pieces| >= 1
    ensures |pieces| == 1 <==> !HasSep(t)
    ensures pieces[0] <= t
    ensures forall k | 0 <= k < |pieces| :: !HasSep(pieces[k])
    ensures PiecesWithin(pieces, t)
  {
    SplitOnePiece(t, 0, 0);
    SplitBulletsFrom(t, 0, 0)
  }

  /** A stretch of `t` in which the pattern never matches has no match of its own:
      the look-behind and the white-space run only get shorter when cut out. */
  lemma PieceHasNoSep(t: String, a: nat, b: nat)
    requires a <= b <= |t|
    requires forall j | a <= j < b :: !SepAt(t, j)
    ensures !HasSep(t[a..b])
  {
    var u := t[a..b];
    forall j | 0 <= j < |u|
      ensures !SepAt(u, j)
    {
      if SepAt(u, j) {
        assert j + 1 < |u| && IsJsSpace(u[j + 1]);
        assert u[j - 1] == t[a + j - 1] && u[j] == t[a + j] && u[j + 1] == t[a + j + 1];
        assert SepAt(t, a + j);
      }
    }
  }

  // `s.replace(/^-\s*/, '')`: drops one leading dash and the white space after it.
  function StripLeadDash(s: String): (r: String)
    ensures |r| <= |s| && r == s[|s| - |r|..]
    ensures forall c | c in r :: c in s
    ensures |s| > 0 && s[0] == '-' ==> |r| < |s| && AllSpace(s[1..|s| - |r|], JS) && (r == [] || !IsJsSpace(r[0]))
    ensures |s| == 0 || s[0] != '-' ==> r == s
  {
    if |s| > 0 && s[0] == '-' then
      var n := 1 + SpaceRun(s, 1, JS);
      assert forall c | c in s[n..] :: c in s by {
        forall c | c in s[n..]
          ensures c in s
        {
          var i :| 0 <= i < |s| - n && s[n..][i] == c;
          assert s[n + i] == c;
        }
      }
      s[n..]
    else s
  }

  /** A line that starts with a dash and a space. */
  predicate IsBullet(l: String)
  {
    |l| >= 2 && l[0] == '-' && l[1] == ' '
  }

  /** `"- " + p.trim()` for every piece after the first. */
  function Bulleted(ps: seq<String>): (r: seq<String>)
    ensures |r| == |ps|
    ensures forall k | 0 <= k < |ps| :: r[k] == "- " + Trim(ps[k], JS)
    decreases |ps|
  {
    if |ps| == 0 then [] else ["- " + Trim(ps[0], JS)] + Bulleted(ps[1..])
  }

  /** One turn of the line loop: the lines it pushes onto `result`. */
  function FormatLine(line: String): (out: seq<String>)
    ensures |out| >= 1
    ensures forall k | 0 <= k < |out| :: out[k] == "" || IsBullet(out[k])
    ensures LinesWithin(out, line)
    ensures out == [""] <==> AllSpace(line, JS)
    ensures !AllSpace(line, JS) && Trim(line, JS)[0] != '-' ==> out == ["- " + Trim(line, JS)]
    ensures |out| > 1 <==> !AllSpace(line, JS) && Trim(line, JS)[0] == '-' && HasSep(Trim(line, JS))
  {
    var t := Trim(line, JS);
    assert forall c | c in t :: c in line;
    if t == [] then [""]
    else if t[0] == '-' then FormatDashLine(t)
    else ["- " + t]
  }

  /** A trimmed line that starts with a dash: several bullets if the pattern
      finds more, otherwise the one bullet with its dash and spacing renewed. */
  function FormatDashLine(t: String): (out: seq<String>)
    requires t != [] && t[0] == '-'
    ensures |out| >= 1
    ensures forall k | 0 <= k < |out| :: IsBullet(out[k])
    ensures LinesWithin(out, t)
    ensures |out| > 1 <==> HasSep(t)
  {
    var pieces := SplitBullets(t);
    if |pieces| > 1 then DashBullets(t, pieces)
    else
      var body := StripLeadDash(t);
      var trimmed := Trim(body, JS);
      var line := Bullet(trimmed);
      assert LinesWithin([line], t) by {
        assert forall c | c in trimmed :: c in body;
        assert forall c | c in line :: c in t || c == '-' || c == ' ';
      }
      [line]
  }

  /** The two branches of `FormatDashLine`. */
  lemma DashLineMany(t: String)
    requires t != [] && t[0] == '-' && |SplitBullets(t)| > 1
    ensures FormatDashLine(t) == DashBullets(t, SplitBullets(t))
  {
  }

  lemma DashLineOne(t: String)
    requires t != [] && t[0] == '-' && |SplitBullets(t)| == 1
    ensures FormatDashLine(t) == [Bullet(Trim(StripLeadDash(t), JS))]
  {
  }

  /** The bullets for the pieces a dash line splits into: the first piece
      loses its leading dash, every piece is trimmed and bulleted. */
  function DashBullets(t: String, pieces: seq<String>): (out: seq<String>)
    requires |pieces| > 1
    requires PiecesWithin(pieces, t)
    ensures |out| == |pieces|
    ensures forall k | 0 <= k < |out| :: IsBullet(out[k])
    ensures out[0] == Bullet(StripLeadDash(pieces[0]))
    ensures forall k | 1 <= k < |out| :: out[k] == "- " + Trim(pieces[k], JS)
    ensures LinesWithin(out, t)
  {
    var first := StripLeadDash(pieces[0]);
    var head := Bullet(first);
    TailWithin(pieces, t);
    var rest := BulletedFrom(t, pieces[1..]);
    assert forall c | c in head :: c in t || c == '-' || c == ' ' by {
      assert forall c | c in first :: c in pieces[0];
      assert 0 < |pieces| && forall c | c in pieces[0] :: c in t;
    }
    ConsWithin(head, rest, t);
    var out := [head] + rest;
    forall k | 0 <= k < |out|
      ensures IsBullet(out[k])
      ensures k > 0 ==> out[k] == "- " + Trim(pieces[k], JS)
    {
      if k > 0 {
        assert out[k] == rest[k - 1] && pieces[1..][k - 1] == pieces[k];
      }
    }
    out
  }

  lemma TailWithin(ps: seq<String>, t: String)
    requires |ps| > 0 && PiecesWithin(ps, t)
    ensures PiecesWithin(ps[1..], t)
  {
    var tail := ps[1..];
    forall k, c | 0 <= k < |tail| && c in tail[k]
      ensures c in t
    {
      assert tail[k] == ps[k + 1];
    }
  }

  lemma ConsWithin(head: String, rest: seq<String>, t: String)
    requires forall c | c in head :: c in t || c == '-' || c == ' '
    requires LinesWithin(rest, t)
    ensures LinesWithin([head] + rest, t)
  {
    var out := [head] + rest;
    forall k, c | 0 <= k < |out| && c in out[k]
      ensures c in t || c == '-' || c == ' '
    {
      if k > 0 {
        assert out[k] == rest[k - 1];
      }
    }
  }

  /** `"- " + x`. */
  function Bullet(x: String): (l: String)
    ensures IsBullet(l) && l[2..] == x
    ensures forall c | c in l :: c in x || c == '-' || c == ' '
  {
    var l := "- " + x;
    assert forall c | c in l :: c in x || c == '-' || c == ' ' by {
      forall c | c in l
        ensures c in x || c == '-' || c == ' '
      {
        var i :| 0 <= i < |l| && l[i] == c;
        if i >= 2 { assert x[i - 2] == c; }
      }
    }
    l
  }

  /** `Bulleted` for pieces of `t`: what it adds besides "- " comes from `t`. */
  function BulletedFrom(t: String, ps: seq<String>): (r: seq<String>)
    requires PiecesWithin(ps, t)
    ensures |r| == |ps|
    ensures forall k | 0 <= k < |r| :: IsBullet(r[k]) && r[k] == "- " + Trim(ps[k], JS)
    ensures LinesWithin(r, t)
  {
    var r := Bulleted(ps);
    forall k, c | 0 <= k < |r| && c in r[k]
      ensures c in t || c == '-' || c == ' '
    {
      var tr := Trim(ps[k], JS);
      assert forall d | d in tr :: d in ps[k];
      assert r[k] == "- " + tr;
    }
    r
  }

  /** The whole line loop: the lines of all turns, in order. */
  function FormatLines(lines: seq<String>): (out: seq<String>)
    ensures |out| >= |lines|
    ensures forall k | 0 <= k < |out| :: out[k] == "" || IsBullet(out[k])
    ensures (forall j | 0 <= j < |lines| :: NoMarks(lines[j])) ==> forall k | 0 <= k < |out| :: NoMarks(out[k])
    ensures (forall j | 0 <= j < |lines| :: '\n' !in lines[j]) ==> forall k | 0 <= k < |out| :: '\n' !in out[k]
    decreases |lines|
  {
    if |lines| == 0 then [] else FormatLine(lines[0]) + FormatLines(lines[1..])
  }

  // ---------------------------------------------------------------------------
  // The whole formatter
  // ---------------------------------------------------------------------------

  /** Every line that has characters starts with a dash and a space. */
  predicate EveryLineBulleted(s: String)
  {
    forall i | 0 <= i < |s| && (i == 0 || s[i - 1] == '\n') && s[i] != '\n' :: i + 1 < |s| && s[i] == '-' && s[i + 1] == ' '
  }

  /** The five regex passes that run before the text is cut into lines; the
      first two are `NormalizeMarks`. */
  function Normalize(s: String): (r: String)
    ensures NoMarks(r)
  {
    var marks := NormalizeMarks(s);
    var r := CollapseNewlines(SingleSpaceAfterDash(TightenBeforeDash(marks)));
    assert Dot !in r && '*' !in r;
    r
  }

  /** `formatBulletPoints(response)` for a string `response`. */
  function FormatBulletPoints(response: String): (r: String)
    ensures response == [] ==> r == []
    ensures NoMarks(r)
    ensures NoTripleNewline(r)
    ensures EveryLineBulleted(r)
  {
    if response == [] then response
    else
      var parts := Split(Normalize(response), '\n');
      var lines := FormatLines(parts);
      SplitAvoids(Normalize(response), '\n', Dot);
      SplitAvoids(Normalize(response), '\n', '*');
      JoinAvoids(lines, "\n", Dot);
      JoinAvoids(lines, "\n", '*');
      var joined := Join(lines, "\n");
      JoinBulletLines(lines);
      CollapseKeepsBullets(joined, true);
      BulletLinesMeans(CollapseNewlines(joined), true);
      CollapseNewlines(joined)
  }

  // ---------------------------------------------------------------------------
  // Why every line ends up bulleted
  // ---------------------------------------------------------------------------

  /** Scanning `s`, where `atStart` says whether a line begins at `s[0]`: every
      line with characters starts with "- ". */
  predicate BulletLines(s: String, atStart: bool)
    decreases |s|
  {
    if |s| == 0 then true
    else if s[0] == '\n' then BulletLines(s[1..], true)
    else if atStart then |s| >= 2 && s[0] == '-' && s[1] == ' ' && BulletLines(s[1..], false)
    else BulletLines(s[1..], false)
  }

  lemma {:induction false} BulletLinesMeans(s: String, atStart: bool)
    requires BulletLines(s, atStart)
    ensures forall i | 0 <= i < |s| && ((i == 0 && atStart) || (i > 0 && s[i - 1] == '\n')) && s[i] != '\n' ::
              i + 1 < |s| && s[i] == '-' && s[i + 1] == ' '
    ensures atStart ==> EveryLineBulleted(s)
    decreases |s|
  {
    if |s| > 0 {
      BulletLinesMeans(s[1..], s[0] == '\n');
      forall i | 0 < i < |s| && s[i - 1] == '\n' && s[i] != '\n'
        ensures i + 1 < |s| && s[i] == '-' && s[i + 1] == ' '
      {
        assert s[1..][i - 1] == s[i];
        assert i > 1 ==> s[1..][i - 2] == s[i - 1];
      }
    }
  }

  /** Characters of a line that has no newline never start a line. */
  lemma {:induction false} PlainThen(x: String, rest: String)
    requires '\n' !in x && BulletLines(rest, false)
    ensures BulletLines(x + rest, false)
    decreases |x|
  {
    if |x| > 0 {
      PlainThen(x[1..], rest);
      assert x[0] in x && (x + rest)[0] == x[0];
      assert (x + rest)[1..] == x[1..] + rest;
    } else {
      assert x + rest == rest;
    }
  }

  lemma LineThen(l: String, rest: String)
    requires '\n' !in l && (l == "" || IsBullet(l))
    requires BulletLines(rest, true) && BulletLines(rest, false)
    ensures BulletLines(l + rest, true)
  {
    if l != "" {
      PlainThen(l[1..], rest);
      assert (l + rest)[1..] == l[1..] + rest;
    } else {
      assert l + rest == rest;
    }
  }

  lemma {:induction false} JoinBulletLines(lines: seq<String>)
    requires forall k | 0 <= k < |lines| :: '\n' !in lines[k] && (lines[k] == "" || IsBullet(lines[k]))
    ensures BulletLines(Join(lines, "\n"), true)
    decreases |lines|
  {
    if |lines| == 1 {
      LineThen(lines[0], "");
      assert lines[0] + "" == lines[0];
    } else if |lines| > 1 {
      var rest := Join(lines[1..], "\n");
      JoinBulletLines(lines[1..]);
      assert ("\n" + rest)[1..] == rest;
      LineThen(lines[0], "\n" + rest);
      assert lines[0] + "\n" + rest == lines[0] + ("\n" + rest);
    }
  }

  lemma {:induction false} SkipNewlines(s: String, atStart: bool, n: nat)
    requires 1 <= n <= |s| && BulletLines(s, atStart)
    requires forall k | 0 <= k < n :: s[k] == '\n'
    ensures BulletLines(s[n..], true)
    decreases n
  {
    if n > 1 {
      SkipNewlines(s[1..], true, n - 1);
      assert s[1..][n - 1..] == s[n..];
    }
  }

  /** Collapsing newline runs never moves a line start off a "- ". */
  lemma {:induction false} CollapseKeepsBullets(s: String, atStart: bool)
    requires BulletLines(s, atStart)
    ensures BulletLines(CollapseNewlines(s), atStart)
    decreases |s|
  {
    var r := CollapseNewlines(s);
    if |s| == 0 {
    } else if NewlineRun(s, 0) >= 3 {
      var n := NewlineRun(s, 0);
      SkipNewlines(s, atStart, n);
      CollapseKeepsBullets(s[n..], true);
      var tail := CollapseNewlines(s[n..]);
      assert r == "\n\n" + tail;
      assert r[1..] == "\n" + tail && r[1..][1..] == tail;
    } else {
      var tail := CollapseNewlines(s[1..]);
      assert r == [s[0]] + tail && r[1..] == tail;
      if s[0] == '\n' {
        CollapseKeepsBullets(s[1..], true);
      } else {
        CollapseKeepsBullets(s[1..], false);
      }
    }
  }

  // ---------------------------------------------------------------------------
  // Text that is already a clean bullet list comes back unchanged
  // ---------------------------------------------------------------------------

  /** "- " followed by non-empty, trimmed text without a dash, a newline or an
      alternative bullet sign. */
  predicate PlainBullet(l: String)
  {
    |l| >= 3 && l[0] == '-' && l[1] == ' ' && IsTrimmed(l[2..], JS)
    && '-' !in l[2..] && '\n' !in l[2..] && NoMarks(l[2..])
  }

  lemma {:induction false} FormatKeepsBulletList(lines: seq<String>)
    requires |lines| >= 1
    requires forall k | 0 <= k < |lines| :: PlainBullet(lines[k])
    ensures FormatBulletPoints(Join(lines, "\n")) == Join(lines, "\n")
  {
    var s := Join(lines, "\n");
    PlainListFacts(lines);
    NormalizeMarksFixed(s);
    TightenFixed(s);
    SingleSpaceFixed(s);
    CollapseFixed(s);
    assert Normalize(s) == s;
    forall k | 0 <= k < |lines|
      ensures '\n' !in lines[k]
    {
      PlainBulletFacts(lines[k]);
    }
    SplitJoin(lines, '\n');
    FormatLinesFixed(lines);
  }

  lemma PlainBulletFacts(l: String)
    requires PlainBullet(l)
    ensures '\n' !in l && NoMarks(l)
    ensures forall i | 0 < i < |l| :: l[i] != '-'
    ensures !IsJsSpace(l[2]) && !IsJsSpace(l[|l| - 1])
  {
    var x := l[2..];
    assert l == "- " + x;
    forall i | 2 <= i < |l|
      ensures l[i] == x[i - 2]
    {
    }
  }

  /** Every newline is followed by a dash. */
  predicate NewlineThenDash(s: String)
  {
    forall i | 0 <= i < |s| && s[i] == '\n' :: i + 1 < |s| && s[i + 1] == '-'
  }

  /** Every dash is followed by one space and then a character that is not
      white space. */
  predicate DashThenWord(s: String)
  {
    forall i | 0 <= i < |s| && s[i] == '-' :: i + 2 < |s| && s[i + 1] == ' ' && !IsJsSpace(s[i + 2])
  }

  /** The character-level shape of a joined clean bullet list. */
  lemma {:induction false} PlainListFacts(lines: seq<String>)
    requires |lines| >= 1
    requires forall k | 0 <= k < |lines| :: PlainBullet(lines[k])
    ensures |Join(lines, "\n")| >= 3 && Join(lines, "\n")[0] == '-'
    ensures NoMarks(Join(lines, "\n"))
    ensures NewlineThenDash(Join(lines, "\n")) && DashThenWord(Join(lines, "\n"))
    decreases |lines|
  {
    var l := lines[0];
    PlainBulletFacts(l);
    if |lines| > 1 {
      var rest := Join(lines[1..], "\n");
      PlainListFacts(lines[1..]);
      assert Join(lines, "\n") == l + "\n" + rest;
      PlainJoinStep(l, rest);
    } else {
      assert Join(lines, "\n") == l;
    }
  }

  /** One clean bullet and a newline in front of a clean list keep its shape. */
  lemma PlainJoinStep(l: String, rest: String)
    requires PlainBullet(l)
    requires |rest| >= 3 && rest[0] == '-' && NoMarks(rest)
    requires NewlineThenDash(rest) && DashThenWord(rest)
    ensures var s := l + "\n" + rest;
            NoMarks(s) && NewlineThenDash(s) && DashThenWord(s)
  {
    PlainBulletFacts(l);
    var s := l + "\n" + rest;
    forall i | 0 <= i < |s| && s[i] == '\n'
      ensures i + 1 < |s| && s[i + 1] == '-'
    {
      if i > |l| {
        assert s[i] == rest[i - |l| - 1] && s[i + 1] == rest[i - |l|];
      } else {
        assert i == |l|;
      }
    }
    forall i | 0 <= i < |s| && s[i] == '-'
      ensures i + 2 < |s| && s[i + 1] == ' ' && !IsJsSpace(s[i + 2])
    {
      if i > |l| {
        assert s[i] == rest[i - |l| - 1] && s[i + 1] == rest[i - |l|] && s[i + 2] == rest[i - |l| + 1];
      } else {
        assert i == 0;
      }
    }
    assert NoMarks(s) by {
      assert s == l + ("\n" + rest);
    }
  }

  lemma {:induction false} NormalizeMarksFixed(s: String)
    requires NoMarks(s)
    ensures NormalizeMarks(s) == s
  {
  }

  lemma {:induction false} TightenFixed(s: String)
    requires forall i | 0 <= i < |s| - 1 && s[i] == '\n' :: !IsJsSpace(s[i + 1])
    ensures TightenBeforeDash(s) == s
    decreases |s|
  {
    if |s| > 0 {
      if GapBeforeDash(s, 0) {
        assert SpaceRun(s, 1, JS) == 0;
        TightenFixed(s[2..]);
        assert s == "\n-" + s[2..];
      } else {
        TightenFixed(s[1..]);
        assert s == [s[0]] + s[1..];
      }
    }
  }

  lemma {:induction false} SingleSpaceFixed(s: String)
    requires forall i | 0 <= i < |s| && s[i] == '-' :: i + 2 < |s| && s[i + 1] == ' ' && !IsJsSpace(s[i + 2])
    ensures SingleSpaceAfterDash(s) == s
    decreases |s|
  {
    if |s| > 0 {
      if s[0] == '-' {
        var rest := s[2..];
        assert SpaceRun(s, 1, JS) == 1 by {
          assert SpaceRun(s, 2, JS) == 0;
        }
        assert s[1 + SpaceRun(s, 1, JS)..] == rest;
        SingleSpaceFixed(rest);
        assert SingleSpaceAfterDash(s) == "- " + SingleSpaceAfterDash(rest);
        assert s == "- " + rest;
      } else {
        var rest := s[1..];
        SingleSpaceFixed(rest);
        assert SingleSpaceAfterDash(s) == [s[0]] + SingleSpaceAfterDash(rest);
        assert s == [s[0]] + rest;
      }
    }
  }

  lemma {:induction false} CollapseFixed(s: String)
    requires NoTripleNewline(s)
    ensures CollapseNewlines(s) == s
    decreases |s|
  {
    if |s| > 0 {
      CollapseFixed(s[1..]);
      assert s == [s[0]] + s[1..];
    }
  }

  lemma {:induction false} FormatLinesFixed(lines: seq<String>)
    requires forall k | 0 <= k < |lines| :: PlainBullet(lines[k])
    ensures FormatLines(lines) == lines
    decreases |lines|
  {
    if |lines| > 0 {
      var rest := lines[1..];
      FormatLineFixed(lines[0]);
      forall k | 0 <= k < |rest| ensures PlainBullet(rest[k]) {
        assert rest[k] == lines[k + 1];
      }
      FormatLinesFixed(rest);
      assert FormatLines(lines) == FormatLine(lines[0]) + FormatLines(rest);
      assert lines == [lines[0]] + rest;
    }
  }

  lemma FormatLineFixed(l: String)
    requires PlainBullet(l)
    ensures FormatLine(l) == [l]
  {
    PlainBulletFacts(l);
    assert IsTrimmed(l, JS);
    TrimmedDashLine(l);
    PlainDashLine(l);
  }

  lemma PlainDashLine(l: String)
    requires PlainBullet(l)
    ensures FormatDashLine(l) == [l]
  {
    PlainBulletFacts(l);
    assert !HasSep(l);
    SingleDashLine(l);
  }

  /** Two bullets run together on one line are pulled apart. */
  lemma SplitsRunTogetherBullets()
    ensures FormatLine("- a- b") == ["- a", "- b"]
  {
    var t := "- a- b";
    assert t[0] == '-' && t[|t| - 1] == 'b';
    TrimmedDashLine(t);
    RunTogetherDashLine();
  }

  lemma RunTogetherDashLine()
    ensures FormatDashLine("- a- b") == ["- a", "- b"]
  {
    var t := "- a- b";
    RunTogetherPieces();
    DashLineMany(t);
    RunTogetherBullets(t, SplitBullets(t), DashBullets(t, SplitBullets(t)));
  }

  lemma RunTogetherBullets(t: String, pieces: seq<String>, out: seq<String>)
    requires pieces == ["- a", "b"] && PiecesWithin(pieces, t) && out == DashBullets(t, pieces)
    ensures out == ["- a", "- b"]
  {
    ShortBullet("- a");
    TrimmedIsFixed("b", JS);
    assert out[0] == "- a" && out[1] == "- b";
  }

  /** A dash, one space and one more character is its own bullet. */
  lemma ShortBullet(l: String)
    requires |l| == 3 && l[0] == '-' && l[1] == ' ' && !IsJsSpace(l[2])
    ensures Bullet(StripLeadDash(l)) == l
  {
    assert SpaceRun(l, 2, JS) == 0;
    assert SpaceRun(l, 1, JS) == 1;
    assert StripLeadDash(l) == l[2..];
    assert l == "- " + l[2..];
  }

  lemma RunTogetherPieces()
    ensures SplitBullets("- a- b") == ["- a", "b"]
  {
    RunTogetherSecondPiece();
    assert !SepAt("- a- b", 0) && !SepAt("- a- b", 1) && !SepAt("- a- b", 2);
  }

  lemma RunTogetherSecondPiece()
    ensures SplitBulletsFrom("- a- b", 0, 3) == ["- a", "b"]
  {
    var t := "- a- b";
    assert SplitBulletsFrom(t, 5, 5) == ["b"];
    assert SpaceRun(t, 4, JS) == 1;
    assert SepAt(t, 3);
    assert t[0..3] == "- a";
    assert SplitBulletsFrom(t, 0, 3) == [t[0..3]] + SplitBulletsFrom(t, 5, 5);
  }

  /** A hyphen inside a word is not a bullet. */
  lemma KeepsHyphenatedWord()
    ensures FormatLine("- well-known") == ["- well-known"]
  {
    var w := "- well-known";
    assert w[0] == '-' && w[|w| - 1] == 'n';
    TrimmedDashLine(w);
    HyphenatedDashLine();
  }

  /** A line already trimmed that starts with a dash goes straight to the
      dash-line handling. */
  lemma TrimmedDashLine(t: String)
    requires t != [] && t[0] == '-' && IsTrimmed(t, JS)
    ensures FormatLine(t) == FormatDashLine(t)
  {
    TrimmedIsFixed(t, JS);
  }

  lemma HyphenatedDashLine()
    ensures FormatDashLine("- well-known") == ["- well-known"]
  {
    var w := "- well-known";
    HyphenIsNoSeparator();
    assert w[2..] == "well-known";
    assert w[2] == 'w' && w[|w| - 1] == 'n';
    SingleDashLine(w);
  }

  /** A dash line the pattern does not split, with one space after its dash
      and a trimmed rest, comes out as it went in. */
  lemma SingleDashLine(l: String)
    requires |l| >= 3 && l[0] == '-' && l[1] == ' ' && !HasSep(l)
    requires !IsJsSpace(l[2]) && !IsJsSpace(l[|l| - 1])
    ensures FormatDashLine(l) == [l]
  {
    assert |SplitBullets(l)| == 1;
    assert SpaceRun(l, 1, JS) == 1 by {
      assert SpaceRun(l, 2, JS) == 0;
    }
    assert StripLeadDash(l) == l[2..];
    assert IsTrimmed(l[2..], JS);
    TrimmedIsFixed(l[2..], JS);
    assert Bullet(l[2..]) == l;
  }

  lemma HyphenIsNoSeparator()
    ensures !HasSep("- well-known")
  {
    var w := "- well-known";
    assert SpaceRun(w, 7, JS) == 0;
    forall j | 0 <= j < |w|
      ensures !SepAt(w, j)
    {
      if j != 6 { assert w[j] != '-' || j == 0; }
    }
  }
}

=== FILE: chat_controller.dfy ===
/** The backend chat controller: validate the request, read the session's
    history, ask the AI service, then append the user turn and the assistant
    turn, in that order. The in-memory store is passed in and returned. */
module ChatController {
  import opened Common
  import opened ChatHistoryStore
  import opened AiService
  import opened Http

  /** The store afterwards and what the handler sent. */
  datatype Outcome = Outcome(store: Store, response: Response)

  const MessageRequired: string := "Message is required"
  const SessionRequired: string := "Session ID is required"
  const Cleared: string := "Chat history cleared successfully"

  /** `!value` for a request field that is a string or absent. */
  predicate Missing(v: Option<string>)
  {
    v.None? || v.value == ""
  }

  /** `sessionId || uuidv4()`: the supplied id, or a fresh one. */
  function SessionFor(sessionId: Option<string>, freshId: SessionId): (id: SessionId)
    ensures !Missing(sessionId) ==> id == sessionId.value
    ensures Missing(sessionId) ==> id == freshId
  {
    if Missing(sessionId) then freshId else sessionId.value
  }

  /** `handleChat`. `freshId` stands for what `uuidv4()` returns, and
      `completion`/`rand` for what the AI service's upstream would produce. */
  function HandleChat(store: Store, message: Option<string>, sessionId: Option<string>,
                      freshId: SessionId, env: Env, completion: Completion, rand: real): (o: Outcome)
    requires 0.0 <= rand < 1.0
    ensures Missing(message) ==> o == Outcome(store, Respond(BadRequest, ErrorBody(MessageRequired)))
    ensures !Missing(message) ==>
      var id := SessionFor(sessionId, freshId);
      var answer := GetAIResponse(env, message.value, GetHistory(store, id), completion, rand);
      match answer.result
      case Failure(e) => o == Outcome(store, Next(e))
      case Success(reply) =>
        && GetHistory(o.store, id) == GetHistory(store, id) + [Turn("user", message.value), Turn("assistant", reply)]
        && (forall other | other != id :: GetHistory(o.store, other) == GetHistory(store, other))
        && o.response == Respond(Ok, ChatBody(reply, id, |GetHistory(store, id)| + 2))
  {
    if Missing(message) then Outcome(store, Respond(BadRequest, ErrorBody(MessageRequired)))
    else
      var id := SessionFor(sessionId, freshId);
      var history := GetHistory(store, id);
      var answer := GetAIResponse(env, message.value, history, completion, rand);
      match answer.result
      case Failure(e) => Outcome(store, Next(e))
      case Success(reply) =>
        var s1 := AddMessage(store, id, "user", message.value);
        var s2 := AddMessage(s1, id, "assistant", reply);
        Outcome(s2, Respond(Ok, ChatBody(reply, id, |GetHistory(s2, id)|)))
  }

  /** `getChatHistory`; reading never changes the store. */
  function GetChatHistory(store: Store, sessionId: Option<string>): (r: Response)
    ensures Missing(sessionId) ==> r == Respond(BadRequest, ErrorBody(SessionRequired))
    ensures !Missing(sessionId) ==> r.Respond? && r.status == Ok && r.body.HistoryBody?
    ensures !Missing(sessionId) ==> r.body.sessionId == sessionId.value
                                    && r.body.history == GetHistory(store, sessionId.value)
                                    && r.body.messageCount == |r.body.history|
  {
    if Missing(sessionId) then Respond(BadRequest, ErrorBody(SessionRequired))
    else
      var history := GetHistory(store, sessionId.value);
      Respond(Ok, HistoryBody(sessionId.value, history, |history|))
  }

  /** `clearChatHistory`. */
  function ClearChatHistory(store: Store, sessionId: Option<string>): (o: Outcome)
    ensures Missing(sessionId) ==> o == Outcome(store, Respond(BadRequest, ErrorBody(SessionRequired)))
    ensures !Missing(sessionId) ==> o.response == Respond(Ok, ClearedBody(Cleared, sessionId.value))
    ensures !Missing(sessionId) ==> GetHistory(o.store, sessionId.value) == []
                                    && forall other | other != sessionId.value :: GetHistory(o.store, other) == GetHistory(store, other)
  {
    if Missing(sessionId) then Outcome(store, Respond(BadRequest, ErrorBody(SessionRequired)))
    else Outcome(ClearHistory(store, sessionId.value), Respond(Ok, ClearedBody(Cleared, sessionId.value)))
  }

  /** The length a successful chat reports is the message count a later read
      of the same session reports. */
  lemma ChatThenRead(store: Store, message: string, sessionId: Option<string>,
                     freshId: SessionId, env: Env, completion: Completion, rand: real)
    requires 0.0 <= rand < 1.0 && message != ""
    requires HandleChat(store, Some(message), sessionId, freshId, env, completion, rand).response.Respond?
    ensures var o := HandleChat(store, Some(message), sessionId, freshId, env, completion, rand);
            var id := SessionFor(sessionId, freshId);
            var read := GetChatHistory(o.store, Some(id)).body;
            id != "" ==> read.messageCount == o.response.body.conversationLength
  {
  }

  /** A failed AI call leaves the store exactly as it was. */
  lemma FailedChatKeepsStore(store: Store, message: string, sessionId: Option<string>,
                             freshId: SessionId, env: Env, completion: Completion, rand: real)
    requires 0.0 <= rand < 1.0
    requires EnvSet(env, "OPENAI_API_KEY") && completion.CompletionFailed?
    ensures HandleChat(store, Some(message), sessionId, freshId, env, completion, rand).store == store
  {
  }

  /** Chatting and then clearing the session forgets the whole conversation. */
  lemma ChatThenClear(store: Store, message: string, sessionId: Option<string>,
                      freshId: SessionId, env: Env, completion: Completion, rand: real)
    requires 0.0 <= rand < 1.0
    requires SessionFor(sessionId, freshId) != ""
    ensures var id := SessionFor(sessionId, freshId);
            var o := HandleChat(store, Some(message), sessionId, freshId, env, completion, rand);
            ClearChatHistory(o.store, Some(id)).store == ClearHistory(store, id)
  {
    var id := SessionFor(sessionId, freshId);
    var o := HandleChat(store, Some(message), sessionId, freshId, env, completion, rand);
    if message != "" {
      var answer := GetAIResponse(env, message, GetHistory(store, id), completion, rand);
      if answer.result.Success? {
        var s1 := AddMessage(store, id, "user", message);
        AddThenClear(s1, id, "assistant", answer.result.value);
        AddThenClear(store, id, "user", message);
      }
    }
  }
}

=== FILE: chat_history_store.dfy ===
/** The backend's in-memory conversation store (`ChatHistoryService`): one
    append-only list of turns per session id. The service object's `Map` becomes
    an immutable `map`, and each mutating method returns the new store. */
module ChatHistoryStore {

  /** One stored `{ role, content }` entry. Roles and contents are whatever the
      caller passed: the service validates neither. */
  datatype Turn = Turn(role: string, content: string)

  type SessionId = string

  type Store = map<SessionId, seq<Turn>>

  /** The empty store the module creates at load time. */
  function EmptyStore(): (s: Store)
    ensures forall id :: GetHistory(s, id) == []
  {
    map[]
  }

  /** `getHistory(id)`: the session's turns, or an empty list for an unknown id. */
  function GetHistory(store: Store, id: SessionId): (h: seq<Turn>)
    ensures id !in store ==> h == []
    ensures id in store ==> h == store[id]
  {
    if id in store then store[id] else []
  }

  /** `addMessage(id, role, content)`: appends one turn, creating the session on
      first use. */
  function AddMessage(store: Store, id: SessionId, role: string, content: string): (s: Store)
    ensures GetHistory(s, id) == GetHistory(store, id) + [Turn(role, content)]
    ensures forall other | other != id :: GetHistory(s, other) == GetHistory(store, other)
    ensures s.Keys == store.Keys + {id}
  {
    store[id := GetHistory(store, id) + [Turn(role, content)]]
  }

  /** `clearHistory(id)`: forgets the session; unknown ids are a no-op. */
  function ClearHistory(store: Store, id: SessionId): (s: Store)
    ensures GetHistory(s, id) == []
    ensures id !in s
    ensures forall other | other != id :: GetHistory(s, other) == GetHistory(store, other)
    ensures id !in store ==> s == store
  {
    store - {id}
  }

  /** Reading never creates a session: only `AddMessage` adds keys. */
  lemma GetDoesNotCreate(store: Store, id: SessionId)
    requires id !in store
    ensures GetHistory(store, id) == [] && ClearHistory(store, id) == store
  {
  }

  /** Appending then clearing leaves no trace of the session. */
  lemma {:induction false} AddThenClear(store: Store, id: SessionId, role: string, content: string)
    ensures ClearHistory(AddMessage(store, id, role, content), id) == ClearHistory(store, id)
  {
    var s := AddMessage(store, id, role, content);
    assert ClearHistory(s, id).Keys == ClearHistory(store, id).Keys;
  }
}

=== FILE: common.dfy ===
/** Failure-carrying wrappers, the subsequence relation and the interleaving
    of pieces with separators, shared by every module of the model. */
module Common {

  /** A value that may be absent: JavaScript's `undefined`, Python's missing result. */
  datatype Option<+T> = None | Some(value: T)
  {
    function GetOr(default: T): T
    {
      match this
      case Some(v) => v
      case None => default
    }
  }

  /** Either a value or the error a thrown exception carried. */
  datatype Result<+T, +E> = Success(value: T) | Failure(error: E)

  /** The process environment as the Node runtime exposes it. */
  type Env = map<string, string>

  /** `process.env[name]` is truthy: present and not the empty string. */
  predicate EnvSet(env: Env, name: string)
  {
    name in env && env[name] != ""
  }

  /** `a` occurs in `b` in order, possibly with gaps. */
  predicate SubseqOf<T(==)>(a: seq<T>, b: seq<T>)
    decreases |b|
  {
    if |a| == 0 then true
    else if |b| == 0 then false
    else if a[0] == b[0] then SubseqOf(a[1..], b[1..])
    else SubseqOf(a, b[1..])
  }

  lemma {:induction false} SubseqOfSkip<T>(a: seq<T>, x: T, b: seq<T>)
    requires SubseqOf(a, b)
    ensures SubseqOf(a, [x] + b)
    decreases |b|, 1
  {
    var xb := [x] + b;
    assert xb[1..] == b;
    if |a| > 0 && a[0] == x {
      SubseqOfTail(a, b);
    }
  }

  /** Dropping the head of a subsequence keeps it a subsequence. */
  lemma {:induction false} SubseqOfTail<T>(a: seq<T>, b: seq<T>)
    requires |a| > 0 && SubseqOf(a, b)
    ensures SubseqOf(a[1..], b)
    decreases |b|, 0
  {
    if a[0] == b[0] {
      SubseqOfSkip(a[1..], b[0], b[1..]);
      assert [b[0]] + b[1..] == b;
    } else {
      SubseqOfTail(a, b[1..]);
      SubseqOfSkip(a[1..], b[0], b[1..]);
      assert [b[0]] + b[1..] == b;
    }
  }

  lemma {:induction false} SubseqOfRefl<T>(a: seq<T>)
    ensures SubseqOf(a, a)
    decreases |a|
  {
    if |a| > 0 {
      SubseqOfRefl(a[1..]);
    }
  }

  /** Anything in front of the larger sequence can be skipped. */
  lemma {:induction false} SubseqOfSkipAll<T>(a: seq<T>, p: seq<T>, b: seq<T>)
    requires SubseqOf(a, b)
    ensures SubseqOf(a, p + b)
    decreases |p|
  {
    if |p| > 0 {
      SubseqOfSkipAll(a, p[1..], b);
      SubseqOfSkip(a, p[0], p[1..] + b);
      assert [p[0]] + (p[1..] + b) == p + b;
    } else {
      assert p + b == b;
    }
  }

  /** The pieces with the separators between them put back:
      `ps[0] + seps[0] + ps[1] + ... + ps[n]`. */
  function Weave<T>(ps: seq<seq<T>>, seps: seq<seq<T>>): seq<T>
    requires |ps| == |seps| + 1
    decreases |seps|
  {
    if |seps| == 0 then ps[0] else ps[0] + seps[0] + Weave(ps[1..], seps[1..])
  }

  /** A character in front of the first separator, behind an empty piece. */
  lemma WeaveLongerSep<T>(c: T, ps: seq<seq<T>>, seps: seq<seq<T>>)
    requires |ps| == |seps| + 1 && |seps| > 0 && ps[0] == []
    ensures Weave(ps, [[c] + seps[0]] + seps[1..]) == [c] + Weave(ps, seps)
  {
    var qs := [[c] + seps[0]] + seps[1..];
    assert qs[1..] == seps[1..];
    var w := Weave(ps[1..], seps[1..]);
    assert Weave(ps, qs) == ps[0] + qs[0] + w;
    assert Weave(ps, seps) == ps[0] + seps[0] + w;
    assert ps[0] + qs[0] + w == [c] + (ps[0] + seps[0] + w) by {
      assert ps[0] + qs[0] == [c] + seps[0];
    }
  }

  /** A separator in front, behind a new empty piece. */
  lemma WeaveNewPiece<T>(sep: seq<T>, ps: seq<seq<T>>, seps: seq<seq<T>>)
    requires |ps| == |seps| + 1
    ensures Weave([[]] + ps, [sep] + seps) == sep + Weave(ps, seps)
  {
    assert ([[]] + ps)[1..] == ps && ([sep] + seps)[1..] == seps;
    assert ([] + sep) == sep;
  }

  /** A character in front of the first piece. */
  lemma WeaveLongerPiece<T>(c: T, ps: seq<seq<T>>, seps: seq<seq<T>>)
    requires |ps| == |seps| + 1
    ensures Weave([[c] + ps[0]] + ps[1..], seps) == [c] + Weave(ps, seps)
  {
    var qs := [[c] + ps[0]] + ps[1..];
    assert qs[1..] == ps[1..];
    if |seps| > 0 {
      var w := Weave(ps[1..], seps[1..]);
      assert qs[0] + seps[0] + w == [c] + (ps[0] + seps[0] + w);
    }
  }

  /** A non-empty sequence is its head in front of its tail. */
  lemma ConsTail<T>(xs: seq<T>)
    requires |xs| > 0
    ensures [xs[0]] + xs[1..] == xs
  {
  }

  /** Slicing a concatenation at the seam gives back both halves. */
  lemma ConcatSlices<T>(a: seq<T>, b: seq<T>)
    ensures (a + b)[..|a|] == a && (a + b)[|a|..] == b
  {
  }

  /** Cutting a sequence anywhere and gluing the halves changes nothing. */
  lemma SliceJoin<T>(s: seq<T>, n: nat)
    requires n <= |s|
    ensures s[..n] + s[n..] == s
  {
  }

  /** The head and tail of a concatenation with a non-empty front. */
  lemma ConcatTail<T>(a: seq<T>, b: seq<T>)
    requires |a| > 0
    ensures (a + b)[0] == a[0] && (a + b)[1..] == a[1..] + b
  {
  }

  /** A common head keeps a subsequence a subsequence. */
  lemma SubseqOfCons<T>(x: T, a: seq<T>, b: seq<T>)
    requires SubseqOf(a, b)
    ensures SubseqOf([x] + a, [x] + b)
  {
    assert ([x] + a)[1..] == a && ([x] + b)[1..] == b;
  }

  /** Moving the head of the front part out of a concatenation. */
  lemma ConsConcat<T>(a: seq<T>, b: seq<T>)
    requires |a| > 0
    ensures a + b == [a[0]] + (a[1..] + b)
  {
  }

  /** Weaving a first piece and a first separator in front. */
  lemma WeaveCons<T>(x: seq<T>, y: seq<T>, ps: seq<seq<T>>, seps: seq<seq<T>>)
    requires |ps| == |seps| + 1
    ensures Weave([x] + ps, [y] + seps) == x + y + Weave(ps, seps)
  {
    assert ([x] + ps)[1..] == ps && ([y] + seps)[1..] == seps;
  }

  lemma ConcatAssoc<T>(a: seq<T>, b: seq<T>, c: seq<T>)
    ensures a + (b + c) == (a + b) + c
  {
  }

  lemma SliceThree<T>(s: seq<T>, p: nat, q: nat, e: nat)
    requires p <= q <= e <= |s|
    ensures s[p..q] + s[q..e] + s[e..] == s[p..]
  {
    assert s[p..] == s[p..q] + s[q..];
    assert s[q..] == s[q..e] + s[e..];
  }
}

=== FILE: gemini_controller.dfy ===
/** `chatWithGemini`, the backend's direct Gemini endpoint: validate the
    message, then the key, flatten the history into one prompt and send it. */
module GeminiController {
  import opened Common
  import opened Text
  import opened ChatHistoryStore
  import opened Http
  import opened ChatController
  import opened GeminiGateway

  /** What `model.generateContent(prompt)` produced: the text of the response
      when `result?.response?.text?.()` yields one, or the thrown error's
      `message` (absent or empty when there was none). */
  datatype Generation = Generated(text: Option<string>) | GenFailed(message: Option<string>)

  /** The response and the prompt sent, if the model was called. */
  datatype Sent = Sent(response: Response, prompt: Option<string>)

  const MissingKey: string := "Missing API key. Set GEMINI_API_KEY or GOOGLE_API_KEY in .env"
  const ErrorPrefix: string := "Gemini API Error: "

  /** One history line, `${m.role}: ${m.content}`. */
  function Line(t: Turn): string
  {
    t.role + ": " + t.content
  }

  function Lines(h: seq<Turn>): (ls: seq<string>)
    ensures |ls| == |h|
    ensures forall k | 0 <= k < |h| :: ls[k] == Line(h[k])
  {
    if |h| == 0 then [] else [Line(h[0])] + Lines(h[1..])
  }

  /** The prompt: the history lines joined by newlines, then `\nUser: ` and the
      message. A non-array history counts as empty. */
  function GeminiPrompt(history: Option<seq<Turn>>, message: string): (p: string)
  {
    var safe := if history.Some? then history.value else [];
    Join(Lines(safe), "\n") + "\nUser: " + message
  }

  /** The 500 body of the `catch`: the error's message, or "Unknown error". */
  function ErrorText(message: Option<string>): (e: string)
    ensures |e| > |ErrorPrefix| && e[..|ErrorPrefix|] == ErrorPrefix
    ensures message.Some? && message.value != "" ==> e[|ErrorPrefix|..] == message.value
    ensures message.None? || message.value == "" ==> e[|ErrorPrefix|..] == "Unknown error"
  {
    ErrorPrefix + (if message.Some? && message.value != "" then message.value else "Unknown error")
  }

  /** `chatWithGemini`. The module-level key is `GeminiKey(env)` read once at
      load time; `gen` is what the model call would produce. */
  function ChatWithGemini(env: Env, message: Option<string>, history: Option<seq<Turn>>, gen: Generation): (s: Sent)
    ensures Missing(message) ==> s == Sent(Respond(BadRequest, ErrorBody(MessageRequired)), None)
    ensures !Missing(message) && GeminiKey(env).None? ==> s == Sent(Respond(ServerError, ErrorBody(MissingKey)), None)
    ensures s.prompt.Some? <==> !Missing(message) && GeminiKey(env).Some?
    ensures s.prompt.Some? ==> s.prompt.value == GeminiPrompt(history, message.value)
    ensures s.prompt.Some? && gen.Generated? ==>
              s.response == Respond(Ok, ReplyBody(if gen.text.Some? then gen.text.value else ""))
    ensures s.prompt.Some? && gen.GenFailed? ==> s.response == Respond(ServerError, ErrorBody(ErrorText(gen.message)))
  {
    if Missing(message) then Sent(Respond(BadRequest, ErrorBody(MessageRequired)), None)
    else if GeminiKey(env).None? then Sent(Respond(ServerError, ErrorBody(MissingKey)), None)
    else
      var prompt := GeminiPrompt(history, message.value);
      match gen
      case Generated(text) => Sent(Respond(Ok, ReplyBody(if text.Some? then text.value else "")), Some(prompt))
      case GenFailed(e) => Sent(Respond(ServerError, ErrorBody(ErrorText(e))), Some(prompt))
  }

  /** The message check comes first: a missing message is a 400 even when the
      key is missing too. A corollary of `ChatWithGemini`'s first ensures with
      an empty environment, kept to name the order of the two checks. */
  lemma MessageCheckedFirst(message: Option<string>, history: Option<seq<Turn>>, gen: Generation)
    requires Missing(message)
    ensures ChatWithGemini(map[], message, history, gen).response.status == BadRequest
  {
  }

  /** With no usable history the prompt is exactly `\nUser: ` and the message,
      and a non-array history behaves like an empty one. */
  lemma PromptWithoutHistory(message: string)
    ensures GeminiPrompt(None, message) == "\nUser: " + message
    ensures GeminiPrompt(Some([]), message) == GeminiPrompt(None, message)
  {
  }

  /** The prompt ends with the message line, after the history's own lines. */
  lemma {:induction false} PromptEndsWithMessage(history: seq<Turn>, message: string)
    ensures var p := GeminiPrompt(Some(history), message);
            var tail := "\nUser: " + message;
            |p| >= |tail| && p[|p| - |tail|..] == tail
            && p[..|p| - |tail|] == Join(Lines(history), "\n")
  {
    var ctx := Join(Lines(history), "\n");
    assert GeminiPrompt(Some(history), message) == ctx + ("\nUser: " + message);
  }
}

=== FILE: gemini_gateway.dfy ===
/** `getAIResponse` from the frontend AI service: answers one message either
    from the RAG server or from a lazily built Gemini chat model, and falls back
    to echoing the message whenever anything goes wrong, so it never rejects.
    Every upstream effect is an outcome value handed in, and the function
    reports the calls it made, so "nothing was called" can be stated. The
    module-level `model` variable is the `Gateway` threaded from call to call. */
module GeminiGateway {
  import opened Common
  import opened Text
  import opened JsValue
  import opened ChatHistoryStore
  import opened HistoryNormalizer
  import opened BulletFormatter

  /** What the POST to the RAG server produced. A refused connection and any
      other error only differ in what is logged. */
  datatype RagOutcome = RagReplied(data: Json) | RagRefused | RagFailed

  /** Whether importing the Gemini SDK and building the model succeeded. */
  datatype SdkOutcome = SdkLoaded | SdkFailed

  /** What the chat exchange produced: `startChat` throwing, `sendMessage` or
      `response.text()` throwing, or the answer's text. */
  datatype ChatOutcome = Answered(text: string) | StartFailed | SendFailed

  /** The outcomes the outside world would deliver to this one call. */
  datatype Upstream = Upstream(rag: RagOutcome, sdk: SdkOutcome, chat: ChatOutcome)

  /** An upstream call, in the order the service makes them. */
  datatype Call =
    | PostRag(question: string)
    | LoadSdk(apiKey: string)
    | StartChat(history: seq<Entry>)
    | SendMessage(prompt: string)

  /** The module's cached model: the API key it was built with, once built. */
  datatype Gateway = Gateway(model: Option<string>)

  /** The resolved reply, the cache afterwards and the upstream calls made. */
  datatype Reply = Reply(value: Json, gateway: Gateway, calls: seq<Call>)

  const PromptHead: string :=
    "Please provide a clear and concise response to the following query. \n"
    + "    Format your response using bullet points (start each point with '- '). \n"
    + "    Keep each point brief and focused on a single idea. \n"
    + "    Ensure there is a blank line between each bullet point for better readability.\n"
    + "    \n"
    + "    Query: "

  /** The instruction wrapped around the user's message. */
  function Prompt(message: string): (p: string)
    ensures |p| == |PromptHead| + |message|
    ensures p[..|PromptHead|] == PromptHead && p[|PromptHead|..] == message
  {
    PromptHead + message
  }

  /** The fallback every failure path returns. */
  function Echo(message: string): (v: Json)
    ensures v.JStr? && EveryLineBulleted(v.s) && NoMarks(v.s)
  {
    JStr(FormatBulletPoints("You said: " + message))
  }

  /** `process.env.GEMINI_API_KEY || process.env.GOOGLE_API_KEY`, when truthy. */
  function GeminiKey(env: Env): (k: Option<string>)
    ensures k.Some? <==> EnvSet(env, "GEMINI_API_KEY") || EnvSet(env, "GOOGLE_API_KEY")
    ensures EnvSet(env, "GEMINI_API_KEY") ==> k == Some(env["GEMINI_API_KEY"])
    ensures !EnvSet(env, "GEMINI_API_KEY") && EnvSet(env, "GOOGLE_API_KEY") ==> k == Some(env["GOOGLE_API_KEY"])
  {
    if EnvSet(env, "GEMINI_API_KEY") then Some(env["GEMINI_API_KEY"])
    else if EnvSet(env, "GOOGLE_API_KEY") then Some(env["GOOGLE_API_KEY"])
    else None
  }

  /** `data?.response || data?.answer || data`. */
  function RagAnswer(data: Json): (a: Json)
    ensures TruthyOpt(Prop(data, "response")) ==> a == data.fields["response"]
    ensures !TruthyOpt(Prop(data, "response")) && TruthyOpt(Prop(data, "answer")) ==> a == data.fields["answer"]
    ensures !TruthyOpt(Prop(data, "response")) && !TruthyOpt(Prop(data, "answer")) ==> a == data
  {
    Or(Some(Or(Prop(data, "response"), Or(Prop(data, "answer"), JNull))), data)
  }

  /** `formatBulletPoints(answer)` on whatever the RAG server answered: a falsy
      answer comes back as it is, a string is formatted, and any other value
      makes `.replace` throw, which the RAG `catch` turns into the echo. */
  function FormatRagAnswer(answer: Json, message: string): (v: Json)
    ensures !Truthy(answer) ==> v == answer
    ensures answer.JStr? && answer.s != "" ==> v == JStr(FormatBulletPoints(answer.s))
    ensures Truthy(answer) && !answer.JStr? ==> v == Echo(message)
  {
    if !Truthy(answer) then answer
    else if answer.JStr? then JStr(FormatBulletPoints(answer.s))
    else Echo(message)
  }

  /** The RAG branch: one POST, whose failure of either kind gives the echo. */
  function AskRag(g: Gateway, message: string, rag: RagOutcome): (r: Reply)
    ensures r.calls == [PostRag(message)] && r.gateway == g
    ensures !rag.RagReplied? ==> r.value == Echo(message)
    ensures rag.RagReplied? ==> r.value == FormatRagAnswer(RagAnswer(rag.data), message)
  {
    match rag
    case RagReplied(data) => Reply(FormatRagAnswer(RagAnswer(data), message), g, [PostRag(message)])
    case _ => Reply(Echo(message), g, [PostRag(message)])
  }

  /** The Gemini branch once a key is known: build the model if none is cached,
      then seed a chat with the normalized history and send the wrapped message. */
  function AskGemini(g: Gateway, key: string, message: string, history: seq<Turn>, up: Upstream): (r: Reply)
    ensures forall c | c in r.calls :: !c.PostRag?
    ensures g.model.Some? ==> r.gateway == g && r.calls == ChatCalls(message, history, up.chat)
    ensures g.model.None? && up.sdk.SdkFailed? ==> r == Reply(Echo(message), g, [LoadSdk(key)])
    ensures g.model.None? && up.sdk.SdkLoaded? ==>
              r.gateway == Gateway(Some(key)) && r.calls == [LoadSdk(key)] + ChatCalls(message, history, up.chat)
    ensures r.value.JStr? && EveryLineBulleted(r.value.s) && NoMarks(r.value.s)
    ensures !up.chat.Answered? ==> r.value == Echo(message)
    ensures g.model.Some? || up.sdk.SdkLoaded? ==> r.value == ChatAnswer(message, up.chat)
  {
    if g.model.Some? then
      Reply(ChatAnswer(message, up.chat), g, ChatCalls(message, history, up.chat))
    else if up.sdk.SdkFailed? then
      Reply(Echo(message), g, [LoadSdk(key)])
    else
      Reply(ChatAnswer(message, up.chat), Gateway(Some(key)), [LoadSdk(key)] + ChatCalls(message, history, up.chat))
  }

  /** `model.startChat({ history: cleanHistory(history) }).sendMessage(prompt)`:
      a chat is always started with the cleaned history; the wrapped message
      is sent only when starting did not throw. */
  function ChatCalls(message: string, history: seq<Turn>, chat: ChatOutcome): (cs: seq<Call>)
    ensures forall c | c in cs :: (c.StartChat? && c.history == CleanHistory(history))
                                || (c.SendMessage? && c.prompt == Prompt(message))
    ensures 1 <= |cs| <= 2 && cs[0] == StartChat(CleanHistory(history))
    ensures |cs| == 1 <==> chat.StartFailed?
    ensures |cs| == 2 ==> cs[1] == SendMessage(Prompt(message))
  {
    if chat.StartFailed? then [StartChat(CleanHistory(history))]
    else [StartChat(CleanHistory(history)), SendMessage(Prompt(message))]
  }

  /** The exchange's value: the formatted answer, or the echo when starting,
      sending or reading the answer fails. */
  function ChatAnswer(message: string, chat: ChatOutcome): (v: Json)
    ensures v.JStr? && EveryLineBulleted(v.s) && NoMarks(v.s)
    ensures !chat.Answered? ==> v == Echo(message)
    ensures chat.Answered? ==> v == JStr(FormatBulletPoints(chat.text))
  {
    match chat
    case Answered(text) => JStr(FormatBulletPoints(text))
    case _ => Echo(message)
  }

  function GetAIResponse(g: Gateway, env: Env, message: string, history: seq<Turn>,
                         useRag: bool, up: Upstream): (r: Reply)
    ensures useRag ==> r == AskRag(g, message, up.rag)
    ensures !useRag && GeminiKey(env).None? ==> r == Reply(Echo(message), g, [])
    ensures !useRag && GeminiKey(env).Some? ==> r == AskGemini(g, GeminiKey(env).value, message, history, up)
    ensures !useRag ==> forall c | c in r.calls :: !c.PostRag?
    ensures g.model.Some? ==> r.gateway == g && forall c | c in r.calls :: !c.LoadSdk?
    ensures g.model.None? && r.gateway.model.Some? ==> !useRag && up.sdk.SdkLoaded? && r.gateway.model == GeminiKey(env)
  {
    if useRag then AskRag(g, message, up.rag)
    else
      var key := GeminiKey(env);
      if key.None? then Reply(Echo(message), g, [])
      else AskGemini(g, key.value, message, history, up)
  }

  /** One call of the service as a later caller sees it. */
  datatype Request = Request(env: Env, message: string, history: seq<Turn>, useRag: bool, up: Upstream)

  /** A series of calls against the shared module state: the final cache and
      every upstream call, in order. */
  function Serve(g: Gateway, reqs: seq<Request>): (r: (Gateway, seq<Call>))
    decreases |reqs|
  {
    if |reqs| == 0 then (g, [])
    else
      var q := reqs[0];
      var first := GetAIResponse(g, q.env, q.message, q.history, q.useRag, q.up);
      var rest := Serve(first.gateway, reqs[1..]);
      (rest.0, first.calls + rest.1)
  }

  /** Once built, the model is never built again and never replaced. */
  lemma {:induction false} ModelBuiltOnce(g: Gateway, reqs: seq<Request>)
    requires g.model.Some?
    ensures Serve(g, reqs).0 == g
    ensures forall c | c in Serve(g, reqs).1 :: !c.LoadSdk?
    decreases |reqs|
  {
    if |reqs| > 0 {
      ModelBuiltOnce(g, reqs[1..]);
    }
  }

  /** Whatever the calls, a cache that starts empty gains at most one model, and
      only an SDK load can put it there. */
  lemma {:induction false} ModelComesFromALoad(g: Gateway, reqs: seq<Request>)
    requires g.model.None?
    ensures Serve(g, reqs).0.model.Some? ==> exists c | c in Serve(g, reqs).1 :: c.LoadSdk?
    decreases |reqs|
  {
    if |reqs| > 0 {
      var q := reqs[0];
      var first := GetAIResponse(g, q.env, q.message, q.history, q.useRag, q.up);
      if first.gateway.model.Some? {
        ModelBuiltOnce(first.gateway, reqs[1..]);
        assert first.calls[0] in Serve(g, reqs).1;
      } else {
        ModelComesFromALoad(first.gateway, reqs[1..]);
        var rest := Serve(first.gateway, reqs[1..]);
        if rest.0.model.Some? {
          var c :| c in rest.1 && c.LoadSdk?;
          assert c in first.calls + rest.1;
        }
      }
    }
  }
}

=== FILE: history_normalizer.dfy ===
/** `cleanHistory` from the frontend AI service: turns a stored conversation into
    the history shape the Gemini chat API accepts, which must start with a user
    turn and strictly alternate `user` / `model`. */
module HistoryNormalizer {
  import opened Text
  import opened ChatHistoryStore

  datatype Speaker = User | Model

  /** `{ role, parts: [{ text }] }`; every entry the normalizer builds has one part. */
  datatype Entry = Entry(role: Speaker, parts: seq<string>)

  /** `msg.role === "user" ? "user" : "model"`. */
  function SpeakerOf(role: string): Speaker
  {
    if role == "user" then User else Model
  }

  /** `history.findIndex(msg => msg.role === 'user')`: -1 when there is none. */
  function FirstUser(h: seq<Turn>): (i: int)
    ensures -1 <= i < |h|
    ensures i == -1 <==> forall k | 0 <= k < |h| :: h[k].role != "user"
    ensures i >= 0 ==> h[i].role == "user" && forall k | 0 <= k < i :: h[k].role != "user"
  {
    if |h| == 0 then -1
    else if h[0].role == "user" then 0
    else
      var j := FirstUser(h[1..]);
      if j == -1 then -1 else j + 1
  }

  predicate OnePart(es: seq<Entry>)
  {
    forall k | 0 <= k < |es| :: |es[k].parts| == 1
  }

  /** No two neighbouring entries share a role. */
  predicate Alternates(es: seq<Entry>)
  {
    forall k | 0 <= k < |es| - 1 :: es[k].role != es[k + 1].role
  }

  function TextsOf(es: seq<Entry>): (ts: seq<string>)
    requires OnePart(es)
    ensures |ts| == |es|
    ensures forall k | 0 <= k < |es| :: ts[k] == es[k].parts[0]
  {
    seq(|es|, k requires 0 <= k < |es| => es[k].parts[0])
  }

  function ContentsOf(h: seq<Turn>): (cs: seq<string>)
    ensures |cs| == |h|
    ensures forall k | 0 <= k < |h| :: cs[k] == h[k].content
  {
    if |h| == 0 then [] else [h[0].content] + ContentsOf(h[1..])
  }

  /** One iteration of the `cleanHistory` loop: a turn whose speaker equals the
      last emitted one (`lastRole`) is appended to that entry's text after a
      newline; otherwise it starts a new entry. */
  function Absorb(acc: seq<Entry>, t: Turn): (r: seq<Entry>)
    requires OnePart(acc) && Alternates(acc)
    ensures OnePart(r) && Alternates(r)
    ensures |r| == |acc| || |r| == |acc| + 1
    ensures |r| >= 1 && r[|r| - 1].role == SpeakerOf(t.role)
    ensures |acc| > 0 ==> r[0].role == acc[0].role
    ensures Join(TextsOf(r), "\n") == Join(TextsOf(acc) + [t.content], "\n")
  {
    var role := SpeakerOf(t.role);
    if |acc| > 0 && acc[|acc| - 1].role == role then
      var last := acc[|acc| - 1];
      var merged := acc[..|acc| - 1] + [Entry(role, [last.parts[0] + "\n" + t.content])];
      ReplaceLast(acc, Entry(role, [last.parts[0] + "\n" + t.content]), merged);
      MergedTexts(acc, t.content, merged);
      merged
    else
      var grown := acc + [Entry(role, [t.content])];
      AppendEntry(acc, Entry(role, [t.content]), grown);
      grown
  }

  /** Replacing the last entry by one of the same role and one part keeps the shape. */
  lemma ReplaceLast(acc: seq<Entry>, e: Entry, r: seq<Entry>)
    requires |acc| > 0 && OnePart(acc) && Alternates(acc)
    requires |e.parts| == 1 && e.role == acc[|acc| - 1].role && r == acc[..|acc| - 1] + [e]
    ensures OnePart(r) && Alternates(r) && |r| == |acc|
    ensures r[|r| - 1] == e && r[0].role == acc[0].role
  {
  }

  /** Appending an entry of the other role and one part keeps the shape. */
  lemma AppendEntry(acc: seq<Entry>, e: Entry, r: seq<Entry>)
    requires OnePart(acc) && Alternates(acc) && |e.parts| == 1
    requires |acc| > 0 ==> e.role != acc[|acc| - 1].role
    requires r == acc + [e]
    ensures OnePart(r) && Alternates(r) && |r| == |acc| + 1 && r[|r| - 1] == e
    ensures |acc| > 0 ==> r[0].role == acc[0].role
    ensures TextsOf(r) == TextsOf(acc) + [e.parts[0]]
  {
  }

  /** Appending to the last entry's text joins to the same newline-separated text. */
  lemma MergedTexts(acc: seq<Entry>, content: string, merged: seq<Entry>)
    requires |acc| > 0 && OnePart(acc)
    requires merged == acc[..|acc| - 1] + [Entry(acc[|acc| - 1].role, [acc[|acc| - 1].parts[0] + "\n" + content])]
    ensures Join(TextsOf(merged), "\n") == Join(TextsOf(acc) + [content], "\n")
  {
    var last := acc[|acc| - 1];
    var front := TextsOf(acc)[..|acc| - 1];
    assert TextsOf(merged) == front + [last.parts[0] + "\n" + content];
    assert TextsOf(acc) + [content] == front + [last.parts[0], content];
    assert Join([last.parts[0], content], "\n") == last.parts[0] + "\n" + content;
    if |front| > 0 {
      JoinConcat(front, [last.parts[0] + "\n" + content], "\n");
      JoinConcat(front, [last.parts[0], content], "\n");
    }
  }

  /** The loop of `cleanHistory` from some point on: `acc` is `cleaned` so far. */
  function MergeFrom(acc: seq<Entry>, rest: seq<Turn>): (r: seq<Entry>)
    requires OnePart(acc) && Alternates(acc)
    ensures OnePart(r) && Alternates(r)
    ensures |acc| <= |r| <= |acc| + |rest|
    ensures |r| == 0 <==> |acc| == 0 && |rest| == 0
    ensures |acc| > 0 ==> r[0].role == acc[0].role
    ensures |acc| == 0 && |rest| > 0 ==> r[0].role == SpeakerOf(rest[0].role)
    ensures Join(TextsOf(r), "\n") == Join(TextsOf(acc) + ContentsOf(rest), "\n")
    decreases |rest|
  {
    if |rest| == 0 then
      assert TextsOf(acc) + ContentsOf(rest) == TextsOf(acc);
      acc
    else
      var next := Absorb(acc, rest[0]);
      var r := MergeFrom(next, rest[1..]);
      assert Join(TextsOf(r), "\n") == Join(TextsOf(acc) + ContentsOf(rest), "\n") by {
        MergeStepJoin(TextsOf(next), TextsOf(acc), rest[0].content, ContentsOf(rest[1..]));
      }
      r
  }

  /** The list after one loop step joins like the list before it, whatever follows. */
  lemma {:induction false} MergeStepJoin(xs: seq<string>, ys: seq<string>, c: string, cs: seq<string>)
    requires |xs| > 0 && Join(xs, "\n") == Join(ys + [c], "\n")
    ensures Join(xs + cs, "\n") == Join(ys + ([c] + cs), "\n")
  {
    var front := ys + [c];
    JoinSplice(xs, front, cs, "\n");
    assert front + cs == ys + ([c] + cs);
  }

  /** A joined prefix can be swapped for any list with the same join. */
  lemma {:induction false} JoinSplice(xs: seq<string>, ys: seq<string>, zs: seq<string>, sep: string)
    requires |xs| > 0 && |ys| > 0 && Join(xs, sep) == Join(ys, sep)
    ensures Join(xs + zs, sep) == Join(ys + zs, sep)
  {
    if |zs| > 0 {
      JoinConcat(xs, zs, sep);
      JoinConcat(ys, zs, sep);
    } else {
      assert xs + zs == xs && ys + zs == ys;
    }
  }

  lemma {:induction false} JoinConcat(xs: seq<string>, zs: seq<string>, sep: string)
    requires |xs| > 0 && |zs| > 0
    ensures Join(xs + zs, sep) == Join(xs, sep) + sep + Join(zs, sep)
    decreases |xs|
  {
    if |xs| == 1 {
      assert (xs + zs)[1..] == zs;
    } else {
      JoinConcat(xs[1..], zs, sep);
      assert (xs + zs)[1..] == xs[1..] + zs;
    }
  }

  /** `cleanHistory(history)`. */
  function CleanHistory(history: seq<Turn>): (r: seq<Entry>)
    ensures r == [] <==> forall k | 0 <= k < |history| :: history[k].role != "user"
    ensures r != [] ==> r[0].role == User
    ensures OnePart(r) && Alternates(r)
    ensures r != [] ==> |r| <= |history| - FirstUser(history)
    ensures r != [] ==> Join(TextsOf(r), "\n") == Join(ContentsOf(history[FirstUser(history)..]), "\n")
  {
    if |history| == 0 then []
    else
      var start := FirstUser(history);
      if start == -1 then []
      else
        assert TextsOf([]) + ContentsOf(history[start..]) == ContentsOf(history[start..]);
        MergeFrom([], history[start..])
  }

  /** Independent reference: group maximal runs of equal speakers from the right,
      joining each run's contents with newlines. */
  function Runs(ts: seq<Turn>): (r: seq<Entry>)
    ensures OnePart(r)
    decreases |ts|
  {
    if |ts| == 0 then [] else Prepend(ts[0], Runs(ts[1..]))
  }

  function Prepend(t: Turn, rs: seq<Entry>): (r: seq<Entry>)
    requires OnePart(rs)
    ensures OnePart(r)
  {
    var role := SpeakerOf(t.role);
    if |rs| > 0 && rs[0].role == role then
      [Entry(role, [t.content + "\n" + rs[0].parts[0]])] + rs[1..]
    else
      [Entry(role, [t.content])] + rs
  }

  /** Gluing an accumulated prefix to a run list, merging at the seam. */
  function Attach(acc: seq<Entry>, rs: seq<Entry>): seq<Entry>
    requires OnePart(acc) && OnePart(rs)
  {
    if |acc| == 0 then rs
    else if |rs| == 0 then acc
    else if acc[|acc| - 1].role == rs[0].role then
      acc[..|acc| - 1] + [Entry(rs[0].role, [acc[|acc| - 1].parts[0] + "\n" + rs[0].parts[0]])] + rs[1..]
    else acc + rs
  }

  /** One loop step on the left is one grouping step on the right. */
  lemma AbsorbIsPrepend(acc: seq<Entry>, t: Turn, rs: seq<Entry>)
    requires OnePart(acc) && Alternates(acc) && OnePart(rs)
    ensures Attach(Absorb(acc, t), rs) == Attach(acc, Prepend(t, rs))
  {
    var role := SpeakerOf(t.role);
    if |acc| > 0 && acc[|acc| - 1].role == role {
      var front := acc[..|acc| - 1];
      var last := acc[|acc| - 1].parts[0];
      assert acc[|acc| - 1].parts == [last];
      assert acc == front + [Entry(role, [last])];
      MergedStepIsPrepend(front, last, role, t.content, rs);
    } else {
      NewStepIsPrepend(acc, role, t.content, rs);
    }
  }

  /** The step that merges into the last entry, on the seam. */
  lemma MergedStepIsPrepend(front: seq<Entry>, last: string, role: Speaker, c: string, rs: seq<Entry>)
    requires OnePart(front) && OnePart(rs)
    ensures var acc := front + [Entry(role, [last])];
            var p := if |rs| > 0 && rs[0].role == role then [Entry(role, [c + "\n" + rs[0].parts[0]])] + rs[1..]
                     else [Entry(role, [c])] + rs;
            Attach(front + [Entry(role, [last + "\n" + c])], rs) == Attach(acc, p)
  {
    var acc := front + [Entry(role, [last])];
    var a := front + [Entry(role, [last + "\n" + c])];
    assert a[..|a| - 1] == front && acc[..|acc| - 1] == front;
    if |rs| > 0 && rs[0].role == role {
      assert last + "\n" + c + "\n" + rs[0].parts[0] == last + "\n" + (c + "\n" + rs[0].parts[0]);
    }
  }

  /** The step that starts a new entry, on the seam. */
  lemma NewStepIsPrepend(acc: seq<Entry>, role: Speaker, c: string, rs: seq<Entry>)
    requires OnePart(acc) && OnePart(rs)
    requires |acc| == 0 || acc[|acc| - 1].role != role
    ensures var p := if |rs| > 0 && rs[0].role == role then [Entry(role, [c + "\n" + rs[0].parts[0]])] + rs[1..]
                     else [Entry(role, [c])] + rs;
            Attach(acc + [Entry(role, [c])], rs) == Attach(acc, p)
  {
    var a := acc + [Entry(role, [c])];
    assert a[..|a| - 1] == acc;
  }

  /** The left-to-right loop equals the right-to-left grouping, with any
      accumulated prefix glued on. */
  lemma {:induction false} MergeFromIsAttach(acc: seq<Entry>, ts: seq<Turn>)
    requires OnePart(acc) && Alternates(acc)
    ensures MergeFrom(acc, ts) == Attach(acc, Runs(ts))
    decreases |ts|
  {
    if |ts| > 0 {
      MergeFromIsAttach(Absorb(acc, ts[0]), ts[1..]);
      AbsorbIsPrepend(acc, ts[0], Runs(ts[1..]));
    }
  }

  /** `cleanHistory` is the run grouping of the history from its first user turn. */
  lemma CleanHistoryIsRuns(history: seq<Turn>)
    requires FirstUser(history) >= 0
    ensures CleanHistory(history) == Runs(history[FirstUser(history)..])
  {
    MergeFromIsAttach([], history[FirstUser(history)..]);
  }

  /** The worked example: a leading assistant turn is dropped and the two user
      turns are merged. */
  lemma CleanHistoryExample()
    ensures CleanHistory([Turn("assistant", "a"), Turn("user", "b"), Turn("user", "c"), Turn("assistant", "d")])
         == [Entry(User, ["b\nc"]), Entry(Model, ["d"])]
  {
    var h := [Turn("assistant", "a"), Turn("user", "b"), Turn("user", "c"), Turn("assistant", "d")];
    var t1 := [Turn("user", "b"), Turn("user", "c"), Turn("assistant", "d")];
    var t2 := [Turn("user", "c"), Turn("assistant", "d")];
    var t3 := [Turn("assistant", "d")];
    assert h[1..] == t1 && t1[1..] == t2 && t2[1..] == t3 && t3[1..] == [];
    assert Runs(t3) == [Entry(Model, ["d"])];
    assert Runs(t2) == [Entry(User, ["c"]), Entry(Model, ["d"])];
    assert "b" + "\n" + "c" == "b\nc";
    assert Runs(t1) == [Entry(User, ["b\nc"]), Entry(Model, ["d"])];
    assert FirstUser(h) == 1;
    CleanHistoryIsRuns(h);
  }
}

=== FILE: http.dfy ===
/** The JSON bodies and statuses the Express handlers send. `res.json(...)`
    without an explicit status is a 200. */
module Http {
  import opened ChatHistoryStore

  datatype Body =
    | ErrorBody(error: string)
    | ChatBody(reply: string, sessionId: SessionId, conversationLength: nat)
    | HistoryBody(sessionId: SessionId, history: seq<Turn>, messageCount: nat)
    | ClearedBody(message: string, sessionId: SessionId)
    | ReplyBody(reply: string)

  /** A handler either answers, or hands the error to `next(err)`, which the
      application's error middleware turns into a generic 500. */
  datatype Response = Respond(status: nat, body: Body) | Next(error: string)

  const Ok: nat := 200
  const BadRequest: nat := 400
  const ServerError: nat := 500
}

=== FILE: js_value.dfy ===
/** Parsed JSON values and the JavaScript operators the pages apply to them:
    truthiness (`!!v`, `a || b`), property reads and nullish coalescing (`a ?? b`).
    A property that is not there reads as `undefined`, which is `None`. */
module JsValue {
  import opened Common

  datatype Json =
    | JNull
    | JBool(b: bool)
    | JNum(n: real)
    | JStr(s: string)
    | JArr(items: seq<Json>)
    | JObj(fields: map<string, Json>)

  /** JavaScript truthiness of a value; NaN is not modelled. */
  predicate Truthy(v: Json)
  {
    match v
    case JNull => false
    case JBool(b) => b
    case JNum(n) => n != 0.0
    case JStr(s) => s != ""
    case _ => true
  }

  /** Truthiness of a value that may be `undefined`: `!!v`. */
  predicate TruthyOpt(v: Option<Json>)
  {
    v.Some? && Truthy(v.value)
  }

  /** `v.key` (or `v?.key`) on a value that is not `null`; only objects have the
      keys JSON can carry, so every other value reads `undefined`. */
  function Prop(v: Json, key: string): (r: Option<Json>)
    ensures r.Some? <==> (v.JObj? && key in v.fields)
    ensures r.Some? ==> r.value == v.fields[key]
  {
    if v.JObj? && key in v.fields then Some(v.fields[key]) else None
  }

  /** `a ?? b`: `b` exactly when `a` is `null` or `undefined`. */
  function Coalesce(a: Option<Json>, b: Json): (r: Json)
    ensures (a.None? || a.value == JNull) ==> r == b
    ensures (a.Some? && a.value != JNull) ==> r == a.value
  {
    if a.None? || a.value == JNull then b else a.value
  }

  /** `a || b`: `a` when it is truthy, otherwise `b`. */
  function Or(a: Option<Json>, b: Json): (r: Json)
    ensures TruthyOpt(a) ==> r == a.value
    ensures !TruthyOpt(a) ==> r == b
  {
    if TruthyOpt(a) then a.value else b
  }

  /** What `JSON.parse` did with a stored or uploaded text. */
  datatype Parsed = Malformed | Parsed(value: Json)
}

=== FILE: keyword_search.dfy ===
/** The keyword retrieval both Python RAG scripts share (`simple_search`): cut
    the document into sentences at runs of `.`, `!` and `?`, keep the stripped
    sentences of at least ten characters that contain a query word, rank them
    by how many query words they contain and return the best three. */
module KeywordSearch {
  import opened Text
  import opened Common

  const NotFound: String := "I couldn't find specific information about that in the document."

  /** The sentence-ending characters of the pattern `[.!?]+`. */
  predicate IsMark(c: char)
  {
    c == '.' || c == '!' || c == '?'
  }

  predicate NoMark(s: String)
  {
    forall k | 0 <= k < |s| :: !IsMark(s[k])
  }

  /** The text with every mark deleted. */
  function Unmarked(s: String): (r: String)
    ensures NoMark(r)
  {
    if |s| == 0 then []
    else if IsMark(s[0]) then Unmarked(s[1..])
    else [s[0]] + Unmarked(s[1..])
  }

  function Concat(ps: seq<String>): String
  {
    if |ps| == 0 then [] else ps[0] + Concat(ps[1..])
  }

  /** `re.split(r'[.!?]+', s)`: the pieces between maximal runs of marks, with
      an empty piece in front of a leading run and after a trailing one. */
  function SplitMarks(s: String): (ps: seq<String>)
    ensures |ps| >= 1
    ensures forall k | 0 <= k < |ps| :: NoMark(ps[k])
    ensures Concat(ps) == Unmarked(s)
  {
    if |s| == 0 then [""]
    else
      var rest := SplitMarks(s[1..]);
      if IsMark(s[0]) then
        if |s| > 1 && IsMark(s[1]) then rest
        else
          assert Concat([""] + rest) == Concat(rest) by {
            assert ([""] + rest)[1..] == rest;
          }
          [""] + rest
      else
        var ps := [[s[0]] + rest[0]] + rest[1..];
        assert ps[1..] == rest[1..];
        assert Concat(ps) == [s[0]] + Concat(rest);
        ps
  }

  /** A text without marks is a single piece. */
  lemma {:induction false} SplitMarksNoMark(s: String)
    requires NoMark(s)
    ensures SplitMarks(s) == [s]
  {
    if |s| > 0 {
      SplitMarksNoMark(s[1..]);
      assert [s[0]] + s[1..] == s;
    }
  }

  /** A non-empty run made of marks only. */
  predicate IsMarkRun(r: String)
  {
    r != [] && forall k | 0 <= k < |r| :: IsMark(r[k])
  }

  /** The runs of marks `re.split(r'[.!?]+', s)` cuts at, in order. */
  function MarkRuns(s: String): (rs: seq<String>)
    ensures |rs| + 1 == |SplitMarks(s)|
    ensures forall k | 0 <= k < |rs| :: IsMarkRun(rs[k])
    ensures |s| > 0 && IsMark(s[0]) ==> |rs| > 0 && SplitMarks(s)[0] == ""
  {
    if |s| == 0 then []
    else
      var rest := MarkRuns(s[1..]);
      if IsMark(s[0]) then
        if |s| > 1 && IsMark(s[1]) then [[s[0]] + rest[0]] + rest[1..] else [[s[0]]] + rest
      else rest
  }

  /** The cut positions: the mark-free pieces and the maximal runs of marks
      between them interleave back into the text. Pieces hold no mark and
      every run is non-empty, so the runs are exactly the maximal ones. */
  lemma {:induction false} SplitMarksWeave(s: String)
    ensures Weave(SplitMarks(s), MarkRuns(s)) == s
    decreases |s|
  {
    if |s| > 0 {
      SplitMarksWeave(s[1..]);
      var ps, rs := SplitMarks(s[1..]), MarkRuns(s[1..]);
      if !IsMark(s[0]) {
        WeavePieceChar(s, ps, rs);
      } else if |s| > 1 && IsMark(s[1]) {
        WeaveMarkBeforeMark(s, ps, rs);
      } else if |s| > 1 {
        WeaveMarkBeforePiece(s, ps, rs);
      } else {
        WeaveLastMark(s, ps, rs);
      }
    }
  }

  /** A mark in front of another mark lengthens the first run. */
  lemma WeaveMarkBeforeMark(s: String, ps: seq<String>, rs: seq<String>)
    requires |s| > 1 && IsMark(s[0]) && IsMark(s[1])
    requires ps == SplitMarks(s[1..]) && rs == MarkRuns(s[1..]) && Weave(ps, rs) == s[1..]
    ensures Weave(SplitMarks(s), MarkRuns(s)) == s
  {
    assert SplitMarks(s) == ps && MarkRuns(s) == [[s[0]] + rs[0]] + rs[1..];
    WeaveLongerSep(s[0], ps, rs);
    assert s == [s[0]] + s[1..];
  }

  /** A lone mark in front of a piece opens an empty piece before it. */
  lemma WeaveMarkBeforePiece(s: String, ps: seq<String>, rs: seq<String>)
    requires |s| > 1 && IsMark(s[0]) && !IsMark(s[1])
    requires ps == SplitMarks(s[1..]) && rs == MarkRuns(s[1..]) && Weave(ps, rs) == s[1..]
    ensures Weave(SplitMarks(s), MarkRuns(s)) == s
  {
    assert SplitMarks(s) == [""] + ps && MarkRuns(s) == [[s[0]]] + rs;
    WeaveNewPiece([s[0]], ps, rs);
    assert s == [s[0]] + s[1..];
  }

  /** A text of one mark is two empty pieces around it. */
  lemma WeaveLastMark(s: String, ps: seq<String>, rs: seq<String>)
    requires |s| == 1 && IsMark(s[0])
    requires ps == SplitMarks(s[1..]) && rs == MarkRuns(s[1..]) && Weave(ps, rs) == s[1..]
    ensures Weave(SplitMarks(s), MarkRuns(s)) == s
  {
    assert SplitMarks(s) == [""] + ps && MarkRuns(s) == [[s[0]]] + rs;
    WeaveNewPiece([s[0]], ps, rs);
    assert s == [s[0]] + s[1..];
  }

  /** Any other character joins the first piece. */
  lemma WeavePieceChar(s: String, ps: seq<String>, rs: seq<String>)
    requires |s| > 0 && !IsMark(s[0])
    requires ps == SplitMarks(s[1..]) && rs == MarkRuns(s[1..]) && Weave(ps, rs) == s[1..]
    ensures Weave(SplitMarks(s), MarkRuns(s)) == s
  {
    assert SplitMarks(s) == [[s[0]] + ps[0]] + ps[1..] && MarkRuns(s) == rs;
    WeaveLongerPiece(s[0], ps, rs);
    assert s == [s[0]] + s[1..];
  }

  /** Run of characters that are not Python white space, from index `i`. */
  function WordRun(s: String, i: nat): (n: nat)
    requires i <= |s|
    ensures i + n <= |s|
    ensures forall k | i <= k < i + n :: !IsPySpace(s[k])
    ensures i + n == |s| || IsPySpace(s[i + n])
    decreases |s| - i
  {
    if i == |s| || IsPySpace(s[i]) then 0 else 1 + WordRun(s, i + 1)
  }

  predicate IsWord(w: String)
  {
    w != [] && forall k | 0 <= k < |w| :: !IsPySpace(w[k])
  }

  /** `s.split()` with no argument: the maximal runs of non-white-space. */
  function Words(s: String): (ws: seq<String>)
    ensures forall k | 0 <= k < |ws| :: IsWord(ws[k])
    ensures AllSpace(s, Python) <==> ws == []
  {
    if |s| == 0 then []
    else if IsPySpace(s[0]) then
      var ws := Words(s[1..]);
      assert AllSpace(s, Python) <==> AllSpace(s[1..], Python);
      ws
    else
      var n := WordRun(s, 0);
      [s[..n]] + Words(s[n..])
  }

  /** The white space around and between the words `split()` drops: one gap
      before each word and one after the last, each all white space, and
      every gap between two words non-empty. */
  function Gaps(s: String): (gs: seq<String>)
    ensures |gs| == |Words(s)| + 1
    ensures forall k | 0 <= k < |gs| :: AllSpace(gs[k], Python)
    ensures forall k | 0 < k < |gs| - 1 :: gs[k] != ""
    ensures |s| > 0 && IsPySpace(s[0]) ==> gs[0] != ""
  {
    if |s| == 0 then [""]
    else if IsPySpace(s[0]) then
      var g := Gaps(s[1..]);
      [[s[0]] + g[0]] + g[1..]
    else
      var n := WordRun(s, 0);
      [""] + Gaps(s[n..])
  }

  /** Which words `split()` yields: with the gaps woven back between them
      they give the text again, so they are exactly the maximal
      non-white-space runs. */
  lemma {:induction false} WordsWeave(s: String)
    ensures Weave(Gaps(s), Words(s)) == s
    decreases |s|
  {
    if |s| > 0 {
      if IsPySpace(s[0]) {
        WordsWeave(s[1..]);
        WordsWeaveSpace(s, Gaps(s[1..]), Words(s[1..]));
      } else {
        var n := WordRun(s, 0);
        WordsWeave(s[n..]);
        WordsWeaveWord(s, n, Gaps(s[n..]), Words(s[n..]));
      }
    }
  }

  /** White space in front joins the first gap. */
  lemma WordsWeaveSpace(s: String, gs: seq<String>, ws: seq<String>)
    requires |s| > 0 && IsPySpace(s[0])
    requires gs == Gaps(s[1..]) && ws == Words(s[1..]) && Weave(gs, ws) == s[1..]
    ensures Weave(Gaps(s), Words(s)) == s
  {
    assert Gaps(s) == [[s[0]] + gs[0]] + gs[1..] && Words(s) == ws;
    WeaveLongerPiece(s[0], gs, ws);
    ConsTail(s);
  }

  /** A word in front comes after a new empty gap. */
  lemma WordsWeaveWord(s: String, n: nat, gs: seq<String>, ws: seq<String>)
    requires |s| > 0 && !IsPySpace(s[0]) && n == WordRun(s, 0)
    requires gs == Gaps(s[n..]) && ws == Words(s[n..]) && Weave(gs, ws) == s[n..]
    ensures Weave(Gaps(s), Words(s)) == s
  {
    WordFirst(s, n);
    WeaveNewPiece(s[..n], gs, ws);
    SliceJoin(s, n);
  }

  lemma WordFirst(s: String, n: nat)
    requires |s| > 0 && !IsPySpace(s[0]) && n == WordRun(s, 0)
    ensures Gaps(s) == [""] + Gaps(s[n..]) && Words(s) == [s[..n]] + Words(s[n..])
  {
  }

  lemma {:induction false} WordRunOver(w: String, t: String, i: nat)
    requires IsWord(w) && i <= |w|
    requires t == [] || IsPySpace(t[0])
    ensures WordRun(w + t, i) == |w| - i
    decreases |w| - i
  {
    if i < |w| {
      WordRunOver(w, t, i + 1);
    } else if t != [] {
      assert (w + t)[i] == t[0];
    }
  }

  /** Splitting words that were joined with single spaces gives them back. */
  lemma {:induction false} WordsJoin(ws: seq<String>)
    requires forall k | 0 <= k < |ws| :: IsWord(ws[k])
    ensures Words(Join(ws, " ")) == ws
    decreases |ws|
  {
    if |ws| == 1 {
      WordsJoinOne(ws);
    } else if |ws| > 1 {
      WordsJoin(ws[1..]);
      WordsJoinStep(ws);
    }
  }

  lemma WordsJoinOne(ws: seq<String>)
    requires |ws| == 1 && IsWord(ws[0])
    ensures Words(Join(ws, " ")) == ws
  {
    WordRunOver(ws[0], [], 0);
    assert ws[0][..|ws[0]|] == ws[0];
    assert ws[0][|ws[0]|..] == [];
  }

  lemma WordsJoinStep(ws: seq<String>)
    requires |ws| > 1 && IsWord(ws[0])
    requires Words(Join(ws[1..], " ")) == ws[1..]
    ensures Words(Join(ws, " ")) == ws
  {
    WordThenSpace(ws[0], Join(ws[1..], " "));
    ConsTail(ws);
  }

  /** A word, a space and the rest: the word is split off first. */
  lemma WordThenSpace(w: String, j: String)
    requires IsWord(w)
    ensures Words(w + " " + j) == [w] + Words(j)
  {
    var t := " " + j;
    var s := w + t;
    assert w + " " + j == s;
    WordRunOver(w, t, 0);
    WordFirst(s, |w|);
    ConcatSlices(w, t);
    SpaceFirst(t);
    ConcatSlices(" ", j);
  }

  lemma SpaceFirst(s: String)
    requires |s| > 0 && IsPySpace(s[0])
    ensures Gaps(s) == [[s[0]] + Gaps(s[1..])[0]] + Gaps(s[1..])[1..] && Words(s) == Words(s[1..])
  {
  }

  /** `sum(1 for word in query_words if word in sentence_lower)`: a word that
      occurs twice in the query counts twice. */
  function MatchCount(words: seq<String>, s: String): (n: nat)
    ensures n <= |words|
  {
    if |words| == 0 then 0
    else (if Contains(s, words[0]) then 1 else 0) + MatchCount(words[1..], s)
  }

  /** The count is positive exactly when some query word occurs. */
  lemma {:induction false} MatchCountPositive(words: seq<String>, s: String)
    ensures MatchCount(words, s) > 0 <==> exists k | 0 <= k < |words| :: Contains(s, words[k])
    decreases |words|
  {
    if |words| > 0 {
      MatchCountPositive(words[1..], s);
      if MatchCount(words[1..], s) > 0 {
        var k :| 0 <= k < |words[1..]| && Contains(s, words[1..][k]);
        assert Contains(s, words[k + 1]);
      } else if !Contains(s, words[0]) {
        forall k | 0 <= k < |words| ensures !Contains(s, words[k]) {
          if k > 0 { assert words[k] == words[1..][k - 1]; }
        }
      }
    }
  }

  /** Counting is additive over the query, so duplicates count separately. */
  lemma {:induction false} MatchCountAppend(a: seq<String>, b: seq<String>, s: String)
    ensures MatchCount(a + b, s) == MatchCount(a, s) + MatchCount(b, s)
    decreases |a|
  {
    if |a| == 0 {
      assert a + b == b;
    } else {
      var ab := a + b;
      MatchCountAppend(a[1..], b, s);
      assert ab[0] == a[0] && ab[1..] == a[1..] + b;
      var head := if Contains(s, a[0]) then 1 else 0;
      assert MatchCount(ab, s) == head + MatchCount(ab[1..], s);
      assert MatchCount(a, s) == head + MatchCount(a[1..], s);
    }
  }

  /** A kept sentence with its match count. */
  datatype Hit = Hit(sentence: String, matches: nat)

  /** The filter of the loop: long enough and at least one match. */
  predicate Qualifies(t: String, words: seq<String>)
  {
    |t| >= 10 && MatchCount(words, Lower(t)) > 0
  }

  /** `sentence.strip()` of every piece. */
  function Stripped(pieces: seq<String>): (ts: seq<String>)
    ensures |ts| == |pieces|
  {
    if |pieces| == 0 then [] else [Trim(pieces[0], Python)] + Stripped(pieces[1..])
  }

  /** What the loop records for a kept sentence: it is stripped, long enough,
      contains a query word, and carries its match count. */
  predicate Kept(h: Hit, words: seq<String>)
  {
    Qualifies(h.sentence, words) && h.matches == MatchCount(words, Lower(h.sentence))
    && IsTrimmed(h.sentence, Python)
  }

  /** One turn of the loop: the hit a piece gives, if its stripped text
      qualifies. */
  function HitOf(p: String, words: seq<String>): (hs: seq<Hit>)
    ensures |hs| <= 1
    ensures forall k | 0 <= k < |hs| :: hs[k].sentence == Trim(p, Python) && Kept(hs[k], words)
  {
    var t := Trim(p, Python);
    if Qualifies(t, words) then [Hit(t, MatchCount(words, Lower(t)))] else []
  }

  /** The loop over the pieces: every stripped piece that qualifies, in
      document order, with its match count. */
  function Relevant(pieces: seq<String>, words: seq<String>): (hs: seq<Hit>)
    ensures |hs| <= |pieces|
    ensures forall k | 0 <= k < |hs| :: hs[k].sentence in Stripped(pieces) && Kept(hs[k], words)
  {
    if |pieces| == 0 then []
    else
      var head := HitOf(pieces[0], words);
      var rest := Relevant(pieces[1..], words);
      var hs := head + rest;
      assert Stripped(pieces) == [Trim(pieces[0], Python)] + Stripped(pieces[1..]);
      forall k | |head| <= k < |hs|
        ensures hs[k].sentence in Stripped(pieces) && Kept(hs[k], words)
      {
        assert hs[k] == rest[k - |head|];
      }
      hs
  }

  /** The loop handles the pieces one by one, so the hits of a document are the
      hits of its first part followed by those of the rest. */
  lemma {:induction false} RelevantAppend(a: seq<String>, b: seq<String>, words: seq<String>)
    ensures Relevant(a + b, words) == Relevant(a, words) + Relevant(b, words)
    decreases |a|
  {
    if |a| == 0 {
      assert a + b == b;
    } else {
      var ab := a + b;
      assert ab[0] == a[0] && ab[1..] == a[1..] + b;
      RelevantAppend(a[1..], b, words);
    }
  }

  /** One piece gives its stripped text and match count when it qualifies,
      and nothing otherwise. */
  lemma RelevantOne(p: String, words: seq<String>)
    ensures var t := Trim(p, Python);
            Relevant([p], words) == if Qualifies(t, words) then [Hit(t, MatchCount(words, Lower(t)))] else []
  {
    assert [p][1..] == [];
  }

  /** Pieces without marks stay without marks once stripped. */
  lemma {:induction false} StrippedNoMark(pieces: seq<String>)
    requires forall k | 0 <= k < |pieces| :: NoMark(pieces[k])
    ensures forall t | t in Stripped(pieces) :: NoMark(t)
    decreases |pieces|
  {
    if |pieces| > 0 {
      StrippedNoMark(pieces[1..]);
      TrimKeepsNoMark(pieces[0]);
      assert Stripped(pieces) == [Trim(pieces[0], Python)] + Stripped(pieces[1..]);
    }
  }

  lemma TrimKeepsNoMark(s: String)
    requires NoMark(s)
    ensures NoMark(Trim(s, Python))
  {
    var t := Trim(s, Python);
    forall k | 0 <= k < |t| ensures !IsMark(t[k]) {
      assert t[k] in t;
      var j :| 0 <= j < |s| && s[j] == t[k];
    }
  }

  /** Nothing is lost: every qualifying piece shows up among the hits. */
  lemma {:induction false} RelevantComplete(pieces: seq<String>, words: seq<String>, j: nat)
    requires j < |pieces| && Qualifies(Trim(pieces[j], Python), words)
    ensures exists k | 0 <= k < |Relevant(pieces, words)| :: Relevant(pieces, words)[k].sentence == Trim(pieces[j], Python)
    decreases j
  {
    var hs := Relevant(pieces, words);
    var head := HitOf(pieces[0], words);
    var rest := Relevant(pieces[1..], words);
    var target := Trim(pieces[j], Python);
    assert hs == head + rest;
    if j == 0 {
      assert hs[0] == head[0];
    } else {
      assert pieces[1..][j - 1] == pieces[j];
      RelevantComplete(pieces[1..], words, j - 1);
      var k :| 0 <= k < |rest| && rest[k].sentence == target;
      assert hs[|head| + k] == rest[k];
    }
  }

  /** There are no hits exactly when no stripped piece qualifies. */
  lemma RelevantExact(pieces: seq<String>, words: seq<String>)
    ensures Relevant(pieces, words) == [] <==> forall j | 0 <= j < |pieces| :: !Qualifies(Trim(pieces[j], Python), words)
  {
    var hs := Relevant(pieces, words);
    if hs != [] {
      assert Kept(hs[0], words);
      StrippedMember(pieces, hs[0].sentence);
    } else {
      forall j | 0 <= j < |pieces| ensures !Qualifies(Trim(pieces[j], Python), words) {
        if Qualifies(Trim(pieces[j], Python), words) {
          RelevantComplete(pieces, words, j);
        }
      }
    }
  }

  lemma {:induction false} StrippedMember(pieces: seq<String>, t: String)
    requires t in Stripped(pieces)
    ensures exists j | 0 <= j < |pieces| :: t == Trim(pieces[j], Python)
    decreases |pieces|
  {
    if t != Trim(pieces[0], Python) {
      assert t in Stripped(pieces[1..]);
      StrippedMember(pieces[1..], t);
      var j :| 0 <= j < |pieces[1..]| && t == Trim(pieces[1..][j], Python);
      assert pieces[j + 1] == pieces[1..][j];
    }
  }

  /** Non-increasing match counts. */
  predicate Descending(hs: seq<Hit>)
  {
    forall i, j | 0 <= i < j < |hs| :: hs[i].matches >= hs[j].matches
  }

  /** Inserts after every hit with strictly more matches, so before its equals. */
  function Insert(x: Hit, ys: seq<Hit>): (r: seq<Hit>)
    ensures multiset(r) == multiset(ys) + multiset{x}
    ensures forall h | h in r :: h == x || h in ys
  {
    if |ys| == 0 then [x]
    else if ys[0].matches > x.matches then
      assert ys == [ys[0]] + ys[1..];
      [ys[0]] + Insert(x, ys[1..])
    else [x] + ys
  }

  lemma {:induction false} InsertDescending(x: Hit, ys: seq<Hit>)
    requires Descending(ys)
    ensures Descending(Insert(x, ys))
    decreases |ys|
  {
    var r := Insert(x, ys);
    if |ys| > 0 && ys[0].matches > x.matches {
      var tail := Insert(x, ys[1..]);
      InsertDescending(x, ys[1..]);
      assert r == [ys[0]] + tail;
      forall i, j | 0 <= i < j < |r| ensures r[i].matches >= r[j].matches {
        if i > 0 {
          assert r[i] == tail[i - 1] && r[j] == tail[j - 1];
        } else {
          assert r[j] == tail[j - 1] && r[j] in tail;
          if r[j] != x {
            var k :| 0 <= k < |ys[1..]| && ys[1..][k] == r[j];
            assert ys[k + 1] == r[j];
          }
        }
      }
    } else if |ys| > 0 {
      assert r == [x] + ys;
      forall i, j | 0 <= i < j < |r| ensures r[i].matches >= r[j].matches {
        if i > 0 {
          assert r[i] == ys[i - 1] && r[j] == ys[j - 1];
        } else {
          assert r[j] == ys[j - 1];
          assert ys[0].matches >= ys[j - 1].matches;
        }
      }
    }
  }

  /** `list.sort(key=lambda x: x[1], reverse=True)`: Python's sort is stable,
      and reversing keeps equal keys in their original order. */
  function SortByMatches(xs: seq<Hit>): (r: seq<Hit>)
    ensures Descending(r)
    ensures multiset(r) == multiset(xs)
  {
    if |xs| == 0 then []
    else
      assert xs == [xs[0]] + xs[1..];
      InsertDescending(xs[0], SortByMatches(xs[1..]));
      Insert(xs[0], SortByMatches(xs[1..]))
  }

  /** The hits with a given match count, in order. */
  function WithMatches(hs: seq<Hit>, m: nat): (r: seq<Hit>)
    ensures forall k | 0 <= k < |r| :: r[k].matches == m
  {
    if |hs| == 0 then []
    else if hs[0].matches == m then [hs[0]] + WithMatches(hs[1..], m)
    else WithMatches(hs[1..], m)
  }

  lemma {:induction false} InsertStable(x: Hit, ys: seq<Hit>, m: nat)
    requires Descending(ys)
    ensures WithMatches(Insert(x, ys), m) == WithMatches([x] + ys, m)
    decreases |ys|
  {
    if |ys| > 0 && ys[0].matches > x.matches {
      InsertStable(x, ys[1..], m);
      var r := Insert(x, ys);
      assert r[1..] == Insert(x, ys[1..]);
      assert ([x] + ys)[1..] == ys;
      assert ([x] + ys[1..])[1..] == ys[1..];
    }
  }

  /** Stability: among hits with equal counts the sort keeps document order. */
  lemma {:induction false} SortStable(xs: seq<Hit>, m: nat)
    ensures WithMatches(SortByMatches(xs), m) == WithMatches(xs, m)
    decreases |xs|
  {
    if |xs| > 0 {
      SortStable(xs[1..], m);
      InsertStable(xs[0], SortByMatches(xs[1..]), m);
      var s := SortByMatches(xs[1..]);
      assert ([xs[0]] + s)[1..] == s;
    }
  }

  /** No sentence of `content` qualifies for `query`. */
  predicate NothingMatches(query: String, content: String)
  {
    var pieces := SplitMarks(content);
    forall j | 0 <= j < |pieces| :: !Qualifies(Trim(pieces[j], Python), Words(Lower(query)))
  }

  /** Any reordering of the hits keeps only qualifying, mark-free sentences. */
  lemma PermutedHitsKept(pieces: seq<String>, words: seq<String>, hs: seq<Hit>)
    requires forall k | 0 <= k < |pieces| :: NoMark(pieces[k])
    requires multiset(hs) == multiset(Relevant(pieces, words))
    ensures forall k | 0 <= k < |hs| :: Kept(hs[k], words) && NoMark(hs[k].sentence)
  {
    var rel := Relevant(pieces, words);
    StrippedNoMark(pieces);
    forall k | 0 <= k < |hs|
      ensures Kept(hs[k], words) && NoMark(hs[k].sentence)
    {
      assert hs[k] in multiset(hs);
      var i :| 0 <= i < |rel| && rel[i] == hs[k];
      assert rel[i].sentence in Stripped(pieces);
    }
  }

  /** The qualifying sentences of `content` for `query`, best first; sentences
      with equal counts stay in document order. */
  function Ranked(query: String, content: String): (hs: seq<Hit>)
    ensures Descending(hs)
    ensures multiset(hs) == multiset(Relevant(SplitMarks(content), Words(Lower(query))))
    ensures forall k | 0 <= k < |hs| :: Kept(hs[k], Words(Lower(query))) && NoMark(hs[k].sentence)
    ensures hs == [] <==> NothingMatches(query, content)
    ensures forall m :: WithMatches(hs, m) == WithMatches(Relevant(SplitMarks(content), Words(Lower(query))), m)
  {
    var pieces := SplitMarks(content);
    var words := Words(Lower(query));
    var rel := Relevant(pieces, words);
    var hs := SortByMatches(rel);
    forall m
      ensures WithMatches(hs, m) == WithMatches(rel, m)
    {
      SortStable(rel, m);
    }
    PermutedHitsKept(pieces, words, hs);
    RelevantExact(pieces, words);
    assert hs == [] <==> rel == [] by {
      assert |hs| == |multiset(hs)| == |multiset(rel)| == |rel|;
    }
    hs
  }

  /** The sentences of the first three hits (fewer when there are fewer). */
  function TopThree(hs: seq<Hit>): (ts: seq<String>)
    ensures |ts| == if |hs| < 3 then |hs| else 3
    ensures forall k | 0 <= k < |ts| :: ts[k] == hs[k].sentence
  {
    var n := if |hs| < 3 then |hs| else 3;
    seq(n, k requires 0 <= k < n => hs[k].sentence)
  }

  /** `simple_search(query, content)`. */
  function SimpleSearch(query: String, content: String): (r: String)
    ensures r == NotFound <==> NothingMatches(query, content)
    ensures r != NotFound ==> r == Join(TopThree(Ranked(query, content)), "\n")
    ensures r != NotFound ==> NoMark(r)
  {
    var hs := Ranked(query, content);
    if |hs| == 0 then NotFound
    else
      var ts := TopThree(hs);
      JoinNoMark(ts);
      NotFoundHasMark();
      Join(ts, "\n")
  }

  /** The not-found sentence ends with a full stop, so no search result equals it. */
  lemma NotFoundHasMark()
    ensures !NoMark(NotFound)
  {
    assert IsMark(NotFound[|NotFound| - 1]);
  }

  /** Joining mark-free pieces with newlines gives a mark-free text. */
  lemma {:induction false} JoinNoMark(ts: seq<String>)
    requires forall k | 0 <= k < |ts| :: NoMark(ts[k])
    ensures NoMark(Join(ts, "\n"))
    decreases |ts|
  {
    if |ts| > 1 {
      JoinNoMark(ts[1..]);
      var tail := Join(ts[1..], "\n");
      var r := ts[0] + "\n" + tail;
      assert Join(ts, "\n") == r;
      forall k | 0 <= k < |r| ensures !IsMark(r[k]) {
        if k < |ts[0]| {
          assert r[k] == ts[0][k];
        } else if k > |ts[0]| {
          assert r[k] == tail[k - |ts[0]| - 1];
        }
      }
    }
  }

  /** A query with no words (empty, or only white space) finds nothing. */
  lemma BlankQueryFindsNothing(query: String, content: String)
    requires AllSpace(query, Python)
    ensures SimpleSearch(query, content) == NotFound
  {
    assert AllSpace(Lower(query), Python) by {
      forall k | 0 <= k < |query| ensures IsPySpace(Lower(query)[k]) {
        assert IsPySpace(query[k]);
      }
    }
  }

  /** A found result is stripped: it neither starts nor ends with white space. */
  lemma {:induction false} JoinTrimmed(ts: seq<String>)
    requires |ts| > 0
    requires forall k | 0 <= k < |ts| :: ts[k] != [] && IsTrimmed(ts[k], Python)
    ensures IsTrimmed(Join(ts, "\n"), Python) && Join(ts, "\n") != []
    decreases |ts|
  {
    if |ts| > 1 {
      JoinTrimmed(ts[1..]);
      var tail := Join(ts[1..], "\n");
      assert Join(ts, "\n") == ts[0] + ("\n" + tail);
    }
  }

  lemma SearchIsTrimmed(query: String, content: String)
    ensures var r := SimpleSearch(query, content);
            r != NotFound ==> IsTrimmed(r, Python) && r != []
  {
    if SimpleSearch(query, content) != NotFound {
      JoinTrimmed(TopThree(Ranked(query, content)));
    }
  }
}

=== FILE: notes_page.dfy ===
/** The notes page's list logic: search, add, delete and attaching a PDF as a
    note. Ids and timestamps (`Date.now()`, ISO dates) are parameters. */
module NotesPage {
  import opened Common
  import opened Text

  datatype Note = Note(id: string, title: string, content: string, tags: seq<string>, createdAt: string)

  /** The new-note form, with tags typed as one comma-separated string. */
  datatype Draft = Draft(title: string, content: string, tags: string)

  datatype Page = Page(notes: seq<Note>, draft: Draft, adding: bool)

  const EmptyDraft: Draft := Draft("", "", "")

  /** The search test for one note, with `q` already lower-cased. */
  predicate Matches(n: Note, q: string)
  {
    || Contains(Lower(n.title), q)
    || Contains(Lower(n.content), q)
    || Contains(Lower(Join(n.tags, ",")), q)
  }

  /** `notes.filter(...)` with the search test. */
  function Keep(notes: seq<Note>, q: string): (r: seq<Note>)
    ensures |r| <= |notes|
    ensures forall k | 0 <= k < |r| :: r[k] in notes && Matches(r[k], q)
    ensures forall k | 0 <= k < |notes| && Matches(notes[k], q) :: notes[k] in r
  {
    if |notes| == 0 then []
    else
      var rest := Keep(notes[1..], q);
      if Matches(notes[0], q) then [notes[0]] + rest else rest
  }

  /** The `filtered` memo: a blank query shows every note; otherwise the query is
      lower-cased but not trimmed. */
  function Filtered(notes: seq<Note>, query: string): (r: seq<Note>)
    ensures AllSpace(query, JS) ==> r == notes
    ensures !AllSpace(query, JS) ==> r == Keep(notes, Lower(query))
  {
    if Trim(query, JS) == "" then notes else Keep(notes, Lower(query))
  }

  /** The search keeps the notes in their order. */
  lemma {:induction false} KeepIsSubseq(notes: seq<Note>, q: string)
    ensures SubseqOf(Keep(notes, q), notes)
    decreases |notes|
  {
    if |notes| > 0 {
      KeepIsSubseq(notes[1..], q);
      var rest := Keep(notes[1..], q);
      if Matches(notes[0], q) {
        assert ([notes[0]] + rest)[1..] == rest;
      } else {
        SubseqOfSkip(rest, notes[0], notes[1..]);
        assert [notes[0]] + notes[1..] == notes;
      }
    }
  }

  /** Searching the results again for the same text changes nothing. */
  lemma {:induction false} FilteredIdempotent(notes: seq<Note>, query: string)
    ensures Filtered(Filtered(notes, query), query) == Filtered(notes, query)
  {
    if !AllSpace(query, JS) {
      KeepIdempotent(notes, Lower(query));
    }
  }

  lemma {:induction false} KeepIdempotent(notes: seq<Note>, q: string)
    ensures Keep(Keep(notes, q), q) == Keep(notes, q)
    decreases |notes|
  {
    if |notes| > 0 {
      KeepIdempotent(notes[1..], q);
      var rest := Keep(notes[1..], q);
      if Matches(notes[0], q) {
        assert ([notes[0]] + rest)[1..] == rest;
      }
    }
  }

  /** `addNote`: a blank title or content changes nothing; otherwise one note is
      put in front, the draft is cleared and the form closes. */
  function AddNote(p: Page, id: string, createdAt: string): (r: Page)
    ensures AllSpace(p.draft.title, JS) || AllSpace(p.draft.content, JS) ==> r == p
    ensures !AllSpace(p.draft.title, JS) && !AllSpace(p.draft.content, JS) ==>
              && |r.notes| == |p.notes| + 1 && r.notes[1..] == p.notes
              && r.notes[0].id == id && r.notes[0].createdAt == createdAt
              && r.notes[0].title == Trim(p.draft.title, JS) && r.notes[0].title != ""
              && r.notes[0].content == Trim(p.draft.content, JS) && r.notes[0].content != ""
              && r.notes[0].tags == ParseCommaList(p.draft.tags)
              && r.draft == EmptyDraft && !r.adding
  {
    var title := Trim(p.draft.title, JS);
    var content := Trim(p.draft.content, JS);
    if title == "" || content == "" then p
    else
      var note := Note(id, title, content, ParseCommaList(p.draft.tags), createdAt);
      Page([note] + p.notes, EmptyDraft, false)
  }

  /** `deleteNote(id)`: every note with that id goes, the rest stay. */
  function DeleteNote(notes: seq<Note>, id: string): (r: seq<Note>)
    ensures forall k | 0 <= k < |r| :: r[k].id != id && r[k] in notes
    ensures forall k | 0 <= k < |notes| && notes[k].id != id :: notes[k] in r
    ensures (forall k | 0 <= k < |notes| :: notes[k].id != id) ==> r == notes
  {
    if |notes| == 0 then []
    else
      var rest := DeleteNote(notes[1..], id);
      if notes[0].id == id then rest
      else
        assert [notes[0]] + notes[1..] == notes;
        [notes[0]] + rest
  }

  /** The kept notes stay in their order, each as often as it was there. */
  lemma {:induction false} DeleteNoteKeepsOrder(notes: seq<Note>, id: string)
    ensures SubseqOf(DeleteNote(notes, id), notes)
    ensures forall n: Note | n.id != id :: multiset(DeleteNote(notes, id))[n] == multiset(notes)[n]
    decreases |notes|
  {
    if |notes| > 0 {
      DeleteNoteKeepsOrder(notes[1..], id);
      var rest := DeleteNote(notes[1..], id);
      assert [notes[0]] + notes[1..] == notes;
      if notes[0].id == id {
        SubseqOfSkip(rest, notes[0], notes[1..]);
      } else {
        assert ([notes[0]] + rest)[1..] == rest;
      }
    }
  }

  /** Deleting a note just added with a fresh id restores the list. */
  lemma AddThenDelete(p: Page, id: string, createdAt: string)
    requires forall k | 0 <= k < |p.notes| :: p.notes[k].id != id
    requires !AllSpace(p.draft.title, JS) && !AllSpace(p.draft.content, JS)
    ensures DeleteNote(AddNote(p, id, createdAt).notes, id) == p.notes
  {
    var r := AddNote(p, id, createdAt);
    assert r.notes == [r.notes[0]] + p.notes;
    assert r.notes[1..] == p.notes;
  }

  /** A note just added is found by searching for its own title. */
  lemma AddedNoteIsFound(p: Page, id: string, createdAt: string)
    requires !AllSpace(p.draft.title, JS) && !AllSpace(p.draft.content, JS)
    ensures var r := AddNote(p, id, createdAt);
            r.notes[0] in Filtered(r.notes, r.notes[0].title)
  {
    var r := AddNote(p, id, createdAt);
    var t := r.notes[0].title;
    assert Lower(t) <= Lower(t)[0..];
    assert Matches(r.notes[0], Lower(t));
    assert !AllSpace(t, JS) by {
      assert IsTrimmed(t, JS) && t != "";
    }
  }

  /** `/\.pdf$/i` matches at the end of the name. */
  predicate EndsWithPdf(name: string)
  {
    |name| >= 4 && name[|name| - 4] == '.' && Lower(name[|name| - 3..]) == "pdf"
  }

  /** `name.replace(/\.pdf$/i, "")`. */
  function StripPdf(name: string): (r: string)
    ensures EndsWithPdf(name) ==> r + name[|name| - 4..] == name && |r| == |name| - 4
    ensures !EndsWithPdf(name) ==> r == name
  {
    if EndsWithPdf(name) then name[..|name| - 4] else name
  }

  /** The extension comes off whatever its case. */
  lemma StripPdfExamples(base: string)
    ensures StripPdf(base + ".pdf") == base
    ensures StripPdf(base + ".PDF") == base
    ensures StripPdf(base + ".Pdf") == base
  {
    var a := base + ".pdf";
    var b := base + ".PDF";
    var c := base + ".Pdf";
    assert a[|a| - 3..] == "pdf" && Lower("pdf") == "pdf";
    assert b[|b| - 3..] == "PDF" && Lower("PDF") == "pdf";
    assert c[|c| - 3..] == "Pdf" && Lower("Pdf") == "pdf";
    assert a[..|a| - 4] == base && b[..|b| - 4] == base && c[..|c| - 4] == base;
  }

  /** `handlePdfSelected`: no file changes nothing; a file becomes a note in
      front, titled by its name without the extension. */
  function AddPdf(notes: seq<Note>, file: Option<string>, id: string, createdAt: string): (r: seq<Note>)
    ensures file.None? ==> r == notes
    ensures file.Some? ==> |r| == |notes| + 1 && r[1..] == notes
                           && r[0] == Note(id, StripPdf(file.value), "Attached PDF: " + file.value, ["PDF"], createdAt)
  {
    match file
    case None => notes
    case Some(name) =>
      var note := Note(id, StripPdf(name), "Attached PDF: " + name, ["PDF"], createdAt);
      assert ([note] + notes)[1..] == notes;
      [note] + notes
  }

  /** An attached PDF is found by searching for "pdf": its tag says so. */
  lemma PdfNoteIsFound(notes: seq<Note>, name: string, id: string, createdAt: string)
    ensures var r := AddPdf(notes, Some(name), id, createdAt);
            r[0] in Filtered(r, "pdf")
  {
    var r := AddPdf(notes, Some(name), id, createdAt);
    var n := r[0];
    assert n.tags == ["PDF"];
    assert Join(n.tags, ",") == "PDF";
    var upper := Lower("PDF");
    assert upper == "pdf" by {
      assert upper[0] == LowerChar('P') == 'p';
      assert upper[1] == LowerChar('D') == 'd';
      assert upper[2] == LowerChar('F') == 'f';
    }
    var lower := Lower("pdf");
    assert lower == "pdf" by {
      assert lower[0] == LowerChar('p') == 'p';
      assert lower[1] == LowerChar('d') == 'd';
      assert lower[2] == LowerChar('f') == 'f';
    }
    assert "pdf" <= upper[0..];
    assert Matches(n, "pdf");
    assert !AllSpace("pdf", JS) by { assert !IsJsSpace("pdf"[0]); }
    assert Filtered(r, "pdf") == Keep(r, "pdf");
  }
}

=== FILE: progress_tracker.dfy ===
/** The student progress tracker's prediction: a weighted score from the
    previous year's marks and three lookup tables, clamped to [0, 100], with a
    grade, a verdict, four explained factors and a list of recommendations.
    Numbers are exact `real`s; the marks field arrives already read as a
    number. */
module ProgressTracker {
  import opened Common

  /** One explained factor of the score. */
  datatype Factor = Factor(factor: string, score: real, weight: string, status: string)

  datatype Prediction = Prediction(overallScore: int, grade: string, prediction: string,
                                   factors: seq<Factor>, recommendations: seq<Advice>)

  /** The fields of the form the prediction reads. */
  datatype Form = Form(department: string, currentYear: string, branch: string, previousYearMarks: string)

  /** Department difficulty, 20% of the score. */
  const DeptDifficulty: map<string, real> := map[
    "Computer Science" := 0.9, "Information Technology" := 0.85, "Electronics" := 0.8,
    "Mechanical" := 0.75, "Civil" := 0.7, "Electrical" := 0.75]

  /** Academic year multiplier, 20% of the score. */
  const YearMultiplier: map<string, real> := map[
    "1st Year" := 0.9, "2nd Year" := 0.8, "3rd Year" := 0.7, "4th Year" := 0.6]

  /** Specialisation complexity, 20% of the score. */
  const BranchComplexity: map<string, real> := map[
    "Artificial Intelligence" := 0.95, "Data Science" := 0.9, "Software Engineering" := 0.85,
    "Cybersecurity" := 0.8, "Web Development" := 0.75, "Mobile Development" := 0.75, "General" := 0.7]

  /** `table[key] || 0.7`: every listed value is non-zero, so only a missing key
      falls back. */
  function Lookup(table: map<string, real>, key: string): (v: real)
    requires forall k | k in table :: table[k] != 0.0
    ensures key in table ==> v == table[key]
    ensures key !in table ==> v == 0.7
    ensures TableScore(table, key) == v * 20.0
  {
    if key in table then table[key] else 0.7
  }

  /** A table factor: `(table[key] || 0.7) * 20`. */
  function TableScore(table: map<string, real>, key: string): real
  {
    20.0 * (if key in table && table[key] != 0.0 then table[key] else 0.7)
  }

  /** Every table value lies in [0.6, 0.95], so each table factor lies in [12, 19]. */
  predicate InRange(table: map<string, real>)
  {
    forall k | k in table :: 0.6 <= table[k] <= 0.95
  }

  lemma TablesInRange()
    ensures InRange(DeptDifficulty) && InRange(YearMultiplier) && InRange(BranchComplexity)
  {
  }

  function MarksStatus(marks: real): (s: string)
    ensures marks >= 75.0 ==> s == "Excellent"
    ensures 60.0 <= marks < 75.0 ==> s == "Good"
    ensures marks < 60.0 ==> s == "Needs Improvement"
  {
    if marks >= 75.0 then "Excellent" else if marks >= 60.0 then "Good" else "Needs Improvement"
  }

  function DeptStatus(deptScore: real): (s: string)
    ensures deptScore >= 16.0 ==> s == "High Challenge"
    ensures 14.0 <= deptScore < 16.0 ==> s == "Moderate"
    ensures deptScore < 14.0 ==> s == "Manageable"
  {
    if deptScore >= 16.0 then "High Challenge" else if deptScore >= 14.0 then "Moderate" else "Manageable"
  }

  function YearStatus(year: string): (s: string)
    ensures year == "1st Year" ==> s == "Foundation Year"
    ensures year == "4th Year" ==> s == "Final Year Pressure"
    ensures year != "1st Year" && year != "4th Year" ==> s == "Core Learning Phase"
  {
    if year == "1st Year" then "Foundation Year" else if year == "4th Year" then "Final Year Pressure" else "Core Learning Phase"
  }

  function BranchStatus(branchScore: real): (s: string)
    ensures branchScore >= 18.0 ==> s == "Highly Specialized"
    ensures 15.0 <= branchScore < 18.0 ==> s == "Specialized"
    ensures branchScore < 15.0 ==> s == "General Track"
  {
    if branchScore >= 18.0 then "Highly Specialized" else if branchScore >= 15.0 then "Specialized" else "General Track"
  }

  /** What the department factor says for each department: the table's lowest
      value and the fallback both give 14, so "Manageable" never shows. */
  lemma DeptStatusByDepartment(department: string)
    ensures var s := DeptStatus(20.0 * Lookup(DeptDifficulty, department));
            && (s == "High Challenge" <==> department in {"Computer Science", "Information Technology", "Electronics"})
            && (s == "Moderate" <==> department !in {"Computer Science", "Information Technology", "Electronics"})
            && s != "Manageable"
  {
  }

  /** What the specialisation factor says for each branch. */
  lemma BranchStatusByBranch(branch: string)
    ensures var s := BranchStatus(20.0 * Lookup(BranchComplexity, branch));
            && (s == "Highly Specialized" <==> branch in {"Artificial Intelligence", "Data Science"})
            && (s == "Specialized" <==> branch in {"Software Engineering", "Cybersecurity", "Web Development", "Mobile Development"})
            && (s == "General Track" <==> branch !in {"Artificial Intelligence", "Data Science", "Software Engineering",
                                                     "Cybersecurity", "Web Development", "Mobile Development"})
  {
  }

  /** `Math.min(Math.max(score, 0), 100)`. */
  function Clamp(x: real): (c: real)
    ensures 0.0 <= c <= 100.0
    ensures 0.0 <= x <= 100.0 ==> c == x
    ensures x < 0.0 ==> c == 0.0
    ensures x > 100.0 ==> c == 100.0
  {
    if x < 0.0 then 0.0 else if x > 100.0 then 100.0 else x
  }

  /** `Math.round`: halves round up. */
  function Round(x: real): (n: int)
    ensures x - 0.5 < n as real <= x + 0.5
  {
    (x + 0.5).Floor
  }

  function Grade(score: real): (g: string)
  {
    if score >= 85.0 then "A+" else if score >= 75.0 then "A" else if score >= 65.0 then "B+"
    else if score >= 55.0 then "B" else "C"
  }

  /** Position of a grade from the bottom, to compare grades. */
  function GradeLevel(g: string): nat
  {
    if g == "A+" then 4 else if g == "A" then 3 else if g == "B+" then 2 else if g == "B" then 1 else 0
  }

  /** A higher score never gets a lower grade. */
  lemma GradeMonotone(a: real, b: real)
    requires a <= b
    ensures GradeLevel(Grade(a)) <= GradeLevel(Grade(b))
  {
  }

  /** The grade bands: each grade is exactly one interval of scores. */
  lemma GradeBands(score: real)
    ensures Grade(score) == "A+" <==> score >= 85.0
    ensures Grade(score) == "A" <==> 75.0 <= score < 85.0
    ensures Grade(score) == "B+" <==> 65.0 <= score < 75.0
    ensures Grade(score) == "B" <==> 55.0 <= score < 65.0
    ensures Grade(score) == "C" <==> score < 55.0
  {
  }

  function Verdict(score: real): (p: string)
    ensures score >= 80.0 ==> p == "Excellent Progress Expected"
    ensures 65.0 <= score < 80.0 ==> p == "Good Progress Expected"
    ensures 50.0 <= score < 65.0 ==> p == "Moderate Progress Expected"
    ensures score < 50.0 ==> p == "Needs Additional Support"
  {
    if score >= 80.0 then "Excellent Progress Expected"
    else if score >= 65.0 then "Good Progress Expected"
    else if score >= 50.0 then "Moderate Progress Expected"
    else "Needs Additional Support"
  }

  /** The recommendation catalogue; `Wording` gives each item's text. */
  datatype Advice =
    | StudyGroups | AdvisorMeetings | Fundamentals
    | ReviewConcepts | ExtraResources
    | PracticeCoding | PersonalProjects
    | Placement | Capstone
    | ConsistentSchedule | Extracurricular

  function Wording(a: Advice): string
  {
    match a
    case StudyGroups => "Consider joining study groups for better collaboration"
    case AdvisorMeetings => "Schedule regular meetings with academic advisors"
    case Fundamentals => "Focus on building strong fundamentals"
    case ReviewConcepts => "Review and strengthen concepts from previous year"
    case ExtraResources => "Utilize additional learning resources and tutorials"
    case PracticeCoding => "Practice coding regularly on platforms like LeetCode or HackerRank"
    case PersonalProjects => "Work on personal projects to build portfolio"
    case Placement => "Focus on placement preparation and interview skills"
    case Capstone => "Complete capstone project with industry relevance"
    case ConsistentSchedule => "Maintain consistent study schedule"
    case Extracurricular => "Participate in extracurricular activities for holistic development"
  }

  const LowScoreBlock: seq<Advice> := [StudyGroups, AdvisorMeetings, Fundamentals]
  const LowMarksBlock: seq<Advice> := [ReviewConcepts, ExtraResources]
  const CodingBlock: seq<Advice> := [PracticeCoding, PersonalProjects]
  const FinalYearBlock: seq<Advice> := [Placement, Capstone]
  const Closing: seq<Advice> := [ConsistentSchedule, Extracurricular]

  predicate Computing(department: string)
  {
    department == "Computer Science" || department == "Information Technology"
  }

  /** A block that is present only when its condition holds. */
  function Block(cond: bool, xs: seq<Advice>): (r: seq<Advice>)
    ensures forall x :: x in r <==> cond && x in xs
    ensures |r| == if cond then |xs| else 0
  {
    if cond then xs else []
  }

  /** `generateRecommendations(score, data)`: the conditional blocks in their
      fixed order, then the two closing items; that is, exactly the catalogue
      items whose condition holds, each once, in catalogue order. */
  function Recommendations(score: real, marks: real, department: string, year: string): (r: seq<Advice>)
    ensures |r| == (if score < 60.0 then 3 else 0) + (if marks < 70.0 then 2 else 0)
                 + (if Computing(department) then 2 else 0) + (if year == "4th Year" then 2 else 0) + 2
    ensures r[|r| - 2..] == Closing
    ensures score < 60.0 ==> r[..3] == LowScoreBlock
    ensures Ascending(r)
    ensures forall a :: a in r <==> Applies(a, score, marks, department, year)
  {
    var low := score < 60.0;
    var weak := marks < 70.0;
    var coding := Computing(department);
    var last := year == "4th Year";
    var r := Block(low, LowScoreBlock) + Block(weak, LowMarksBlock) + Block(coding, CodingBlock)
             + Block(last, FinalYearBlock) + Closing;
    assert r[|r| - 2..] == Closing;
    assert low ==> r[..3] == LowScoreBlock;
    AssembledAscending(low, weak, coding, last);
    AssembledMembers(low, weak, coding, last);
    r
  }

  /** Each conditional block is present exactly when its condition holds. */
  lemma RecommendationsMention(score: real, marks: real, department: string, year: string)
    ensures var r := Recommendations(score, marks, department, year);
            && (StudyGroups in r <==> score < 60.0)
            && (ReviewConcepts in r <==> marks < 70.0)
            && (PracticeCoding in r <==> Computing(department))
            && (Placement in r <==> year == "4th Year")
  {
    var r := Recommendations(score, marks, department, year);
    assert StudyGroups in r <==> Applies(StudyGroups, score, marks, department, year);
    assert ReviewConcepts in r <==> Applies(ReviewConcepts, score, marks, department, year);
    assert PracticeCoding in r <==> Applies(PracticeCoding, score, marks, department, year);
    assert Placement in r <==> Applies(Placement, score, marks, department, year);
  }

  /** The catalogue in the order `generateRecommendations` pushes its items. */
  function Rank(a: Advice): nat
  {
    match a
    case StudyGroups => 0 case AdvisorMeetings => 1 case Fundamentals => 2
    case ReviewConcepts => 3 case ExtraResources => 4
    case PracticeCoding => 5 case PersonalProjects => 6
    case Placement => 7 case Capstone => 8
    case ConsistentSchedule => 9 case Extracurricular => 10
  }

  /** The condition under which an item is pushed, given the four block
      conditions. */
  predicate AppliesWhen(a: Advice, low: bool, weak: bool, coding: bool, last: bool)
  {
    match a
    case StudyGroups | AdvisorMeetings | Fundamentals => low
    case ReviewConcepts | ExtraResources => weak
    case PracticeCoding | PersonalProjects => coding
    case Placement | Capstone => last
    case ConsistentSchedule | Extracurricular => true
  }

  predicate Applies(a: Advice, score: real, marks: real, department: string, year: string)
  {
    AppliesWhen(a, score < 60.0, marks < 70.0, Computing(department), year == "4th Year")
  }

  /** Items in strictly increasing catalogue order, so also without repeats. */
  predicate Ascending(xs: seq<Advice>)
  {
    forall i, j | 0 <= i < j < |xs| :: Rank(xs[i]) < Rank(xs[j])
  }

  predicate RanksWithin(xs: seq<Advice>, lo: nat, hi: nat)
  {
    forall i | 0 <= i < |xs| :: lo <= Rank(xs[i]) < hi
  }

  lemma AscendingConcat(xs: seq<Advice>, ys: seq<Advice>, lo: nat, mid: nat, hi: nat)
    requires lo <= mid <= hi
    requires Ascending(xs) && RanksWithin(xs, lo, mid)
    requires Ascending(ys) && RanksWithin(ys, mid, hi)
    ensures Ascending(xs + ys) && RanksWithin(xs + ys, lo, hi)
  {
    var zs := xs + ys;
    forall i, j | 0 <= i < j < |zs|
      ensures Rank(zs[i]) < Rank(zs[j])
    {
      if j < |xs| {
        assert zs[i] == xs[i] && zs[j] == xs[j];
      } else if i >= |xs| {
        assert zs[i] == ys[i - |xs|] && zs[j] == ys[j - |xs|];
      } else {
        assert zs[i] == xs[i] && zs[j] == ys[j - |xs|];
      }
    }
    forall i | 0 <= i < |zs|
      ensures lo <= Rank(zs[i]) < hi
    {
      if i < |xs| { assert zs[i] == xs[i]; } else { assert zs[i] == ys[i - |xs|]; }
    }
  }

  lemma BlockAscending(cond: bool, xs: seq<Advice>, lo: nat, hi: nat)
    requires Ascending(xs) && RanksWithin(xs, lo, hi)
    ensures Ascending(Block(cond, xs)) && RanksWithin(Block(cond, xs), lo, hi)
  {
  }

  /** The blocks in their order, for any outcome of the four conditions. */
  function Assembled(low: bool, weak: bool, coding: bool, last: bool): seq<Advice>
  {
    Block(low, LowScoreBlock) + Block(weak, LowMarksBlock) + Block(coding, CodingBlock)
    + Block(last, FinalYearBlock) + Closing
  }

  lemma AssembledAscending(low: bool, weak: bool, coding: bool, last: bool)
    ensures Ascending(Assembled(low, weak, coding, last))
  {
    var s := Block(low, LowScoreBlock) + Block(weak, LowMarksBlock) + Block(coding, CodingBlock)
             + Block(last, FinalYearBlock);
    UpToFinalYear(low, weak, coding, last);
    AscendingConcat(s, Closing, 0, 9, 11);
  }

  lemma UpToFinalYear(low: bool, weak: bool, coding: bool, last: bool)
    ensures var s := Block(low, LowScoreBlock) + Block(weak, LowMarksBlock) + Block(coding, CodingBlock)
                     + Block(last, FinalYearBlock);
            Ascending(s) && RanksWithin(s, 0, 9)
  {
    UpToCoding(low, weak, coding);
    BlockAscending(last, FinalYearBlock, 7, 9);
    AscendingConcat(Block(low, LowScoreBlock) + Block(weak, LowMarksBlock) + Block(coding, CodingBlock),
                    Block(last, FinalYearBlock), 0, 7, 9);
  }

  lemma UpToCoding(low: bool, weak: bool, coding: bool)
    ensures var s := Block(low, LowScoreBlock) + Block(weak, LowMarksBlock) + Block(coding, CodingBlock);
            Ascending(s) && RanksWithin(s, 0, 7)
  {
    UpToLowMarks(low, weak);
    BlockAscending(coding, CodingBlock, 5, 7);
    AscendingConcat(Block(low, LowScoreBlock) + Block(weak, LowMarksBlock), Block(coding, CodingBlock), 0, 5, 7);
  }

  lemma UpToLowMarks(low: bool, weak: bool)
    ensures var s := Block(low, LowScoreBlock) + Block(weak, LowMarksBlock);
            Ascending(s) && RanksWithin(s, 0, 5)
  {
    BlockAscending(low, LowScoreBlock, 0, 3);
    BlockAscending(weak, LowMarksBlock, 3, 5);
    AscendingConcat(Block(low, LowScoreBlock), Block(weak, LowMarksBlock), 0, 3, 5);
  }

  lemma AssembledMembers(low: bool, weak: bool, coding: bool, last: bool)
    ensures forall x :: x in Assembled(low, weak, coding, last) <==> AppliesWhen(x, low, weak, coding, last)
  {
    var a, b := Block(low, LowScoreBlock), Block(weak, LowMarksBlock);
    var c, d := Block(coding, CodingBlock), Block(last, FinalYearBlock);
    forall x
      ensures x in Assembled(low, weak, coding, last) <==> AppliesWhen(x, low, weak, coding, last)
    {
      InFive(a, b, c, d, Closing, x);
      AppliesWhenBlocks(x, low, weak, coding, last);
    }
  }

  lemma InFive(a: seq<Advice>, b: seq<Advice>, c: seq<Advice>, d: seq<Advice>, e: seq<Advice>, x: Advice)
    ensures x in a + b + c + d + e <==> x in a || x in b || x in c || x in d || x in e
  {
  }

  /** An item applies exactly when it is in a block whose condition holds. */
  lemma AppliesWhenBlocks(x: Advice, low: bool, weak: bool, coding: bool, last: bool)
    ensures AppliesWhen(x, low, weak, coding, last)
            <==> (low && x in LowScoreBlock) || (weak && x in LowMarksBlock) || (coding && x in CodingBlock)
                 || (last && x in FinalYearBlock) || x in Closing
  {
  }

  /** The raw weighted sum before clamping. */
  function RawScore(marks: real, department: string, year: string, branch: string): (s: real)
    ensures s == marks / 100.0 * 40.0 + 20.0 * Lookup(DeptDifficulty, department)
               + 20.0 * Lookup(YearMultiplier, year) + 20.0 * Lookup(BranchComplexity, branch)
  {
    var marksScore := marks / 100.0 * 40.0;
    var deptScore := Lookup(DeptDifficulty, department) * 20.0;
    var yearScore := Lookup(YearMultiplier, year) * 20.0;
    var branchScore := Lookup(BranchComplexity, branch) * 20.0;
    marksScore + deptScore + yearScore + branchScore
  }

  /** `calculateProgressPrediction(data)`, where `marks` is the numeric value of
      `data.previousYearMarks`. */
  function Predict(form: Form, marks: real): (p: Prediction)
    ensures 0 <= p.overallScore <= 100
    ensures |p.factors| == 4
    ensures p.factors[0].factor == "Previous Year Performance" && p.factors[0].weight == "40%"
    ensures p.factors[1].factor == "Department Complexity" && p.factors[1].weight == "20%"
    ensures p.factors[2].factor == "Academic Year Difficulty" && p.factors[2].weight == "20%"
    ensures p.factors[3].factor == "Specialization Complexity" && p.factors[3].weight == "20%"
    ensures p.factors[0].score == marks / 100.0 * 40.0 && p.factors[0].status == MarksStatus(marks)
    ensures p.factors[1].score == TableScore(DeptDifficulty, form.department)
            && p.factors[1].status == DeptStatus(p.factors[1].score)
    ensures p.factors[2].score == TableScore(YearMultiplier, form.currentYear)
            && p.factors[2].status == YearStatus(form.currentYear)
    ensures p.factors[3].score == TableScore(BranchComplexity, form.branch)
            && p.factors[3].status == BranchStatus(p.factors[3].score)
    ensures p.factors[0].score + p.factors[1].score + p.factors[2].score + p.factors[3].score
            == RawScore(marks, form.department, form.currentYear, form.branch)
    ensures var f := Clamp(RawScore(marks, form.department, form.currentYear, form.branch));
            p.grade == Grade(f) && p.prediction == Verdict(f)
            && p.recommendations == Recommendations(f, marks, form.department, form.currentYear)
            && f - 0.5 < p.overallScore as real <= f + 0.5
  {
    var raw := RawScore(marks, form.department, form.currentYear, form.branch);
    var final := Clamp(raw);
    var overall := Round(final);
    assert -0.5 < overall as real <= 100.5;
    Prediction(overall, Grade(final), Verdict(final), Factors(form, marks),
               Recommendations(final, marks, form.department, form.currentYear))
  }

  /** The four explained factors, in the order they are pushed. */
  function Factors(form: Form, marks: real): (fs: seq<Factor>)
    ensures |fs| == 4
    ensures fs[0].factor == "Previous Year Performance" && fs[0].weight == "40%"
    ensures fs[1].factor == "Department Complexity" && fs[1].weight == "20%"
    ensures fs[2].factor == "Academic Year Difficulty" && fs[2].weight == "20%"
    ensures fs[3].factor == "Specialization Complexity" && fs[3].weight == "20%"
    ensures fs[0].score == marks / 100.0 * 40.0 && fs[0].status == MarksStatus(marks)
    ensures fs[1].score == TableScore(DeptDifficulty, form.department) && fs[1].status == DeptStatus(fs[1].score)
    ensures fs[2].score == TableScore(YearMultiplier, form.currentYear) && fs[2].status == YearStatus(form.currentYear)
    ensures fs[3].score == TableScore(BranchComplexity, form.branch) && fs[3].status == BranchStatus(fs[3].score)
    ensures fs[0].score + fs[1].score + fs[2].score + fs[3].score
            == RawScore(marks, form.department, form.currentYear, form.branch)
  {
    var marksScore := marks / 100.0 * 40.0;
    var deptScore := TableScore(DeptDifficulty, form.department);
    var yearScore := TableScore(YearMultiplier, form.currentYear);
    var branchScore := TableScore(BranchComplexity, form.branch);
    [Factor("Previous Year Performance", marksScore, "40%", MarksStatus(marks)),
     Factor("Department Complexity", deptScore, "20%", DeptStatus(deptScore)),
     Factor("Academic Year Difficulty", yearScore, "20%", YearStatus(form.currentYear)),
     Factor("Specialization Complexity", branchScore, "20%", BranchStatus(branchScore))]
  }

  /** With marks in [0, 100] the raw score already lies in [36, 97], so the
      clamp never acts. */
  lemma RawScoreBounds(marks: real, department: string, year: string, branch: string)
    requires 0.0 <= marks <= 100.0
    ensures 36.0 <= RawScore(marks, department, year, branch) <= 97.0
    ensures Clamp(RawScore(marks, department, year, branch)) == RawScore(marks, department, year, branch)
  {
    TablesInRange();
    var d := Lookup(DeptDifficulty, department);
    var y := Lookup(YearMultiplier, year);
    var b := Lookup(BranchComplexity, branch);
    assert 0.6 <= d <= 0.95 && 0.6 <= y <= 0.95 && 0.6 <= b <= 0.95;
  }

  /** Higher marks never lower the prediction's score. */
  lemma MarksMonotone(form: Form, m1: real, m2: real)
    requires m1 <= m2
    ensures Predict(form, m1).overallScore <= Predict(form, m2).overallScore
  {
    var r1 := RawScore(m1, form.department, form.currentYear, form.branch);
    var r2 := RawScore(m2, form.department, form.currentYear, form.branch);
    assert r1 <= r2;
    assert Clamp(r1) <= Clamp(r2);
  }

  /** What the page holds: the saved record with its prediction, and whether
      the form is open for editing. */
  datatype Tracker = Tracker(saved: Option<(Form, Prediction)>, editing: bool)

  /** `handleSave`: a missing department, year or marks field rejects the save
      (an alert, nothing else); otherwise the prediction is stored and editing
      ends. */
  function Save(t: Tracker, form: Form, marks: real): (r: Tracker)
    ensures form.department == "" || form.currentYear == "" || form.previousYearMarks == "" ==> r == t
    ensures form.department != "" && form.currentYear != "" && form.previousYearMarks != "" ==>
              !r.editing && r.saved == Some((form, Predict(form, marks)))
  {
    if form.department == "" || form.currentYear == "" || form.previousYearMarks == "" then t
    else Tracker(Some((form, Predict(form, marks))), false)
  }
}

=== FILE: quizzes_page.dfy ===
/** The quiz page: a Fisher-Yates shuffle of the sample questions, answer
    recording, navigation, scoring and restart. Each `Math.random()` draw is a
    real in [0, 1) handed in. */
module QuizzesPage {

  datatype Question = Question(id: string, text: string, options: seq<string>, correctIndex: int)

  datatype Quiz = Quiz(questions: seq<Question>, current: int, answers: map<string, int>, submitted: bool)

  const SampleQuestions: seq<Question> := [
    Question("q1", "What is the time complexity of binary search?",
             ["O(n)", "O(log n)", "O(n log n)", "O(1)"], 1),
    Question("q2", "Which normal form removes transitive dependency?",
             ["1NF", "2NF", "3NF", "BCNF"], 2),
    Question("q3", "Round Robin is best suited for?",
             ["Batch systems", "Real-time systems", "Time-sharing systems", "Embedded systems"], 2)]

  /** `Math.floor(Math.random() * (i + 1))`: an index in [0, i]. */
  function Pick(draw: real, i: nat): (j: nat)
    requires 0.0 <= draw < 1.0
    ensures j <= i
  {
    var x := draw * (i + 1) as real;
    var n := (i + 1) as real;
    assert 0.0 <= x < n by {
      assert n - x == (1.0 - draw) * n;
      assert (1.0 - draw) * n > 0.0;
    }
    x.Floor
  }

  /** `shuffle(array)`: swaps from the last index down, each with an index
      drawn from the positions not yet fixed. `draws[i]` is the draw made when
      fixing position `i`. The input is copied, never changed. */
  method Shuffle<T>(xs: seq<T>, draws: seq<real>) returns (a: seq<T>)
    requires |draws| >= |xs|
    requires forall k | 0 <= k < |draws| :: 0.0 <= draws[k] < 1.0
    ensures |a| == |xs|
    ensures multiset(a) == multiset(xs)
  {
    a := xs;
    var i := |a| - 1;
    while i > 0
      invariant -1 <= i < |a|
      invariant |a| == |xs|
      invariant multiset(a) == multiset(xs)
      decreases i
    {
      var j := Pick(draws[i], i);
      a := a[i := a[j]][j := a[i]];
      i := i - 1;
    }
  }

  /** The `score` memo: zero before submitting; afterwards the questions whose
      recorded answer is their correct index. An unanswered question never
      counts, because an absent answer is `undefined`. */
  function Score(q: Quiz): (n: nat)
    ensures n <= |q.questions|
    ensures !q.submitted ==> n == 0
  {
    if !q.submitted then 0 else CountCorrect(q.questions, q.answers)
  }

  predicate Correct(question: Question, answers: map<string, int>)
  {
    question.id in answers && answers[question.id] == question.correctIndex
  }

  function CountCorrect(qs: seq<Question>, answers: map<string, int>): (n: nat)
    ensures n <= |qs|
    ensures n == |qs| <==> forall k | 0 <= k < |qs| :: Correct(qs[k], answers)
    ensures n == 0 <==> forall k | 0 <= k < |qs| :: !Correct(qs[k], answers)
  {
    if |qs| == 0 then 0
    else
      var rest := CountCorrect(qs[1..], answers);
      assert forall k | 1 <= k < |qs| :: qs[1..][k - 1] == qs[k];
      (if Correct(qs[0], answers) then 1 else 0) + rest
  }

  /** The count does not depend on the order the questions were shuffled into. */
  lemma {:induction false} CountCorrectPermutation(qs: seq<Question>, ps: seq<Question>, answers: map<string, int>)
    requires multiset(qs) == multiset(ps)
    ensures CountCorrect(qs, answers) == CountCorrect(ps, answers)
    decreases |qs|
  {
    if |qs| > 0 {
      var x := qs[0];
      assert x in multiset(qs);
      var i :| 0 <= i < |ps| && ps[i] == x;
      var rest := ps[..i] + ps[i + 1..];
      MultisetRemove(ps, i);
      assert qs == [x] + qs[1..];
      assert multiset(qs[1..]) == multiset(rest);
      CountCorrectPermutation(qs[1..], rest, answers);
      CountCorrectRemove(ps, i, answers);
    }
  }

  lemma MultisetRemove<T>(ps: seq<T>, i: nat)
    requires i < |ps|
    ensures multiset(ps[..i] + ps[i + 1..]) == multiset(ps) - multiset{ps[i]}
  {
    assert ps == ps[..i] + [ps[i]] + ps[i + 1..];
  }

  /** Taking one question out lowers the count by that question's share. */
  lemma {:induction false} CountCorrectRemove(ps: seq<Question>, i: nat, answers: map<string, int>)
    requires i < |ps|
    ensures CountCorrect(ps, answers)
         == (if Correct(ps[i], answers) then 1 else 0) + CountCorrect(ps[..i] + ps[i + 1..], answers)
    decreases i
  {
    var rest := ps[..i] + ps[i + 1..];
    if i > 0 {
      var tail := ps[1..];
      CountCorrectRemove(tail, i - 1, answers);
      assert tail[i - 1] == ps[i];
      assert rest[0] == ps[0];
      assert rest[1..] == tail[..i - 1] + tail[i..];
      assert CountCorrect(ps, answers) == (if Correct(ps[0], answers) then 1 else 0) + CountCorrect(tail, answers);
      assert CountCorrect(rest, answers) == (if Correct(ps[0], answers) then 1 else 0) + CountCorrect(rest[1..], answers);
    } else {
      assert rest == ps[1..];
    }
  }

  /** `handleSelect(idx)`: records the answer for the question on screen and
      for no other. */
  function Select(q: Quiz, idx: int): (r: Quiz)
    requires 0 <= q.current < |q.questions|
    ensures r.questions == q.questions && r.current == q.current && r.submitted == q.submitted
    ensures var id := q.questions[q.current].id;
            id in r.answers && r.answers[id] == idx
            && r.answers.Keys == q.answers.Keys + {id}
            && forall other | other in q.answers && other != id :: r.answers[other] == q.answers[other]
  {
    var id := q.questions[q.current].id;
    q.(answers := q.answers[id := idx])
  }

  /** `next`: `Math.min(c + 1, questions.length - 1)`. */
  function Next(q: Quiz): (r: Quiz)
    ensures r.questions == q.questions && r.answers == q.answers && r.submitted == q.submitted
    ensures 0 <= q.current < |q.questions| ==> 0 <= r.current < |q.questions|
    ensures 0 <= q.current < |q.questions| - 1 ==> r.current == q.current + 1
    ensures q.current == |q.questions| - 1 ==> r.current == q.current
  {
    var c := q.current + 1;
    q.(current := if c < |q.questions| - 1 then c else |q.questions| - 1)
  }

  /** `prev`: `Math.max(c - 1, 0)`. */
  function Prev(q: Quiz): (r: Quiz)
    ensures r.questions == q.questions && r.answers == q.answers && r.submitted == q.submitted
    ensures 0 <= q.current < |q.questions| ==> 0 <= r.current < |q.questions|
    ensures 0 < q.current ==> r.current == q.current - 1
    ensures q.current <= 0 ==> r.current == 0
  {
    var c := q.current - 1;
    q.(current := if c > 0 then c else 0)
  }

  /** Going forward then back returns to the same question, except from the last. */
  lemma NextThenPrev(q: Quiz)
    requires 0 <= q.current < |q.questions| - 1
    ensures Prev(Next(q)) == q
  {
  }

  function Submit(q: Quiz): (r: Quiz)
    ensures r.submitted && Score(r) == CountCorrect(q.questions, q.answers)
    ensures r.questions == q.questions && r.current == q.current && r.answers == q.answers
  {
    q.(submitted := true)
  }

  /** `restart`: a fresh shuffle of the sample, the first question, no answers,
      not submitted. */
  method Restart(draws: seq<real>) returns (r: Quiz)
    requires |draws| >= |SampleQuestions|
    requires forall k | 0 <= k < |draws| :: 0.0 <= draws[k] < 1.0
    ensures r.current == 0 && r.answers == map[] && !r.submitted
    ensures multiset(r.questions) == multiset(SampleQuestions)
    ensures Score(r) == 0
  {
    var qs := Shuffle(SampleQuestions, draws);
    r := Quiz(qs, 0, map[], false);
  }

  /** Whatever the shuffle, all three sample questions answered right score 3. */
  lemma PerfectSampleScore(q: Quiz)
    requires multiset(q.questions) == multiset(SampleQuestions) && q.submitted
    requires q.answers == map["q1" := 1, "q2" := 2, "q3" := 2]
    ensures Score(q) == 3
  {
    CountCorrectPermutation(q.questions, SampleQuestions, q.answers);
    assert Correct(SampleQuestions[0], q.answers);
    assert Correct(SampleQuestions[1], q.answers);
    assert Correct(SampleQuestions[2], q.answers);
  }
}

=== FILE: rag_responses.dfy ===
/** The two `generate_simple_response` wrappers around the keyword search: the
    sample-content script puts one bullet dash before the result, the PDF script
    prefixes a heading or reports an unreadable document. The document text is
    a parameter: loading the sample or the PDF is not modelled. */
module RagResponses {
  import opened Text
  import opened KeywordSearch

  const AccessPrefix: String := "Sorry, I couldn't access the document: "
  const FoundHeading: String := "Based on the document, here's what I found:\n\n"

  /** The re-split and bullet loop of the sample-content script: each stripped
      piece longer than ten characters becomes `- ` and the piece. */
  function BulletPieces(pieces: seq<String>): (bs: seq<String>)
    ensures |bs| <= |pieces|
  {
    if |pieces| == 0 then [] else BulletOf(pieces[0]) + BulletPieces(pieces[1..])
  }

  /** What the loop pushes for one piece. */
  function BulletOf(p: String): seq<String>
  {
    var t := Trim(p, Python);
    if t != "" && |t| > 10 then ["- " + t] else []
  }

  /** `generate_simple_response` of the sample-content script. */
  function WorkingResponse(query: String, content: String): (r: String)
    ensures NothingMatches(query, content) ==> r == NotFound
    ensures !NothingMatches(query, content) ==>
              var found := SimpleSearch(query, content);
              r == if |found| > 10 then "- " + found else NotFound
  {
    var found := SimpleSearch(query, content);
    if found == NotFound then found
    else
      var bullets := BulletPieces(SplitMarks(found));
      SearchIsTrimmed(query, content);
      SplitMarksNoMark(found);
      TrimmedIsFixed(found, Python);
      assert bullets == (if |found| > 10 then ["- " + found] else []);
      if |bullets| > 0 then Join(bullets, "\n") else NotFound
  }

  /** `generate_simple_response` of the PDF script, given the loaded text. */
  function PdfResponse(query: String, content: String): (r: String)
    ensures StartsWith(content, "Error") || StartsWith(content, "PDF file not found") ==> r == AccessPrefix + content
    ensures !StartsWith(content, "Error") && !StartsWith(content, "PDF file not found") ==>
              (r == NotFound <==> NothingMatches(query, content))
    ensures !StartsWith(content, "Error") && !StartsWith(content, "PDF file not found") && !NothingMatches(query, content) ==>
              |r| > |FoundHeading| && r[..|FoundHeading|] == FoundHeading
              && r[|FoundHeading|..] == SimpleSearch(query, content)
  {
    if StartsWith(content, "Error") || StartsWith(content, "PDF file not found") then AccessPrefix + content
    else
      var found := SimpleSearch(query, content);
      if found == NotFound then found
      else
        SearchIsTrimmed(query, content);
        HeadedIsFound(found);
        FoundHeading + found
  }

  /** The not-found sentence ends with a full stop, a headed result does not. */
  lemma HeadedIsFound(found: String)
    requires found != [] && NoMark(found)
    ensures FoundHeading + found != NotFound
  {
    var h := FoundHeading + found;
    assert h[|h| - 1] == found[|found| - 1];
    NotFoundHasMark();
  }

  /** An exactly ten-character single hit is reported as not found by the
      sample-content script: its bullet filter wants more than ten characters
      while the search keeps sentences of ten or more. */
  lemma TenCharacterHitIsDropped(query: String, content: String)
    ensures !NothingMatches(query, content) && |SimpleSearch(query, content)| == 10
            ==> WorkingResponse(query, content) == NotFound
  {
  }

  /** A found result longer than ten characters reaches the user as `- `
      followed by the whole result: a second or third hit stays on its own
      line without a dash. */
  lemma WorkingResponseBulletsWholeResult(query: String, content: String)
    ensures !NothingMatches(query, content) && |SimpleSearch(query, content)| > 10 ==>
            var r := WorkingResponse(query, content);
            |r| >= 2 && r[..2] == "- " && r[2..] == SimpleSearch(query, content)
  {
  }

  /** As written, two hits joined by the search get one dash between them:
      the re-split at `[.!?]+` finds no mark left in the result. */
  lemma TwoHitsOneBullet(query: String, content: String, s1: String, s2: String)
    ensures !NothingMatches(query, content) && SimpleSearch(query, content) == s1 + "\n" + s2 && |s1| > 10 ==>
            WorkingResponse(query, content) == "- " + s1 + "\n" + s2
  {
    if !NothingMatches(query, content) && SimpleSearch(query, content) == s1 + "\n" + s2 && |s1| > 10 {
      PrefixTwoLines(s1, s2);
    }
  }

  lemma PrefixTwoLines(s1: String, s2: String)
    ensures "- " + (s1 + "\n" + s2) == "- " + s1 + "\n" + s2
  {
  }

  /** Bullets made from pieces without newlines have none either. */
  lemma {:induction false} BulletLines(pieces: seq<String>)
    requires forall k | 0 <= k < |pieces| :: '\n' !in pieces[k]
    ensures forall k | 0 <= k < |BulletPieces(pieces)| ::
              StartsWith(BulletPieces(pieces)[k], "- ") && '\n' !in BulletPieces(pieces)[k]
    decreases |pieces|
  {
    if |pieces| > 0 {
      BulletLines(pieces[1..]);
      var t := Trim(pieces[0], Python);
      assert '\n' !in "- " + t;
    }
  }

  /** The evident intent of the sample-content script: each sentence the
      search kept (one per line of its result) becomes its own bullet. The
      split is at newlines rather than at `[.!?]+`: the search result has no
      such mark (`SimpleSearch`'s `NoMark` ensures) and joins its hits with
      newlines, so the newline pieces are the sentences it kept. */
  function SentenceBulletsResponse(query: String, content: String): (r: String)
    ensures NothingMatches(query, content) ==> r == NotFound
    ensures r != NotFound ==> forall line | line in Split(r, '\n') :: StartsWith(line, "- ")
    ensures r != NotFound ==> Split(r, '\n') == BulletPieces(Split(SimpleSearch(query, content), '\n'))
  {
    var found := SimpleSearch(query, content);
    if found == NotFound then found
    else
      var bullets := BulletPieces(Split(found, '\n'));
      if |bullets| > 0 then
        BulletLines(Split(found, '\n'));
        SplitJoin(bullets, '\n');
        Join(bullets, "\n")
      else NotFound
  }

  /** On a single hit the intended reply and the written one agree. */
  lemma SentenceBulletsOneHit(query: String, content: String)
    ensures !NothingMatches(query, content) && '\n' !in SimpleSearch(query, content) ==>
            SentenceBulletsResponse(query, content) == WorkingResponse(query, content)
  {
    var found := SimpleSearch(query, content);
    if !NothingMatches(query, content) && '\n' !in found {
      SearchIsTrimmed(query, content);
      TrimmedIsFixed(found, Python);
      SplitNoSep(found, '\n');
      OneHitBullets(found);
      SentenceBulletsFound(query, content, found, BulletPieces([found]));
    }
  }

  lemma OneHitBullets(found: String)
    requires Trim(found, Python) == found
    ensures Join(BulletPieces([found]), "\n") == "- " + found || (|found| <= 10 && BulletPieces([found]) == [])
    ensures |found| > 10 <==> |BulletPieces([found])| > 0
  {
    OneHitShape(found, BulletPieces([found]));
  }

  lemma OneHitShape(found: String, bs: seq<String>)
    requires Trim(found, Python) == found && bs == BulletPieces([found])
    ensures bs == if |found| > 10 then ["- " + found] else []
  {
    BulletPiecesOne(found);
  }

  /** The intended reply unfolded on a found result. */
  lemma SentenceBulletsFound(query: String, content: String, found: String, bullets: seq<String>)
    requires !NothingMatches(query, content) && found == SimpleSearch(query, content)
    requires bullets == BulletPieces(Split(found, '\n'))
    ensures SentenceBulletsResponse(query, content) == if |bullets| > 0 then Join(bullets, "\n") else NotFound
  {
  }

  /** With two hits the intended reply bullets both sentences. */
  lemma SentenceBulletsTwoHits(query: String, content: String, s1: String, s2: String)
    ensures && !NothingMatches(query, content) && SimpleSearch(query, content) == s1 + "\n" + s2
            && IsTrimmed(s1, Python) && IsTrimmed(s2, Python) && '\n' !in s1 && '\n' !in s2
            && |s1| > 10 && |s2| > 10
            ==> SentenceBulletsResponse(query, content) == "- " + s1 + "\n" + "- " + s2
  {
    if && !NothingMatches(query, content) && SimpleSearch(query, content) == s1 + "\n" + s2
       && IsTrimmed(s1, Python) && IsTrimmed(s2, Python) && '\n' !in s1 && '\n' !in s2
       && |s1| > 10 && |s2| > 10 {
      TwoLines(s1, s2);
      TrimmedIsFixed(s1, Python);
      TrimmedIsFixed(s2, Python);
      TwoBullets(s1, s2);
    }
  }

  lemma TwoLines(s1: String, s2: String)
    requires '\n' !in s1 && '\n' !in s2
    ensures Split(s1 + "\n" + s2, '\n') == [s1, s2]
  {
    assert Join([s1, s2], "\n") == s1 + "\n" + s2;
    SplitJoin([s1, s2], '\n');
  }

  lemma TwoBullets(s1: String, s2: String)
    requires Trim(s1, Python) == s1 && Trim(s2, Python) == s2 && |s1| > 10 && |s2| > 10
    ensures Join(BulletPieces([s1, s2]), "\n") == "- " + s1 + "\n" + "- " + s2
  {
    assert [s1, s2][1..] == [s2];
    assert BulletPieces([s2]) == ["- " + s2];
    assert BulletPieces([s1, s2]) == ["- " + s1, "- " + s2];
  }

  /** Every hit the search kept, as its own bullet. */
  function Dashed(hs: seq<String>): (ds: seq<String>)
    ensures |ds| == |hs|
    ensures forall k | 0 <= k < |hs| :: StartsWith(ds[k], "- ") && ds[k][2..] == hs[k]
  {
    seq(|hs|, k requires 0 <= k < |hs| => "- " + hs[k])
  }

  /** The bullet loop treats the pieces one at a time, in order. */
  lemma BulletPiecesAppend(a: seq<String>, b: seq<String>)
    ensures BulletPieces(a + b) == BulletPieces(a) + BulletPieces(b)
  {
    BulletPiecesIsFlat(a);
    BulletPiecesIsFlat(b);
    BulletPiecesIsFlat(a + b);
    FlatMapAppend(a, b, BulletOf);
  }

  /** Each element's outputs, concatenated in order. */
  function FlatMap<T, U>(xs: seq<T>, f: T -> seq<U>): seq<U>
  {
    if |xs| == 0 then [] else f(xs[0]) + FlatMap(xs[1..], f)
  }

  lemma {:induction false} FlatMapAppend<T, U>(a: seq<T>, b: seq<T>, f: T -> seq<U>)
    ensures FlatMap(a + b, f) == FlatMap(a, f) + FlatMap(b, f)
    decreases |a|
  {
    if |a| == 0 {
      assert a + b == b;
    } else {
      FlatMapAppend(a[1..], b, f);
      assert (a + b)[1..] == a[1..] + b;
    }
  }

  lemma {:induction false} BulletPiecesIsFlat(pieces: seq<String>)
    ensures BulletPieces(pieces) == FlatMap(pieces, BulletOf)
    decreases |pieces|
  {
    if |pieces| > 0 {
      BulletPiecesIsFlat(pieces[1..]);
    }
  }

  /** One piece becomes `- ` and the stripped piece exactly when the stripped
      piece is longer than ten characters, and nothing otherwise. */
  lemma BulletPiecesOne(p: String)
    ensures BulletPieces([p]) == if |Trim(p, Python)| > 10 then ["- " + Trim(p, Python)] else []
  {
    assert [p][1..] == [];
  }

  /** Hits that are already stripped and longer than ten characters each
      become a bullet, in order. */
  lemma {:induction false} BulletPiecesOfHits(hs: seq<String>)
    requires forall k | 0 <= k < |hs| :: Trim(hs[k], Python) == hs[k] && |hs[k]| > 10
    ensures BulletPieces(hs) == Dashed(hs)
    decreases |hs|
  {
    if |hs| > 0 {
      BulletPiecesOfHits(hs[1..]);
      OneHitShape(hs[0], BulletPieces([hs[0]]));
      BulletPiecesAppend([hs[0]], hs[1..]);
      assert [hs[0]] + hs[1..] == hs;
      DashedCons(hs);
    }
  }

  lemma DashedCons(hs: seq<String>)
    requires |hs| > 0
    ensures Dashed(hs) == ["- " + hs[0]] + Dashed(hs[1..])
  {
  }

  /** Any number of hits, the three of a typical search included: the
      intended reply puts every hit on its own bullet line. */
  lemma SentenceBulletsHits(query: String, content: String, hs: seq<String>)
    ensures && !NothingMatches(query, content) && SimpleSearch(query, content) == Join(hs, "\n") && |hs| > 0
            && (forall k | 0 <= k < |hs| :: IsTrimmed(hs[k], Python) && '\n' !in hs[k] && |hs[k]| > 10)
            ==> SentenceBulletsResponse(query, content) == Join(Dashed(hs), "\n")
  {
    if && !NothingMatches(query, content) && SimpleSearch(query, content) == Join(hs, "\n") && |hs| > 0
       && (forall k | 0 <= k < |hs| :: IsTrimmed(hs[k], Python) && '\n' !in hs[k] && |hs[k]| > 10) {
      HitsSplit(hs);
      forall k | 0 <= k < |hs|
        ensures Trim(hs[k], Python) == hs[k]
      {
        TrimmedIsFixed(hs[k], Python);
      }
      BulletPiecesOfHits(hs);
      SentenceBulletsFound(query, content, Join(hs, "\n"), Dashed(hs));
    }
  }

  lemma HitsSplit(hs: seq<String>)
    requires |hs| > 0 && forall k | 0 <= k < |hs| :: '\n' !in hs[k]
    ensures Split(Join(hs, "\n"), '\n') == hs
  {
    assert "\n" == ['\n'];
    SplitJoin(hs, '\n');
  }
}

=== FILE: settings_page.dfy ===
/** The settings page: its eight settings, the load, import and reset rules,
    the record written to storage, and the two effects that persist the
    settings and apply the theme and root font size after a render. A value
    read from JSON may be of any type, so the five free-form settings are
    `Json`; only `compactSidebar` is always coerced to a boolean. */
module SettingsPage {
  import opened Common
  import opened JsValue

  datatype Settings = Settings(
    theme: Json, notifications: Json, model: Json, language: Json, fontSize: Json,
    compactSidebar: bool, autosaveNotes: Json, privacyAnalytics: Json)

  /** The values the page starts with and returns to on reset. */
  const Defaults: Settings :=
    Settings(JStr("dark"), JBool(true), JStr("balanced"), JStr("en"), JStr("base"),
             false, JBool(true), JBool(true))

  /** No setting holds `null`: the state the page keeps once it has loaded. */
  predicate NoNulls(s: Settings)
  {
    && s.theme != JNull && s.notifications != JNull && s.model != JNull
    && s.language != JNull && s.fontSize != JNull
    && s.autosaveNotes != JNull && s.privacyAnalytics != JNull
  }

  /** `s.key` on a parsed value; reading a property of `null` throws a
      `TypeError`, reported as `None`. */
  function Read(s: Json, key: string): (r: Option<Option<Json>>)
    ensures r.None? <==> s.JNull?
    ensures r.Some? ==> r.value == Prop(s, key)
  {
    if s.JNull? then None else Some(Prop(s, key))
  }

  /** The mount effect: nothing stored (or an empty string) keeps the current
      settings; a stored text that does not parse, or parses to `null`, throws
      out of the effect, which has no `try`; otherwise each setting is the
      stored one unless that is `null` or missing, and `compactSidebar` is the
      stored value's truthiness. */
  function Load(current: Settings, stored: Option<Parsed>): (r: Result<Settings, string>)
    ensures stored.None? ==> r == Success(current)
    ensures r.Failure? <==> stored.Some? && (stored.value.Malformed? || stored.value.value.JNull?)
    ensures stored.Some? && r.Success? ==>
              var s := stored.value.value;
              && r.value.theme == Coalesce(Prop(s, "theme"), JStr("dark"))
              && r.value.notifications == Coalesce(Prop(s, "notifications"), JBool(true))
              && r.value.model == Coalesce(Prop(s, "model"), JStr("balanced"))
              && r.value.language == Coalesce(Prop(s, "language"), JStr("en"))
              && r.value.fontSize == Coalesce(Prop(s, "fontSize"), JStr("base"))
              && r.value.compactSidebar == TruthyOpt(Prop(s, "compactSidebar"))
              && r.value.autosaveNotes == Coalesce(Prop(s, "autosaveNotes"), JBool(true))
              && r.value.privacyAnalytics == Coalesce(Prop(s, "privacyAnalytics"), JBool(true))
    ensures r.Success? ==> NoNulls(r.value) || r.value == current
  {
    match stored
    case None => Success(current)
    case Some(Malformed) => Failure("SyntaxError")
    case Some(Parsed(s)) =>
      if Read(s, "theme").None? then Failure("TypeError")
      else
        Success(Settings(
          Coalesce(Prop(s, "theme"), JStr("dark")),
          Coalesce(Prop(s, "notifications"), JBool(true)),
          Coalesce(Prop(s, "model"), JStr("balanced")),
          Coalesce(Prop(s, "language"), JStr("en")),
          Coalesce(Prop(s, "fontSize"), JStr("base")),
          TruthyOpt(Prop(s, "compactSidebar")),
          Coalesce(Prop(s, "autosaveNotes"), JBool(true)),
          Coalesce(Prop(s, "privacyAnalytics"), JBool(true))))
  }

  /** A stored `false` survives loading: `??` only replaces `null` and
      `undefined`, unlike `||`. */
  lemma StoredFalseIsKept(current: Settings, fields: map<string, Json>)
    requires "notifications" in fields && fields["notifications"] == JBool(false)
    ensures var r := Load(current, Some(Parsed(JObj(fields))));
            r.Success? && r.value.notifications == JBool(false)
  {
  }

  /** The import handler: no file, a file that does not parse, or one that
      parses to `null` leaves every setting as it was (the handler's `try`
      swallows the error before any setter runs); otherwise a setting is
      replaced only by a value that is there and not `null`, except
      `compactSidebar`, which becomes the imported value's truthiness and so
      false when the file does not mention it. */
  function Import(current: Settings, file: Option<Parsed>): (r: Settings)
    ensures file.None? || file.value.Malformed? || file.value.value.JNull? ==> r == current
    ensures file.Some? && file.value.Parsed? && !file.value.value.JNull? ==>
              var s := file.value.value;
              && r.theme == Coalesce(Prop(s, "theme"), current.theme)
              && r.notifications == Coalesce(Prop(s, "notifications"), current.notifications)
              && r.model == Coalesce(Prop(s, "model"), current.model)
              && r.language == Coalesce(Prop(s, "language"), current.language)
              && r.fontSize == Coalesce(Prop(s, "fontSize"), current.fontSize)
              && r.compactSidebar == TruthyOpt(Prop(s, "compactSidebar"))
              && r.autosaveNotes == Coalesce(Prop(s, "autosaveNotes"), current.autosaveNotes)
              && r.privacyAnalytics == Coalesce(Prop(s, "privacyAnalytics"), current.privacyAnalytics)
    ensures NoNulls(current) ==> NoNulls(r)
  {
    match file
    case None => current
    case Some(Malformed) => current
    case Some(Parsed(s)) =>
      if Read(s, "theme").None? then current
      else
        Settings(
          Coalesce(Prop(s, "theme"), current.theme),
          Coalesce(Prop(s, "notifications"), current.notifications),
          Coalesce(Prop(s, "model"), current.model),
          Coalesce(Prop(s, "language"), current.language),
          Coalesce(Prop(s, "fontSize"), current.fontSize),
          TruthyOpt(Prop(s, "compactSidebar")),
          Coalesce(Prop(s, "autosaveNotes"), current.autosaveNotes),
          Coalesce(Prop(s, "privacyAnalytics"), current.privacyAnalytics))
  }

  /** The object both persisting effects write: all eight settings, under
      their own names. */
  function Persisted(s: Settings): (v: Json)
    ensures v.JObj? && v.fields.Keys == {"theme", "notifications", "model", "language", "fontSize",
                                         "compactSidebar", "autosaveNotes", "privacyAnalytics"}
    ensures Prop(v, "theme") == Some(s.theme) && Prop(v, "notifications") == Some(s.notifications)
    ensures Prop(v, "model") == Some(s.model) && Prop(v, "language") == Some(s.language)
    ensures Prop(v, "fontSize") == Some(s.fontSize) && Prop(v, "compactSidebar") == Some(JBool(s.compactSidebar))
    ensures Prop(v, "autosaveNotes") == Some(s.autosaveNotes) && Prop(v, "privacyAnalytics") == Some(s.privacyAnalytics)
  {
    var m := map["theme" := s.theme, "notifications" := s.notifications, "model" := s.model,
                 "language" := s.language, "fontSize" := s.fontSize,
                 "compactSidebar" := JBool(s.compactSidebar),
                 "autosaveNotes" := s.autosaveNotes, "privacyAnalytics" := s.privacyAnalytics];
    JObj(m)
  }

  /** Exporting the stored record and importing it again changes nothing. */
  lemma ExportThenImport(current: Settings)
    ensures Import(current, Some(Parsed(Persisted(current)))) == current
  {
  }

  /** Reloading what was persisted gives back the same settings, as long as
      none of them is `null` (which loading would turn into its default). */
  lemma PersistThenLoad(s: Settings, other: Settings)
    requires NoNulls(s)
    ensures Load(other, Some(Parsed(Persisted(s)))) == Success(s)
  {
  }

  /** The root font size: `"sm"` is 14px, `"lg"` 18px, anything else,
      including a value that is not a string, 16px. */
  function FontSizePx(fontSize: Json): (px: nat)
    ensures px in {14, 16, 18}
    ensures px == 14 <==> fontSize == JStr("sm")
    ensures px == 18 <==> fontSize == JStr("lg")
  {
    if fontSize == JStr("sm") then 14 else if fontSize == JStr("lg") then 18 else 16
  }

  /** What the document and storage show: the settings, the root font size and
      `dark` class last applied, and the stored record (`None` once removed). */
  datatype Page = Page(settings: Settings, rootFontPx: nat, dark: bool, stored: Option<Json>)

  /** The applied font size, class and stored record all agree with the
      settings on screen. */
  predicate Consistent(p: Page)
  {
    && p.rootFontPx == FontSizePx(p.settings.fontSize)
    && p.dark == (p.settings.theme == JStr("dark"))
    && p.stored == Some(Persisted(p.settings))
  }

  /** The effects' dependency lists: which settings each effect watches. */
  datatype Watch = Watch(fontSize: bool)

  /** The dependency list as written, `[theme, notifications, model]`. */
  const AsWritten: Watch := Watch(false)

  /** The dependency list with `fontSize` added. */
  const Corrected: Watch := Watch(true)

  /** Whether the appearance effect re-runs between two renders. */
  predicate AppearanceRuns(w: Watch, before: Settings, after: Settings)
  {
    || before.theme != after.theme || before.notifications != after.notifications
    || before.model != after.model
    || (w.fontSize && before.fontSize != after.fontSize)
  }

  /** Whether the second persisting effect re-runs between two renders. */
  predicate PersistRuns(before: Settings, after: Settings)
  {
    || before.language != after.language || before.fontSize != after.fontSize
    || before.compactSidebar != after.compactSidebar
    || before.autosaveNotes != after.autosaveNotes
    || before.privacyAnalytics != after.privacyAnalytics
  }

  /** A render with new settings: each effect runs only if one of the values
      it watches changed; both write the same record, and only the appearance
      effect applies the `dark` class and the root font size. */
  function Render(w: Watch, p: Page, next: Settings): (r: Page)
    ensures r.settings == next
    ensures AppearanceRuns(w, p.settings, next) ==>
              r.rootFontPx == FontSizePx(next.fontSize) && r.dark == (next.theme == JStr("dark"))
    ensures !AppearanceRuns(w, p.settings, next) ==> r.rootFontPx == p.rootFontPx && r.dark == p.dark
    ensures AppearanceRuns(w, p.settings, next) || PersistRuns(p.settings, next) ==> r.stored == Some(Persisted(next))
    ensures !AppearanceRuns(w, p.settings, next) && !PersistRuns(p.settings, next) ==> r.stored == p.stored
  {
    var appearance := AppearanceRuns(w, p.settings, next);
    var stored := if appearance || PersistRuns(p.settings, next) then Some(Persisted(next)) else p.stored;
    if appearance then Page(next, FontSizePx(next.fontSize), next.theme == JStr("dark"), stored)
    else Page(next, p.rootFontPx, p.dark, stored)
  }

  /** The first render runs every effect, whatever its dependencies. */
  function FirstRender(s: Settings): (p: Page)
    ensures Consistent(p) && p.settings == s
  {
    Page(s, FontSizePx(s.fontSize), s.theme == JStr("dark"), Some(Persisted(s)))
  }

  /** Opening the page: the first render with the defaults, then the render
      the load effect's setters cause. */
  function Open(w: Watch, stored: Option<Parsed>): (r: Result<Page, string>)
    ensures r.Success? <==> Load(Defaults, stored).Success?
    ensures r.Success? ==> r.value.settings == Load(Defaults, stored).value
  {
    match Load(Defaults, stored)
    case Failure(e) => Failure(e)
    case Success(s) => Success(Render(w, FirstRender(Defaults), s))
  }

  /** Picking a font size in the page's select (or any other change of
      setting) as written: the new size is persisted but not applied while
      theme, notifications and model stay the same. */
  lemma FontSizeNotAppliedAsWritten(p: Page)
    requires Consistent(p) && p.settings.fontSize == JStr("base")
    ensures var r := Render(AsWritten, p, p.settings.(fontSize := JStr("lg")));
            r.stored == Some(Persisted(r.settings)) && r.rootFontPx == 16 && FontSizePx(r.settings.fontSize) == 18
  {
  }

  /** The same slip on reload: a stored large font size, with the other
      watched settings at their defaults, is loaded but never applied. */
  lemma StoredFontSizeNotAppliedAsWritten()
    ensures var r := Open(AsWritten, Some(Parsed(JObj(map["fontSize" := JStr("lg")]))));
            r.Success? && r.value.settings.fontSize == JStr("lg") && r.value.rootFontPx == 16
  {
    var v := JObj(map["fontSize" := JStr("lg")]);
    assert Prop(v, "theme").None? && Prop(v, "notifications").None? && Prop(v, "model").None?;
    assert Prop(v, "fontSize") == Some(JStr("lg"));
    var loaded := Load(Defaults, Some(Parsed(v)));
    assert loaded.Success?;
    var s := loaded.value;
    assert s.theme == Defaults.theme && s.notifications == Defaults.notifications && s.model == Defaults.model;
    assert !AppearanceRuns(AsWritten, FirstRender(Defaults).settings, s);
  }

  /** With `fontSize` among the watched values, every render keeps the
      document and storage in step with the settings. */
  lemma CorrectedRenderIsConsistent(p: Page, next: Settings)
    requires Consistent(p)
    ensures Consistent(Render(Corrected, p, next))
  {
  }

  /** Hence a page opened with the corrected dependencies shows what it loaded. */
  lemma CorrectedOpenIsConsistent(stored: Option<Parsed>)
    ensures var r := Open(Corrected, stored);
            r.Success? ==> Consistent(r.value)
  {
    if Load(Defaults, stored).Success? {
      CorrectedRenderIsConsistent(FirstRender(Defaults), Load(Defaults, stored).value);
    }
  }

  /** The reset button: the stored record is removed, all eight settings go
      back to their defaults, and the render that follows persists the
      defaults again if any setting changed. */
  function Reset(w: Watch, p: Page): (r: Page)
    ensures r.settings == Defaults
    ensures r.stored.None? || r.stored == Some(Persisted(Defaults))
  {
    Render(w, p.(stored := None), Defaults)
  }

  /** After a reset, reopening the page gives the defaults either way. */
  lemma ResetSurvivesReload(w: Watch, p: Page)
    ensures var r := Reset(w, p);
            var reloaded := if r.stored.None? then None else Some(Parsed(r.stored.value));
            Load(Defaults, reloaded) == Success(Defaults)
  {
  }
}

=== FILE: signup_page.dfy ===
/** The sign-up form's checks: the e-mail and phone validators and the ordered
    ladder of `handleSubmit`, which stops at the first failing check. The two
    regular expressions are given both as a direct scan and as the language
    the expression denotes, and the two are proved to agree. */
module SignupPage {
  import opened Common
  import opened Text

  /** `[^\s@]`. */
  predicate Plain(c: char)
  {
    !IsJsSpace(c) && c != '@'
  }

  /** `[^\s@]+`. */
  predicate Atom(s: string)
  {
    s != [] && forall k | 0 <= k < |s| :: Plain(s[k])
  }

  /** The language of `/^[^\s@]+@[^\s@]+\.[^\s@]+$/`: a local part, `@`, then a
      domain with a dot that has something on both sides. */
  predicate EmailLanguage(e: string)
  {
    exists i, j | 0 < i < j < |e| && e[i] == '@' && e[j] == '.' ::
      Atom(e[..i]) && Atom(e[i + 1..j]) && Atom(e[j + 1..])
  }

  /** Index of the first `@`, or the length when there is none. */
  function FirstAt(s: string): (i: nat)
    ensures i <= |s|
    ensures i < |s| ==> s[i] == '@'
    ensures forall k | 0 <= k < i :: s[k] != '@'
  {
    if |s| == 0 then 0
    else if s[0] == '@' then 0
    else 1 + FirstAt(s[1..])
  }

  /** Some `.` strictly inside `d` at index `p` or later. */
  predicate InnerDotFrom(d: string, p: nat)
    decreases |d| - p
  {
    p + 1 < |d| && (d[p] == '.' || InnerDotFrom(d, p + 1))
  }

  predicate AllPlain(s: string)
  {
    forall k | 0 <= k < |s| :: Plain(s[k])
  }

  /** `validateEmail`: the scan the expression amounts to. */
  predicate ValidEmail(e: string)
  {
    var i := FirstAt(e);
    0 < i < |e| && AllPlain(e[..i]) && AllPlain(e[i + 1..]) && InnerDotFrom(e[i + 1..], 1)
  }

  lemma {:induction false} InnerDotWitness(d: string, p: nat)
    requires InnerDotFrom(d, p)
    ensures exists q | p <= q && q + 1 < |d| :: d[q] == '.'
    decreases |d| - p
  {
    if d[p] != '.' {
      InnerDotWitness(d, p + 1);
    }
  }

  lemma {:induction false} InnerDotFound(d: string, p: nat, q: nat)
    requires p <= q && q + 1 < |d| && d[q] == '.'
    ensures InnerDotFrom(d, p)
    decreases q - p
  {
    if p < q && d[p] != '.' {
      InnerDotFound(d, p + 1, q);
    }
  }

  /** Every string the scan accepts is matched by the expression. */
  lemma {:induction false} ScanIsInLanguage(e: string)
    requires ValidEmail(e)
    ensures EmailLanguage(e)
  {
    var i := FirstAt(e);
    var d := e[i + 1..];
    InnerDotWitness(d, 1);
    var q :| 1 <= q && q + 1 < |d| && d[q] == '.';
    var j := i + 1 + q;
    assert e[j] == '.';
    assert Atom(e[..i]);
    assert e[i + 1..j] == d[..q];
    assert Atom(d[..q]) by {
      assert forall k | 0 <= k < q :: d[..q][k] == d[k];
    }
    assert e[j + 1..] == d[q + 1..];
    assert Atom(d[q + 1..]) by {
      var t := d[q + 1..];
      assert forall k | 0 <= k < |t| :: t[k] == d[q + 1 + k];
    }
  }

  lemma AllPlainConcat(x: string, y: string)
    requires AllPlain(x) && AllPlain(y)
    ensures AllPlain(x + y)
  {
    var xy := x + y;
    assert forall k | |x| <= k < |xy| :: xy[k] == y[k - |x|];
  }

  /** The first `@` of a matched string is the one the expression matched. */
  lemma MatchedAtIsFirst(e: string, a: nat)
    requires 0 < a < |e| && e[a] == '@' && Atom(e[..a])
    ensures FirstAt(e) == a
  {
    var i := FirstAt(e);
    assert forall k | 0 <= k < a :: e[..a][k] == e[k];
  }

  /** Every string the expression matches is accepted by the scan. */
  lemma LanguageIsScanned(e: string)
    requires EmailLanguage(e)
    ensures ValidEmail(e)
  {
    var a, b :| 0 < a < b < |e| && e[a] == '@' && e[b] == '.'
               && Atom(e[..a]) && Atom(e[a + 1..b]) && Atom(e[b + 1..]);
    MatchIsScanned(e, a, b);
  }

  /** One match of the expression, with its `@` at `a` and its dot at `b`,
      passes the scan. */
  lemma MatchIsScanned(e: string, a: nat, b: nat)
    requires 0 < a < b < |e| && e[a] == '@' && e[b] == '.'
    requires Atom(e[..a]) && Atom(e[a + 1..b]) && Atom(e[b + 1..])
    ensures ValidEmail(e)
  {
    MatchedAtIsFirst(e, a);
    var d := e[a + 1..];
    assert d == e[a + 1..b] + [e[b]] + e[b + 1..];
    AllPlainConcat(e[a + 1..b], [e[b]]);
    AllPlainConcat(e[a + 1..b] + [e[b]], e[b + 1..]);
    assert d[b - a - 1] == '.';
    InnerDotFound(d, 1, b - a - 1);
  }

  /** The scan accepts exactly the strings the expression matches. */
  lemma EmailScanIsLanguage(e: string)
    ensures ValidEmail(e) <==> EmailLanguage(e)
  {
    if ValidEmail(e) {
      ScanIsInLanguage(e);
    }
    if EmailLanguage(e) {
      LanguageIsScanned(e);
    }
  }

  /** `\d`: ASCII digits only. */
  predicate Digit(c: char)
  {
    '0' <= c <= '9'
  }

  predicate Digits(s: string)
  {
    forall k | 0 <= k < |s| :: Digit(s[k])
  }

  /** `[\s\-\(\)]`. */
  predicate Separator(c: char)
  {
    IsJsSpace(c) || c == '-' || c == '(' || c == ')'
  }

  /** `phone.replace(/[\s\-\(\)]/g, '')`. */
  function StripSeparators(s: string): (r: string)
    ensures |r| <= |s|
    ensures forall k | 0 <= k < |r| :: !Separator(r[k])
    ensures forall c | c in r :: c in s
  {
    if |s| == 0 then []
    else if Separator(s[0]) then StripSeparators(s[1..])
    else [s[0]] + StripSeparators(s[1..])
  }

  /** One character: a separator goes, anything else stays. */
  lemma StripSeparatorsChar(c: char)
    ensures StripSeparators([c]) == if Separator(c) then [] else [c]
  {
    assert [c][1..] == [];
  }

  /** Stripping works character by character: it distributes over
      concatenation, so every other character is kept, in order. */
  lemma {:induction false} StripSeparatorsAppend(a: string, b: string)
    ensures StripSeparators(a + b) == StripSeparators(a) + StripSeparators(b)
    decreases |a|
  {
    if |a| == 0 {
      assert a + b == b;
    } else {
      StripSeparatorsAppend(a[1..], b);
      assert (a + b)[1..] == a[1..] + b;
    }
  }

  /** The first alternative `^[\+]?[1-9][\d]{0,15}$`. */
  predicate International(s: string)
  {
    var t := if |s| > 0 && s[0] == '+' then s[1..] else s;
    1 <= |t| <= 16 && '1' <= t[0] <= '9' && Digits(t[1..])
  }

  /** `count` digits starting at `i`. */
  predicate DigitsAt(s: string, i: nat, count: nat)
  {
    i + count <= |s| && Digits(s[i..i + count])
  }

  /** The second alternative `^[\(]?[\d]{3}[\)]?[\s\-]?[\d]{3}[\s\-]?[\d]{4}$`,
      matched left to right; every optional character differs from a digit, so
      taking it whenever it is there is the only way to match. */
  predicate Local(s: string)
  {
    var i0 := if |s| > 0 && s[0] == '(' then 1 else 0;
    DigitsAt(s, i0, 3) &&
    var i1 := if i0 + 3 < |s| && s[i0 + 3] == ')' then i0 + 4 else i0 + 3;
    var i2 := if i1 < |s| && (IsJsSpace(s[i1]) || s[i1] == '-') then i1 + 1 else i1;
    DigitsAt(s, i2, 3) &&
    var i3 := if i2 + 3 < |s| && (IsJsSpace(s[i2 + 3]) || s[i2 + 3] == '-') then i2 + 4 else i2 + 3;
    DigitsAt(s, i3, 4) && i3 + 4 == |s|
  }

  /** `validatePhone`. */
  predicate ValidPhone(phone: string)
  {
    var s := StripSeparators(phone);
    International(s) || Local(s)
  }

  /** Once the separators are gone the second alternative is just ten digits,
      so a phone number is valid exactly when, stripped, it is an optional `+`,
      a digit 1-9 and at most fifteen more digits, or exactly ten digits. */
  lemma PhoneRule(phone: string)
    ensures var s := StripSeparators(phone);
            ValidPhone(phone) <==> International(s) || (|s| == 10 && Digits(s))
  {
    var s := StripSeparators(phone);
    if |s| == 10 && Digits(s) {
      assert !Separator(s[3]) && !Separator(s[6]);
      assert s[0..3] + s[3..6] + s[6..10] == s;
      assert Local(s);
    }
    if Local(s) {
      assert s[0] != '(';
      assert !Separator(s[3]);
      assert !Separator(s[6]);
      assert |s| == 10;
      assert forall k | 0 <= k < 3 :: s[k] == s[0..3][k];
      assert forall k | 3 <= k < 6 :: s[k] == s[3..6][k - 3];
      assert forall k | 6 <= k < 10 :: s[k] == s[6..10][k - 6];
    }
  }

  datatype Form = Form(fullName: string, email: string, phone: string, password: string,
                       studentId: string, branch: string, year: string)

  datatype Profile = Profile(fullName: string, email: string, phone: string, studentId: string,
                             branch: string, year: string, registrationDate: string)

  /** The ladder's failures, in source order. */
  datatype Problem =
    | MissingName | MissingEmail | InvalidEmail | MissingPhone | InvalidPhone
    | MissingPassword | ShortPassword | MissingStudentId | MissingBranch | MissingYear

  /** The message shown for each failure. */
  function Message(p: Problem): string
  {
    match p
    case MissingName => "Please enter your full name"
    case MissingEmail => "Please enter your email address"
    case InvalidEmail => "Please enter a valid email address"
    case MissingPhone => "Please enter your phone number"
    case InvalidPhone => "Please enter a valid phone number"
    case MissingPassword => "Please enter a password"
    case ShortPassword => "Password must be at least 8 characters long"
    case MissingStudentId => "Please enter your student ID"
    case MissingBranch => "Please enter your branch/specialization"
    case MissingYear => "Please select your year"
  }

  /** `field.trim()` is not empty: the field holds something besides white
      space. */
  predicate Filled(s: string)
  {
    !AllSpace(s, JS)
  }

  /** `Filled` is the source's test: trimming leaves something. */
  lemma FilledIsTrimmedNonEmpty(s: string)
    ensures Filled(s) <==> Trim(s, JS) != ""
  {
  }

  /** The ladder's checks in source order: whether each passes, and the failure
      reported when it is the first to fail. The password alone is not trimmed,
      and its length is JavaScript's, in UTF-16 code units. */
  function Checks(f: Form): (cs: seq<(bool, Problem)>)
    ensures |cs| == 10
  {
    [ (Filled(f.fullName), MissingName),
      (Filled(f.email), MissingEmail),
      (ValidEmail(f.email), InvalidEmail),
      (Filled(f.phone), MissingPhone),
      (ValidPhone(f.phone), InvalidPhone),
      (f.password != "", MissingPassword),
      (Utf16Length(f.password) >= 8, ShortPassword),
      (Filled(f.studentId), MissingStudentId),
      (Filled(f.branch), MissingBranch),
      (Filled(f.year), MissingYear) ]
  }

  /** Runs a ladder of checks: the report of the first one that fails, if any. */
  function FirstFailure<T(==)>(cs: seq<(bool, T)>): (r: Option<T>)
    ensures r.None? <==> forall m | 0 <= m < |cs| :: cs[m].0
    ensures r.Some? ==> exists i | 0 <= i < |cs| ::
              !cs[i].0 && r.value == cs[i].1 && forall m | 0 <= m < i :: cs[m].0
  {
    if |cs| == 0 then None
    else if !cs[0].0 then Some(cs[0].1)
    else
      var rest := FirstFailure(cs[1..]);
      assert forall m | 1 <= m < |cs| :: cs[1..][m - 1] == cs[m];
      if rest.Some? then
        var i :| 0 <= i < |cs| - 1 && !cs[1..][i].0 && rest.value == cs[1..][i].1
                 && forall m | 0 <= m < i :: cs[1..][m].0;
        assert !cs[i + 1].0 && rest.value == cs[i + 1].1;
        rest
      else rest
  }

  /** `handleSubmit`'s validation: the first failing check's message, or the
      profile to store, built from the fields as typed (untrimmed). */
  function Submit(f: Form, registrationDate: string): (r: Result<Profile, string>)
    ensures r.Success? <==> forall k | 0 <= k < 10 :: Checks(f)[k].0
    ensures r.Failure? ==> exists i | 0 <= i < 10 ::
              !Checks(f)[i].0 && r.error == Message(Checks(f)[i].1) && forall m | 0 <= m < i :: Checks(f)[m].0
    ensures r.Success? ==> r.value == Profile(f.fullName, f.email, f.phone, f.studentId, f.branch, f.year, registrationDate)
  {
    match FirstFailure(Checks(f))
    case Some(problem) => Failure(Message(problem))
    case None => Success(Profile(f.fullName, f.email, f.phone, f.studentId, f.branch, f.year, registrationDate))
  }

  /** The format checks only speak once the field is filled in: a blank e-mail
      is reported as missing, never as malformed. */
  lemma BlankEmailIsMissing(f: Form, date: string)
    requires Filled(f.fullName) && !Filled(f.email)
    ensures Submit(f, date) == Failure("Please enter your email address")
  {
    var cs := Checks(f);
    assert cs[0].0 && !cs[1].0;
    assert cs[1..][1..][0] == cs[2];
  }

  /** The password is not trimmed: eight spaces are accepted as a password. */
  lemma BlankPasswordAccepted(f: Form, date: string)
    requires f.password == "        "
    requires Filled(f.fullName) && ValidEmail(f.email) && ValidPhone(f.phone)
    requires Filled(f.studentId) && Filled(f.branch) && Filled(f.year)
    ensures !Filled(f.password) && Submit(f, date).Success?
  {
    EightSpaces(f.password);
    ValidEmailNotBlank(f.email);
    ValidPhoneNotBlank(f.phone);
    AllChecksPass(f, date);
  }

  lemma EightSpaces(p: string)
    requires p == "        "
    ensures !Filled(p) && Utf16Length(p) == 8
  {
    assert forall k | 0 <= k < |p| :: IsJsSpace(p[k]) && !IsAstral(p[k]);
  }

  /** The length is counted in UTF-16 code units: four emoji are eight units,
      long enough for a password. */
  lemma FourEmojiPasswordAccepted(f: Form, date: string)
    requires f.password == "\U{1F600}\U{1F600}\U{1F600}\U{1F600}"
    requires Filled(f.fullName) && ValidEmail(f.email) && ValidPhone(f.phone)
    requires Filled(f.studentId) && Filled(f.branch) && Filled(f.year)
    ensures |f.password| == 4 && Submit(f, date).Success?
  {
    assert forall k | 0 <= k < |f.password| :: IsAstral(f.password[k]);
    ValidEmailNotBlank(f.email);
    ValidPhoneNotBlank(f.phone);
    AllChecksPass(f, date);
  }

  /** Every check passing lets the form through. */
  lemma AllChecksPass(f: Form, date: string)
    requires Filled(f.fullName) && Filled(f.email) && ValidEmail(f.email)
    requires Filled(f.phone) && ValidPhone(f.phone) && Utf16Length(f.password) >= 8
    requires Filled(f.studentId) && Filled(f.branch) && Filled(f.year)
    ensures Submit(f, date).Success?
  {
    var cs := Checks(f);
    assert cs[0].0 && cs[1].0 && cs[2].0 && cs[3].0 && cs[4].0;
    assert cs[5].0 && cs[6].0 && cs[7].0 && cs[8].0 && cs[9].0;
    TenPass(cs);
  }

  lemma TenPass(cs: seq<(bool, Problem)>)
    requires |cs| == 10
    requires cs[0].0 && cs[1].0 && cs[2].0 && cs[3].0 && cs[4].0
    requires cs[5].0 && cs[6].0 && cs[7].0 && cs[8].0 && cs[9].0
    ensures forall k | 0 <= k < 10 :: cs[k].0
  {
  }

  lemma ValidEmailNotBlank(e: string)
    requires ValidEmail(e)
    ensures Filled(e)
  {
    ValidEmailHasNoSpace(e);
    assert !IsJsSpace(e[0]);
  }

  /** A valid phone number has a character that is not white space. */
  lemma ValidPhoneNotBlank(phone: string)
    requires ValidPhone(phone)
    ensures Filled(phone)
  {
    var s := StripSeparators(phone);
    assert s != [];
    assert s[0] in phone && !IsJsSpace(s[0]);
  }

  /** A valid e-mail address never contains white space. */
  lemma ValidEmailHasNoSpace(e: string)
    requires ValidEmail(e)
    ensures forall k | 0 <= k < |e| :: !IsJsSpace(e[k])
  {
    var i := FirstAt(e);
    forall k | 0 <= k < |e| ensures !IsJsSpace(e[k]) {
      if k < i {
        assert e[k] == e[..i][k];
      } else if k > i {
        assert e[k] == e[i + 1..][k - i - 1];
      }
    }
  }
}

=== FILE: student_profile.dfy ===
/** The student profile page: which stored record the page shows, the
    start/cancel/save editing cycle, the draft edits (one field, the focus-area
    list, a statistic, the picture) and the initials shown when there is no
    picture. Profiles are JSON values, since a stored record may hold anything. */
module StudentProfile {
  import opened Common
  import opened Text
  import opened JsValue

  const DefaultName: string := "Sarah Johnson"
  const DefaultYear: string := "3rd Year"
  const DefaultDepartment: string := "Computer Science"
  const DefaultCategory: string := "Topper"
  const DefaultImage: string := "/placeholder.svg"

  const DefaultStats: Json :=
    JObj(map["notesAccessed" := JNum(247.0), "questionsAsked" := JNum(89.0), "quizzesAttempted" := JNum(34.0)])

  const DefaultFocusAreas: seq<string> :=
    ["Data Structures & Algorithms", "Machine Learning Fundamentals", "Database Management Systems"]

  /** Strings as JSON strings, in order. */
  function Strs(xs: seq<string>): (r: seq<Json>)
    ensures |r| == |xs| && forall k | 0 <= k < |xs| :: r[k] == JStr(xs[k])
  {
    if |xs| == 0 then [] else [JStr(xs[0])] + Strs(xs[1..])
  }

  /** The record the page shows until something is loaded. */
  const DefaultProfile: Json :=
    JObj(map["name" := JStr(DefaultName), "year" := JStr(DefaultYear),
             "department" := JStr(DefaultDepartment), "category" := JStr(DefaultCategory),
             "profileImage" := JStr(DefaultImage), "stats" := DefaultStats,
             "focusAreas" := JArr(Strs(DefaultFocusAreas))])

  /** The own properties an object spread (`{...v}`) copies: an object's fields,
      and none for `null`, `undefined`, booleans and numbers. */
  function Fields(v: Json): map<string, Json>
  {
    if v.JObj? then v.fields else map[]
  }

  /** The properties a stored value carries over by name, out of `keys`; a
      property the value does not have stays out of the record, as it would
      once the record is written back with `JSON.stringify`. */
  function Carried(parsed: Json, keys: set<string>): (m: map<string, Json>)
    ensures m.Keys == keys * Fields(parsed).Keys
    ensures forall k | k in m :: Prop(parsed, k) == Some(m[k])
    ensures forall k | k in keys && k !in m :: Prop(parsed, k).None?
  {
    map k | k in keys && k in Fields(parsed) :: Fields(parsed)[k]
  }

  /** The contact details the sign-up record carries over as they are. */
  const SignupKeys: set<string> := {"email", "phone", "registrationDate"}

  /** The record adapted from the sign-up form's `userProfile`: its name (or
      the default name when it has none), its contact details and registration
      date as stored, and the defaults for everything else. */
  function FromSignup(parsed: Json): (r: Json)
    ensures r.JObj? && Prop(r, "name") == Some(Or(Prop(parsed, "fullName"), JStr(DefaultName)))
    ensures forall k | k in DefaultProfile.fields && k != "name" :: Prop(r, k) == Some(DefaultProfile.fields[k])
    ensures forall k | k !in DefaultProfile.fields :: Prop(r, k) == (if k in SignupKeys then Prop(parsed, k) else None)
  {
    var defaults := DefaultProfile.fields;
    var stored := Fields(parsed);
    var kept := map k | k in defaults.Keys + (SignupKeys * stored.Keys) ::
                  if k in defaults then defaults[k] else stored[k];
    JObj(kept["name" := Or(Prop(parsed, "fullName"), JStr(DefaultName))])
  }

  /** The name a sign-up record is shown under is never blank. */
  lemma SignupNameIsTruthy(parsed: Json)
    ensures Truthy(Prop(FromSignup(parsed), "name").value)
  {
  }

  /** The academic details the legacy `studentProfile` record carries over as
      they are. */
  const LegacyKeys: set<string> :=
    {"degree", "branch", "specialization", "studentId", "email", "phone", "address",
     "dateOfBirth", "guardianName", "guardianPhone", "previousYearMarks",
     "twelfthMarks", "currentSemester", "progressPrediction", "registrationDate"}

  /** The fields the legacy record adapts rather than carries. */
  const LegacyOwnKeys: set<string> :=
    {"name", "year", "department", "profileImage", "stats", "focusAreas", "category"}

  /** The value the legacy record adapts for one of its own fields: name,
      year, department and picture when the stored ones are truthy, otherwise
      the defaults, and always the default statistics, focus areas and
      category. */
  function LegacyField(parsed: Json, key: string): (v: Json)
    ensures key == "name" ==> v == Or(Prop(parsed, "fullName"), JStr(DefaultName))
    ensures key == "year" ==> v == Or(Prop(parsed, "currentYear"), JStr(DefaultYear))
    ensures key == "department" ==> v == Or(Prop(parsed, "department"), JStr(DefaultDepartment))
    ensures key == "profileImage" ==> v == Or(Prop(parsed, "profileImage"), JStr(DefaultImage))
    ensures key in {"stats", "focusAreas", "category"} ==> v == DefaultProfile.fields[key]
  {
    match key
    case "name" => Or(Prop(parsed, "fullName"), JStr(DefaultName))
    case "year" => Or(Prop(parsed, "currentYear"), JStr(DefaultYear))
    case "department" => Or(Prop(parsed, "department"), JStr(DefaultDepartment))
    case "profileImage" => Or(Prop(parsed, "profileImage"), JStr(DefaultImage))
    case "stats" => DefaultStats
    case "focusAreas" => JArr(Strs(DefaultFocusAreas))
    case _ => JStr(DefaultCategory)
  }

  /** The record adapted from the legacy `studentProfile`: its own fields
      adapted, and of every other property just the academic details, as
      stored. */
  function FromLegacy(parsed: Json): (r: Json)
    ensures r.JObj?
    ensures forall k | k in LegacyOwnKeys :: Prop(r, k) == Some(LegacyField(parsed, k))
    ensures forall k | k !in LegacyOwnKeys :: Prop(r, k) == (if k in LegacyKeys then Prop(parsed, k) else None)
  {
    var carried := Carried(parsed, LegacyKeys);
    var m := map k | k in LegacyOwnKeys + carried.Keys :: if k in LegacyOwnKeys then LegacyField(parsed, k) else carried[k];
    LegacyProps(parsed, carried, m);
    JObj(m)
  }

  /** The adapted fields come first; the carried ones are those stored. */
  lemma LegacyProps(parsed: Json, carried: map<string, Json>, m: map<string, Json>)
    requires carried == Carried(parsed, LegacyKeys)
    requires m == map k | k in LegacyOwnKeys + carried.Keys :: if k in LegacyOwnKeys then LegacyField(parsed, k) else carried[k]
    ensures forall k | k in LegacyOwnKeys :: Prop(JObj(m), k) == Some(LegacyField(parsed, k))
    ensures forall k | k !in LegacyOwnKeys :: Prop(JObj(m), k) == (if k in LegacyKeys then Prop(parsed, k) else None)
  {
    OverlayProps(LegacyOwnKeys, LegacyKeys, parsed, carried, m);
  }

  /** Fields laid over the carried ones leave every other key as the carried map has it. */
  lemma OverlayProps(own: set<string>, keys: set<string>, parsed: Json, carried: map<string, Json>, m: map<string, Json>)
    requires carried.Keys <= keys
    requires forall k | k in carried :: Prop(parsed, k) == Some(carried[k])
    requires forall k | k in keys && k !in carried :: Prop(parsed, k).None?
    requires m.Keys == own + carried.Keys
    requires forall k | k in m && k !in own :: m[k] == carried[k]
    ensures forall k | k !in own :: Prop(JObj(m), k) == (if k in keys then Prop(parsed, k) else None)
  {
  }

  /** A legacy record is shown under its own name, year and department when it
      has them, and under the defaults otherwise. */
  lemma LegacyFallbacks(fields: map<string, Json>)
    ensures var r := Load(None, Some(Parsed(JObj(fields))), None);
            && Prop(r, "name") == Some(
                 if "fullName" in fields && Truthy(fields["fullName"]) then fields["fullName"] else JStr(DefaultName))
            && Prop(r, "year") == Some(
                 if "currentYear" in fields && Truthy(fields["currentYear"]) then fields["currentYear"] else JStr(DefaultYear))
            && Prop(r, "department") == Some(
                 if "department" in fields && Truthy(fields["department"]) then fields["department"] else JStr(DefaultDepartment))
  {
    var p := JObj(fields);
    assert LegacyField(p, "name") == Or(Prop(p, "fullName"), JStr(DefaultName));
    assert LegacyField(p, "year") == Or(Prop(p, "currentYear"), JStr(DefaultYear));
    assert LegacyField(p, "department") == Or(Prop(p, "department"), JStr(DefaultDepartment));
  }

  /** What one stored slot holds: `None` when `getItem` gives `null` or the
      empty string (both falsy), otherwise what `JSON.parse` made of it. */
  type Slot = Option<Parsed>

  /** An adapted slot throws when its text does not parse or parses to `null`,
      whose properties cannot be read. */
  predicate Throws(slot: Slot)
  {
    slot.Some? && (slot.value.Malformed? || slot.value.value.JNull?)
  }

  /** The mount effect: the first non-empty slot of `userProfile`,
      `studentProfile` and `user_profile` decides, and the later ones are not
      read; any error inside the effect's `try` leaves the defaults. The third
      slot is shown as stored, whatever it is. */
  function Load(userProfile: Slot, studentProfile: Slot, saved: Slot): (r: Json)
    ensures userProfile.Some? ==>
              r == (if Throws(userProfile) then DefaultProfile else FromSignup(userProfile.value.value))
    ensures userProfile.None? && studentProfile.Some? ==>
              r == (if Throws(studentProfile) then DefaultProfile else FromLegacy(studentProfile.value.value))
    ensures userProfile.None? && studentProfile.None? && saved.Some? ==>
              r == (if saved.value.Malformed? then DefaultProfile else saved.value.value)
    ensures userProfile.None? && studentProfile.None? && saved.None? ==> r == DefaultProfile
  {
    if userProfile.Some? then
      if Throws(userProfile) then DefaultProfile else FromSignup(userProfile.value.value)
    else if studentProfile.Some? then
      if Throws(studentProfile) then DefaultProfile else FromLegacy(studentProfile.value.value)
    else if saved.Some? then
      if saved.value.Malformed? then DefaultProfile else saved.value.value
    else DefaultProfile
  }

  /** A sign-up record shadows both older slots, even when it cannot be read. */
  lemma SignupSlotWins(u: Slot, s1: Slot, s2: Slot, t1: Slot, t2: Slot)
    requires u.Some?
    ensures Load(u, s1, t1) == Load(u, s2, t2)
  {
  }

  /** With no sign-up record, the legacy record shadows the saved one. */
  lemma LegacySlotWins(s: Slot, t1: Slot, t2: Slot)
    requires s.Some?
    ensures Load(None, s, t1) == Load(None, s, t2)
  {
  }

  /** A sign-up record without a usable name is shown under the default name,
      and one with a name is shown under it. */
  lemma SignupNameFallback(fields: map<string, Json>)
    ensures var r := Load(Some(Parsed(JObj(fields))), None, None);
            Prop(r, "name") == Some(
              if "fullName" in fields && Truthy(fields["fullName"]) then fields["fullName"] else JStr(DefaultName))
  {
  }

  /** The page's state: the profile shown, the draft being edited and whether
      the edit form is open. */
  datatype Editor = Editor(profile: Json, draft: Json, editing: bool)

  /** Right after mount the draft is the loaded profile and the form is shut. */
  function Mounted(userProfile: Slot, studentProfile: Slot, saved: Slot): (e: Editor)
    ensures e.draft == e.profile && !e.editing
    ensures e.profile == Load(userProfile, studentProfile, saved)
  {
    var p := Load(userProfile, studentProfile, saved);
    Editor(p, p, false)
  }

  /** `startEditing`: the draft starts from the profile. */
  function Start(e: Editor): (r: Editor)
    ensures r.editing && r.profile == e.profile && r.draft == e.profile
  {
    Editor(e.profile, e.profile, true)
  }

  /** `cancelEditing`: the draft is thrown away. */
  function Cancel(e: Editor): (r: Editor)
    ensures !r.editing && r.profile == e.profile && r.draft == e.profile
  {
    Editor(e.profile, e.profile, false)
  }

  /** `saveEditing`: the draft becomes the profile and is the record written
      under `user_profile`. */
  function Save(e: Editor): (r: (Editor, Json))
    ensures !r.0.editing && r.0.profile == e.draft && r.0.draft == e.draft
    ensures r.1 == e.draft
  {
    (Editor(e.draft, e.draft, false), e.draft)
  }

  /** Whatever was typed, cancelling returns to the profile as it was. */
  lemma CancelDiscardsEdits(e: Editor, typed: Json)
    ensures Cancel(Start(e).(draft := typed)) == Editor(e.profile, e.profile, false)
  {
  }

  /** A saved profile is what the page shows after a reload when no other
      record is stored, as long as it is a record `JSON.parse` gives back. */
  lemma SaveThenReload(e: Editor)
    ensures var (after, written) := Save(e);
            Mounted(None, None, Some(Parsed(written))) == after
  {
  }

  /** `handleDraftChange(key, value)`: `{...prev, [key]: value}`. */
  function Change(draft: Json, key: string, value: Json): (r: Json)
    ensures r.JObj? && Prop(r, key) == Some(value)
    ensures forall k | k != key :: Prop(r, k) == Prop(draft, k)
    ensures r.fields.Keys == Fields(draft).Keys + {key}
  {
    JObj(Fields(draft)[key := value])
  }

  /** Changing a field twice keeps only the second value. */
  lemma ChangeTwice(draft: Json, key: string, a: Json, b: Json)
    ensures Change(Change(draft, key, a), key, b) == Change(draft, key, b)
  {
    assert Fields(draft)[key := a][key := b] == Fields(draft)[key := b];
  }

  /** `handleFocusAreasChange(text)`: the text's comma-separated items, trimmed,
      without empty ones. */
  function FocusAreasChange(draft: Json, text: string): (r: Json)
    ensures r == Change(draft, "focusAreas", JArr(Strs(ParseCommaList(text))))
    ensures forall k | 0 <= k < |r.fields["focusAreas"].items| ::
              var item := r.fields["focusAreas"].items[k];
              item.JStr? && item.s != "" && ',' !in item.s && IsTrimmed(item.s, JS)
  {
    Change(draft, "focusAreas", JArr(Strs(ParseCommaList(text))))
  }

  /** The text area shows the items `", "`-joined; reading that text back as
      typed leaves the draft as it was. */
  lemma FocusAreasShownThenRead(draft: Json, items: seq<string>)
    requires draft.JObj? && "focusAreas" in draft.fields && draft.fields["focusAreas"] == JArr(Strs(items))
    requires forall k | 0 <= k < |items| :: items[k] != "" && ',' !in items[k] && IsTrimmed(items[k], JS)
    ensures FocusAreasChange(draft, Join(items, ", ")) == draft
  {
    var text := Join(items, ", ");
    CommaListRoundTrip(items);
    assert ParseCommaList(text) == items;
    ChangeToSame(draft, "focusAreas", JArr(Strs(ParseCommaList(text))));
  }

  /** Setting a field to the value it already has changes nothing. */
  lemma ChangeToSame(draft: Json, key: string, value: Json)
    requires draft.JObj? && key in draft.fields && draft.fields[key] == value
    ensures Change(draft, key, value) == draft
  {
    assert draft.fields[key := value] == draft.fields;
  }

  /** `Number(value) || 0` for the number typed into a statistic box, with
      `NaN` as `None`: the number itself unless it is zero or not a number. */
  function StatValue(n: Option<real>): (r: real)
    ensures n.Some? && n.value != 0.0 ==> r == n.value
    ensures n.None? || n.value == 0.0 <==> r == 0.0
  {
    if n.Some? && n.value != 0.0 then n.value else 0.0
  }

  /** A statistic edit: only that statistic of the draft changes. */
  function StatChange(draft: Json, key: string, n: Option<real>): (r: Json)
    ensures forall k | k != "stats" :: Prop(r, k) == Prop(draft, k)
    ensures var stats := Prop(r, "stats");
            stats.Some? && Prop(stats.value, key) == Some(JNum(StatValue(n)))
    ensures var stats := Prop(r, "stats").value;
            forall k | k != key :: Prop(stats, k) == (if Prop(draft, "stats").None? then None else Prop(Prop(draft, "stats").value, k))
  {
    var prevStats := if Prop(draft, "stats").Some? then Prop(draft, "stats").value else JNull;
    Change(draft, "stats", Change(prevStats, key, JNum(StatValue(n))))
  }

  /** `handleImageSelected`: no file changes nothing; a file's object URL
      becomes the draft's picture. */
  function ImageSelected(draft: Json, url: Option<string>): (r: Json)
    ensures url.None? ==> r == draft
    ensures url.Some? ==> r == Change(draft, "profileImage", JStr(url.value))
  {
    if url.None? then draft else Change(draft, "profileImage", JStr(url.value))
  }

  /** The first character of a piece, or nothing for an empty piece, whose
      `p[0]` is `undefined` and joins as the empty string. */
  function Head(p: string): (r: string)
    ensures p == "" ==> r == ""
    ensures p != "" ==> r == [p[0]]
  {
    if p == "" then "" else [p[0]]
  }

  /** `name.split(" ").map(p => p[0]).slice(0, 2).join("")`. */
  function Initials(name: string): (r: string)
    ensures |r| <= 2
    ensures forall c | c in r :: c in name && c != ' '
  {
    var pieces := Split(name, ' ');
    var first := Head(pieces[0]);
    var second := if |pieces| > 1 then Head(pieces[1]) else "";
    assert forall c | c in first + second :: c in name && c != ' ' by {
      JoinKeepsParts(pieces, " ", 0);
      if |pieces| > 1 {
        JoinKeepsParts(pieces, " ", 1);
      }
    }
    first + second
  }

  /** A first and a last name give their two first letters. */
  lemma InitialsOfTwoWords(first: string, last: string)
    requires first != "" && last != "" && ' ' !in first && ' ' !in last
    ensures Initials(first + " " + last) == [first[0], last[0]]
  {
    SplitPrefix(first, last, ' ');
    SplitNoSep(last, ' ');
  }

  /** A one-word name gives one letter. */
  lemma InitialsOfOneWord(name: string)
    requires name != "" && ' ' !in name
    ensures Initials(name) == [name[0]]
  {
    SplitNoSep(name, ' ');
  }

  /** A leading space costs the first letter: the empty first piece has no
      character and still takes one of the two places. */
  lemma LeadingSpaceLosesALetter(first: string, last: string)
    requires first != "" && ' ' !in first
    ensures Initials(" " + first + " " + last) == [first[0]]
  {
    var rest := first + " " + last;
    assert " " + first + " " + last == "" + [' '] + rest;
    SplitPrefix("", rest, ' ');
    SplitPrefix(first, last, ' ');
    var pieces := Split(" " + first + " " + last, ' ');
    assert pieces[0] == "" && pieces[1] == first;
  }

  /** The general case: after a first word, the second place goes to what
      follows the first space, which is nothing when a second space follows at
      once ("a  b" gives "a") and which ignores any further words ("Ann Mary
      Smith" gives "AM"). */
  lemma InitialsAfterFirstSpace(first: string, rest: string)
    requires ' ' !in first
    ensures Initials(first + " " + rest) == Head(first) + (if rest != "" && rest[0] != ' ' then [rest[0]] else "")
  {
    SplitPrefix(first, rest, ' ');
    SplitFirstPiece(rest, ' ');
    var pieces := Split(first + " " + rest, ' ');
    assert pieces[0] == first && pieces[1] == Split(rest, ' ')[0];
  }

  /** The first piece of a split starts with the first character, unless the
      text is empty or starts with the separator. */
  lemma SplitFirstPiece(s: string, sep: char)
    ensures |s| > 0 && s[0] != sep ==> Split(s, sep)[0] != "" && Split(s, sep)[0][0] == s[0]
    ensures |s| == 0 || s[0] == sep ==> Split(s, sep)[0] == ""
  {
  }
}

=== FILE: text.dfy ===
/** String helpers with the exact semantics of the JavaScript and Python
    built-ins the source calls: white space, trimming, ASCII lower-casing,
    substring search, splitting on a character and joining. */
module Text {
  import opened Common

  type String = seq<char>

  /** Whose notion of white space a helper follows. */
  datatype Runtime = JS | Python

  /** JavaScript's `\s` class, which `String.prototype.trim` also strips. */
  predicate IsJsSpace(c: char)
  {
    || c == '\t' || c == '\n' || c == '\U{000B}' || c == '\U{000C}' || c == '\r' || c == ' '
    || c == '\U{00A0}' || c == '\U{1680}' || ('\U{2000}' <= c <= '\U{200A}')
    || c == '\U{2028}' || c == '\U{2029}' || c == '\U{202F}' || c == '\U{205F}'
    || c == '\U{3000}' || c == '\U{FEFF}'
  }

  /** Python's `str.isspace`, which `str.strip()` and `str.split()` follow. */
  predicate IsPySpace(c: char)
  {
    || c == '\t' || c == '\n' || c == '\U{000B}' || c == '\U{000C}' || c == '\r'
    || ('\U{001C}' <= c <= '\U{001F}') || c == ' ' || c == '\U{0085}' || c == '\U{00A0}'
    || c == '\U{1680}' || ('\U{2000}' <= c <= '\U{200A}') || c == '\U{2028}'
    || c == '\U{2029}' || c == '\U{202F}' || c == '\U{205F}' || c == '\U{3000}'
  }

  predicate IsSpace(c: char, rt: Runtime)
  {
    if rt == JS then IsJsSpace(c) else IsPySpace(c)
  }

  /** Length of the run of white space that starts at index `i`. */
  function SpaceRun(s: String, i: nat, rt: Runtime): (n: nat)
    requires i <= |s|
    ensures i + n <= |s|
    ensures forall k | i <= k < i + n :: IsSpace(s[k], rt)
    ensures i + n == |s| || !IsSpace(s[i + n], rt)
    decreases |s| - i
  {
    if i == |s| || !IsSpace(s[i], rt) then 0 else 1 + SpaceRun(s, i + 1, rt)
  }

  /** A white-space run inside the tail of a concatenation is the tail's own run. */
  lemma {:induction false} SpaceRunShift(head: String, tail: String, j: nat, rt: Runtime)
    requires j <= |tail|
    ensures SpaceRun(head + tail, |head| + j, rt) == SpaceRun(tail, j, rt)
    decreases |tail| - j
  {
    if j < |tail| {
      assert (head + tail)[|head| + j] == tail[j];
      SpaceRunShift(head, tail, j + 1, rt);
    }
  }

  /** Length of the run of white space that ends the string. */
  function TrailingSpace(s: String, rt: Runtime): (n: nat)
    ensures n <= |s|
    ensures forall k | |s| - n <= k < |s| :: IsSpace(s[k], rt)
    ensures n == |s| || !IsSpace(s[|s| - n - 1], rt)
  {
    if |s| == 0 || !IsSpace(s[|s| - 1], rt) then 0
    else
      var m := TrailingSpace(s[..|s| - 1], rt);
      assert forall k | |s| - 1 - m <= k < |s| - 1 :: s[..|s| - 1][k] == s[k];
      1 + m
  }

  predicate AllSpace(s: String, rt: Runtime)
  {
    forall k | 0 <= k < |s| :: IsSpace(s[k], rt)
  }

  /** Index of the first character `Trim` keeps. */
  function TrimStart(s: String, rt: Runtime): (a: nat)
    ensures a <= |s|
  {
    SpaceRun(s, 0, rt)
  }

  /** JavaScript `trim()` (rt = JS) or Python `strip()` (rt = Python). */
  function Trim(s: String, rt: Runtime): (r: String)
    ensures TrimStart(s, rt) + |r| <= |s|
    ensures r == s[TrimStart(s, rt)..TrimStart(s, rt) + |r|]
    ensures r == [] <==> AllSpace(s, rt)
    ensures IsTrimmed(r, rt)
    ensures forall c | c in r :: c in s
  {
    var a := SpaceRun(s, 0, rt);
    var rest := s[a..];
    var b := TrailingSpace(rest, rt);
    var r := rest[..|rest| - b];
    assert r == s[a..a + |r|];
    assert r == [] ==> a == |s|;
    assert r != [] ==> !IsSpace(r[0], rt) && !IsSpace(r[|r| - 1], rt) && !AllSpace(s, rt) by {
      if r != [] {
        assert r[0] == s[a] && r[|r| - 1] == rest[|rest| - b - 1];
      }
    }
    assert forall c | c in r :: c in s by {
      forall c | c in r
        ensures c in s
      {
        var i :| 0 <= i < |r| && r[i] == c;
        assert s[a + i] == c;
      }
    }
    r
  }

  /** A string that `Trim` leaves as it is. */
  predicate IsTrimmed(s: String, rt: Runtime)
  {
    s == [] || (!IsSpace(s[0], rt) && !IsSpace(s[|s| - 1], rt))
  }

  lemma TrimmedIsFixed(s: String, rt: Runtime)
    requires IsTrimmed(s, rt)
    ensures Trim(s, rt) == s
  {
    if s != [] {
      assert SpaceRun(s, 0, rt) == 0;
      assert TrailingSpace(s, rt) == 0;
    }
  }

  /** Trimming ignores white space in front of an already trimmed string. */
  lemma TrimAfterSpaces(pre: String, s: String, rt: Runtime)
    requires AllSpace(pre, rt) && IsTrimmed(s, rt) && s != []
    ensures Trim(pre + s, rt) == s
  {
    var t := pre + s;
    SpaceRunOverSpaces(pre, s, rt, 0);
    assert t[|pre|..] == s;
    assert TrailingSpace(s, rt) == 0;
    assert s[..|s|] == s;
  }

  lemma SpaceRunOverSpaces(pre: String, s: String, rt: Runtime, i: nat)
    requires AllSpace(pre, rt) && s != [] && !IsSpace(s[0], rt) && i <= |pre|
    ensures SpaceRun(pre + s, i, rt) == |pre| - i
    decreases |pre| - i
  {
    if i < |pre| {
      SpaceRunOverSpaces(pre, s, rt, i + 1);
    } else {
      assert (pre + s)[i] == s[0];
    }
  }

  /** ASCII lower-casing; the only letters the model's inputs are assumed to carry. */
  function LowerChar(c: char): char
  {
    if 'A' <= c <= 'Z' then (c as int + 32) as char else c
  }

  function Lower(s: String): (r: String)
    ensures |r| == |s|
    ensures forall k | 0 <= k < |s| :: r[k] == LowerChar(s[k])
  {
    seq(|s|, k requires 0 <= k < |s| => LowerChar(s[k]))
  }

  /** A character outside the Basic Multilingual Plane, which UTF-16 stores as
      a surrogate pair. */
  predicate IsAstral(c: char)
  {
    c as int >= 0x1_0000
  }

  /** JavaScript's `s.length`: the number of UTF-16 code units, two for every
      astral character. */
  function Utf16Length(s: String): (n: nat)
    ensures |s| <= n <= 2 * |s|
    ensures (forall k | 0 <= k < |s| :: !IsAstral(s[k])) ==> n == |s|
    ensures (forall k | 0 <= k < |s| :: IsAstral(s[k])) ==> n == 2 * |s|
  {
    if |s| == 0 then 0 else (if IsAstral(s[0]) then 2 else 1) + Utf16Length(s[1..])
  }

  /** JavaScript `s.includes(sub)`, Python `sub in s`. */
  predicate Contains(s: String, sub: String)
  {
    exists i | 0 <= i <= |s| :: sub <= s[i..]
  }

  /** Python `s.startswith(p)`, JavaScript `s.startsWith(p)`. */
  predicate StartsWith(s: String, p: String)
  {
    p <= s
  }

  /** `parts.join(sep)`. */
  function Join(parts: seq<String>, sep: String): (r: String)
    ensures |parts| == 1 ==> r == parts[0]
  {
    if |parts| == 0 then ""
    else if |parts| == 1 then parts[0]
    else parts[0] + sep + Join(parts[1..], sep)
  }

  lemma JoinAppend(parts: seq<String>, x: String, sep: String)
    requires |parts| >= 1
    ensures Join(parts + [x], sep) == Join(parts, sep) + sep + x
  {
    if |parts| == 1 {
      assert parts + [x] == [parts[0], x];
    } else {
      assert (parts + [x])[1..] == parts[1..] + [x];
      JoinAppend(parts[1..], x, sep);
    }
  }

  /** Every character of a part shows up in the joined string. */
  lemma {:induction false} JoinKeepsParts(parts: seq<String>, sep: String, k: nat)
    requires k < |parts|
    ensures forall c | c in parts[k] :: c in Join(parts, sep)
    decreases |parts|
  {
    if |parts| > 1 && k > 0 {
      JoinKeepsParts(parts[1..], sep, k - 1);
    }
  }

  /** Joining brings in no character that is in neither a part nor the separator. */
  lemma {:induction false} JoinAvoids(parts: seq<String>, sep: String, c: char)
    requires c !in sep
    requires forall k | 0 <= k < |parts| :: c !in parts[k]
    ensures c !in Join(parts, sep)
    decreases |parts|
  {
    if |parts| > 1 {
      JoinAvoids(parts[1..], sep, c);
    }
  }

  /** JavaScript `s.split(c)` / Python `s.split(c)` for a one-character separator. */
  function Split(s: String, sep: char): (parts: seq<String>)
    ensures |parts| >= 1
    ensures forall k | 0 <= k < |parts| :: sep !in parts[k]
    ensures Join(parts, [sep]) == s
  {
    if |s| == 0 then [""]
    else
      var rest := Split(s[1..], sep);
      if s[0] == sep then
        assert [sep] + Join(rest, [sep]) == s;
        [""] + rest
      else
        var head := [s[0]] + rest[0];
        var parts := [head] + rest[1..];
        assert parts[1..] == rest[1..];
        assert Join(parts, [sep]) == s by {
          if |rest| == 1 {
          } else {
            assert Join(rest, [sep]) == rest[0] + [sep] + Join(rest[1..], [sep]);
          }
        }
        parts
  }

  /** The other half of the round trip: splitting what was joined gives the parts back. */
  lemma {:induction false} SplitJoin(parts: seq<String>, sep: char)
    requires |parts| >= 1
    requires forall k | 0 <= k < |parts| :: sep !in parts[k]
    ensures Split(Join(parts, [sep]), sep) == parts
  {
    if |parts| == 1 {
      SplitNoSep(parts[0], sep);
    } else {
      SplitJoin(parts[1..], sep);
      SplitPrefix(parts[0], Join(parts[1..], [sep]), sep);
      assert Join(parts, [sep]) == parts[0] + [sep] + Join(parts[1..], [sep]);
      assert [parts[0]] + parts[1..] == parts;
    }
  }

  /** A character missing from the text is missing from every piece of it. */
  lemma SplitAvoids(s: String, sep: char, c: char)
    requires c !in s
    ensures forall k | 0 <= k < |Split(s, sep)| :: c !in Split(s, sep)[k]
  {
    var parts := Split(s, sep);
    forall k | 0 <= k < |parts|
      ensures c !in parts[k]
    {
      JoinKeepsParts(parts, [sep], k);
    }
  }

  lemma {:induction false} SplitNoSep(s: String, sep: char)
    requires sep !in s
    ensures Split(s, sep) == [s]
  {
    if |s| > 0 {
      SplitNoSep(s[1..], sep);
      assert [s[0]] + s[1..] == s;
    }
  }

  lemma {:induction false} SplitPrefix(a: String, b: String, sep: char)
    requires sep !in a
    ensures Split(a + [sep] + b, sep) == [a] + Split(b, sep)
    decreases |a|
  {
    var s := a + [sep] + b;
    if |a| == 0 {
      assert s[1..] == b;
    } else {
      assert s[1..] == a[1..] + [sep] + b;
      SplitPrefix(a[1..], b, sep);
      assert [a[0]] + a[1..] == a;
    }
  }

  /** Keeps the non-empty strings, in order: a subsequence holding every
      non-empty string as often as the input does, and no empty one. */
  function NonEmpty(xs: seq<String>): (r: seq<String>)
    ensures |r| <= |xs|
    ensures forall k | 0 <= k < |r| :: r[k] != [] && r[k] in xs
    ensures SubseqOf(r, xs)
    ensures forall x | x != [] :: multiset(r)[x] == multiset(xs)[x]
  {
    if |xs| == 0 then []
    else
      var rest := NonEmpty(xs[1..]);
      assert xs == [xs[0]] + xs[1..];
      if xs[0] == [] then
        SubseqOfSkip(rest, xs[0], xs[1..]);
        rest
      else
        assert ([xs[0]] + rest)[1..] == rest;
        [xs[0]] + rest
  }

  /** Filtering distributes over concatenation. */
  lemma {:induction false} NonEmptyAppend(xs: seq<String>, ys: seq<String>)
    ensures NonEmpty(xs + ys) == NonEmpty(xs) + NonEmpty(ys)
    decreases |xs|
  {
    if |xs| == 0 {
      assert xs + ys == ys;
    } else {
      NonEmptyAppend(xs[1..], ys);
      NonEmptyAppendStep(xs, ys, NonEmpty(xs[1..]), NonEmpty(ys));
    }
  }

  lemma NonEmptyAppendStep(xs: seq<String>, ys: seq<String>, rx: seq<String>, ry: seq<String>)
    requires |xs| > 0 && rx == NonEmpty(xs[1..]) && ry == NonEmpty(ys)
    requires NonEmpty(xs[1..] + ys) == rx + ry
    ensures NonEmpty(xs + ys) == NonEmpty(xs) + ry
  {
    ConcatTail(xs, ys);
    NonEmptyCons(xs);
    NonEmptyCons(xs + ys);
    var h: seq<String> := if xs[0] == [] then [] else [xs[0]];
    ConcatAssoc(h, rx, ry);
  }

  /** One step of the filter. */
  lemma NonEmptyCons(xs: seq<String>)
    requires |xs| > 0
    ensures NonEmpty(xs) == (if xs[0] == [] then [] else [xs[0]]) + NonEmpty(xs[1..])
  {
  }

  function TrimAll(xs: seq<String>, rt: Runtime): (r: seq<String>)
    ensures |r| == |xs|
    ensures forall k | 0 <= k < |xs| :: r[k] == Trim(xs[k], rt)
  {
    seq(|xs|, k requires 0 <= k < |xs| => Trim(xs[k], rt))
  }

  /** `s.split(",").map(t => t.trim()).filter(Boolean)`: the comma-list parser the
      notes page (tags) and the profile page (focus areas) share. */
  function ParseCommaList(s: String): (items: seq<String>)
    ensures forall k | 0 <= k < |items| :: items[k] != "" && ',' !in items[k]
    ensures forall k | 0 <= k < |items| :: IsTrimmed(items[k], JS)
    ensures SubseqOf(items, TrimAll(Split(s, ','), JS))
    ensures forall x | x != "" :: multiset(items)[x] == multiset(TrimAll(Split(s, ','), JS))[x]
  {
    var pieces := Split(s, ',');
    var trimmed := TrimAll(pieces, JS);
    TrimAllShape(pieces, ',');
    NonEmpty(trimmed)
  }

  /** Trimming pieces free of a separator gives trimmed pieces free of it. */
  lemma TrimAllShape(pieces: seq<String>, sep: char)
    requires forall k | 0 <= k < |pieces| :: sep !in pieces[k]
    ensures forall t | t in TrimAll(pieces, JS) :: sep !in t && IsTrimmed(t, JS)
  {
    forall t | t in TrimAll(pieces, JS)
      ensures sep !in t && IsTrimmed(t, JS)
    {
      var j :| 0 <= j < |pieces| && TrimAll(pieces, JS)[j] == t;
      assert t == Trim(pieces[j], JS);
    }
  }

  /** A text without commas is one item, trimmed, or none when it is blank. */
  lemma ParseCommaListPiece(p: String)
    requires ',' !in p
    ensures ParseCommaList(p) == if AllSpace(p, JS) then [] else [Trim(p, JS)]
  {
    SplitNoSep(p, ',');
    assert TrimAll([p], JS) == [Trim(p, JS)];
  }

  /** The items on either side of a comma are parsed separately, in order. */
  lemma ParseCommaListAppend(a: String, b: String)
    ensures ParseCommaList(a + "," + b) == ParseCommaList(a) + ParseCommaList(b)
  {
    var pa := Split(a, ',');
    var pb := Split(b, ',');
    SplitAppend(a, b, ',');
    ParseCommaListIs(a + "," + b);
    ParseCommaListIs(a);
    ParseCommaListIs(b);
    TrimAllAppend(pa, pb, JS);
    NonEmptyAppend(TrimAll(pa, JS), TrimAll(pb, JS));
  }

  lemma ParseCommaListIs(s: String)
    ensures ParseCommaList(s) == NonEmpty(TrimAll(Split(s, ','), JS))
  {
  }

  lemma TrimAllAppend(xs: seq<String>, ys: seq<String>, rt: Runtime)
    ensures TrimAll(xs + ys, rt) == TrimAll(xs, rt) + TrimAll(ys, rt)
  {
  }

  /** Splitting at one separator splits the two sides independently. */
  lemma {:induction false} SplitAppend(a: String, b: String, sep: char)
    ensures Split(a + [sep] + b, sep) == Split(a, sep) + Split(b, sep)
    decreases |a|
  {
    var s := a + [sep] + b;
    if |a| == 0 {
      assert s == [sep] + b && s[1..] == b;
      SplitCons(s, sep);
    } else {
      assert s[0] == a[0] && s[1..] == a[1..] + [sep] + b;
      SplitAppend(a[1..], b, sep);
      SplitCons(s, sep);
      SplitCons(a, sep);
      SplitAppendStep(a, sep, Split(a[1..], sep), Split(b, sep), Split(s[1..], sep));
    }
  }

  lemma SplitAppendStep(a: String, sep: char, ra: seq<String>, rb: seq<String>, r: seq<String>)
    requires |a| > 0 && |ra| > 0 && r == ra + rb
    ensures a[0] == sep ==> [""] + r == ([""] + ra) + rb
    ensures a[0] != sep ==> [[a[0]] + r[0]] + r[1..] == ([[a[0]] + ra[0]] + ra[1..]) + rb
  {
    if a[0] != sep {
      assert r[0] == ra[0];
      assert r[1..] == ra[1..] + rb;
    }
  }

  /** One step of the split. */
  lemma SplitCons(s: String, sep: char)
    requires |s| > 0
    ensures s[0] == sep ==> Split(s, sep) == [""] + Split(s[1..], sep)
    ensures s[0] != sep ==> Split(s, sep) == [[s[0]] + Split(s[1..], sep)[0]] + Split(s[1..], sep)[1..]
  {
  }

  /** `" " + x` for every element but the first: the pieces `", "`-joined items
      split into at the commas. */
  function SpacePrefixed(xs: seq<String>): (r: seq<String>)
    ensures |r| == |xs|
    ensures forall k | 0 <= k < |xs| :: r[k] == " " + xs[k]
  {
    if |xs| == 0 then [] else [" " + xs[0]] + SpacePrefixed(xs[1..])
  }

  /** Items shown as `items.join(", ")` are read back unchanged by `ParseCommaList`. */
  lemma CommaListRoundTrip(items: seq<String>)
    requires forall k | 0 <= k < |items| :: items[k] != "" && ',' !in items[k] && IsTrimmed(items[k], JS)
    ensures ParseCommaList(Join(items, ", ")) == items
  {
    if |items| == 0 {
      assert Join(items, ", ") == "";
      assert Split("", ',') == [""];
      assert Trim("", JS) == "";
      assert TrimAll([""], JS) == [""];
      assert NonEmpty([""]) == [];
    } else {
      PiecesRoundTrip(items);
    }
  }

  lemma PiecesRoundTrip(items: seq<String>)
    requires |items| >= 1
    requires forall k | 0 <= k < |items| :: items[k] != "" && ',' !in items[k] && IsTrimmed(items[k], JS)
    ensures NonEmpty(TrimAll(Split(Join(items, ", "), ','), JS)) == items
  {
    var pieces := [items[0]] + SpacePrefixed(items[1..]);
    JoinWithSpace(items);
    PiecesAvoidComma(items);
    SplitJoin(pieces, ',');
    TrimPieces(items);
    NonEmptyKeepsAll(items);
  }

  lemma PiecesAvoidComma(items: seq<String>)
    requires |items| >= 1
    requires forall k | 0 <= k < |items| :: ',' !in items[k]
    ensures forall k | 0 <= k < |items| :: ',' !in ([items[0]] + SpacePrefixed(items[1..]))[k]
  {
    var pieces := [items[0]] + SpacePrefixed(items[1..]);
    forall k | 1 <= k < |items| ensures ',' !in pieces[k] {
      assert pieces[k] == " " + items[k];
    }
  }

  lemma TrimPieces(items: seq<String>)
    requires |items| >= 1
    requires forall k | 0 <= k < |items| :: items[k] != "" && IsTrimmed(items[k], JS)
    ensures TrimAll([items[0]] + SpacePrefixed(items[1..]), JS) == items
  {
    var pieces := [items[0]] + SpacePrefixed(items[1..]);
    TrimmedIsFixed(items[0], JS);
    assert AllSpace(" ", JS);
    forall k | 1 <= k < |pieces| ensures Trim(pieces[k], JS) == items[k] {
      assert pieces[k] == " " + items[k];
      TrimAfterSpaces(" ", items[k], JS);
    }
  }

  lemma {:induction false} JoinWithSpace(items: seq<String>)
    requires |items| >= 1
    ensures Join(items, ", ") == Join([items[0]] + SpacePrefixed(items[1..]), [','])
    decreases |items|
  {
    if |items| > 1 {
      var rest := items[1..];
      JoinWithSpace(rest);
      var tail := [rest[0]] + SpacePrefixed(rest[1..]);
      var pieces := [items[0]] + SpacePrefixed(rest);
      assert SpacePrefixed(rest) == [" " + rest[0]] + SpacePrefixed(rest[1..]);
      assert pieces[1..] == [" " + rest[0]] + SpacePrefixed(rest[1..]);
      JoinSpaceHead(tail, [',']);
      assert Join(pieces, [',']) == items[0] + [','] + Join(pieces[1..], [',']);
      assert Join(items, ", ") == items[0] + ", " + Join(rest, ", ");
    }
  }

  lemma JoinSpaceHead(ps: seq<String>, sep: String)
    requires |ps| >= 1
    ensures Join([" " + ps[0]] + ps[1..], sep) == " " + Join(ps, sep)
  {
    var qs := [" " + ps[0]] + ps[1..];
    if |ps| > 1 {
      assert qs[1..] == ps[1..];
    }
  }

  lemma NonEmptyKeepsAll(xs: seq<String>)
    requires forall k | 0 <= k < |xs| :: xs[k] != []
    ensures NonEmpty(xs) == xs
  {
    if |xs| > 0 {
      NonEmptyKeepsAll(xs[1..]);
      assert [xs[0]] + xs[1..] == xs;
    }
  }
}
